=== FILE: README.md ===
# Judge and scrambler assignment, modelled in Dafny

The repository is a small tool for WCA competitions. It reads a groups CSV, where
each row is a competitor and each event column holds the group label they compete
in (for example "Red 1"). For every group of every event it then picks scramblers
and judges from the competitors of other groups. It writes one judge table and
one scramble table and prints warnings for groups left short and for competitors
with no judging duty. A companion script, `check.py`, reads the tables back and
asserts that nobody competes and judges, or judges and scrambles, in the same
time slot.

This project models that core with immutable values:

- `Common`: names, event ids and labels as strings; `Option`, `Result`, and
  sequence helpers.
- `Labels`: Python's `str.split(" ")`, `split(" ")[-1]` and `str.endswith` on
  group labels.
- `Concurrency`: `filter_concurrent_groups`, which splits an event's groups into
  concurrent and non-concurrent ones by a suffix test.
- `Assignments`: the two nested defaultdict tables (competitor → event → label,
  where "" means unassigned) with their reads (`Slot`) and writes (`Put`).
- `ScheduleIndex`: the row scan of `init_in_memory_group_representations`, and
  the pool shuffle given as a multiset-preserving function.
- `RoleFiller`: `assign_role_to_group`, which pops the last competitor of each
  listed pool in turn, destructively, until one eligible competitor is committed.
- `Driver`: `assign_scramblers_and_judges`.
  - A scrambler phase and a judge phase for each group.
  - The judge phase falls back to the experienced-competitor list.
  - It threads the pools, the tables, the experienced list and the warnings
    through methods whose loops carry invariants.
  - Each loop also has a reference definition as a recursive function over
    `assign_role_to_group`: `PoolCalls`, `Fallbacks`, `JudgeCalls`,
    `GroupCalls`, `EventCalls` and `PassCalls`. The methods are proved equal
    to them.
- `Output`: the row filter and the zero-judging warnings of
  `make_output_csv_files`, and `DictWriter`'s error for a column outside the
  field names.
- `Cli`: the two argument checks, the `int(wca_id[0:4])` year parse and the
  experienced-competitor list.
- `Checker`: the per-event slot-conflict assertion of `check.py`, including
  Python's chained `!=`.
- `Pipeline`: the `__main__` block end to end. Its inputs are:
  - the rows of the groups file;
  - the recognised event set;
  - the configuration values;
  - the delegate set and the name-to-WCA-ID map;
  - two shuffle functions.

Points where the code's behaviour is easy to misread:

- The group being filled always lands in its own concurrent list. It is not
  excluded from both lists.
- Concurrency is the suffix test `g.endswith(group_number)`, not equality of
  slot numbers. "Red 11" counts as concurrent with "Red 1".
- Scrambler eligibility never looks at delegates.
- The judge fallback inspects `experienced_competitors[0]` but removes the
  list's last element. Each attempt counts, whether it commits or not.
- A recognised column that is empty in every row still becomes an entry of
  every competitor's tables, but never a field name, since field names come
  from the groups seen. The first row written then raises `DictWriter`'s ValueError.
  Pipeline.Run states when that error happens instead of ruling it out.

## Model

| member | source | states |
|---|---|---|
| Labels.SplitOnSpace | main.py:13 | `split(" ")` always yields at least one token, and no token contains a space |
| Labels.JoinSplit | main.py:13 | joining the tokens of a split with single spaces gives back the original label, so nothing is lost |
| Labels.SplitJoin | check.py:28-30 | splitting a space-join of space-free tokens gives back exactly those tokens |
| Labels.SplitWithoutSpace | check.py:28 | a label without a space splits into the one-token list of itself |
| Labels.SplitAtFirstSpace | main.py:13 | splitting `a + " " + b`, with `a` space-free, cuts exactly at the joining space |
| Labels.LastTokenShape | main.py:13 | the last token contains no space, ends the label, and is either the whole label or preceded by a space |
| Labels.SameLastTokenEndsWith | main.py:18 | a label with the same last token as the target passes the target's `endswith` test |
| Concurrency.FilterConcurrent | main.py:12-23 | the two lists interleave back into the input, each in input order; every concurrent label ends with the target's last token and no non-concurrent label does |
| Concurrency.InterleavesMultiset | main.py:17-21 | an interleaving keeps every element exactly once (a multiset union) |
| Concurrency.FilterConcurrentPartitions | main.py:17-21 | the two lists together hold each input label exactly as often as the input does; a label is in each list exactly when it is in the input and passes (resp. fails) the suffix test |
| Concurrency.TargetIsConcurrent | main.py:13-19 | a listed target group is always in its own concurrent list and never in the non-concurrent one |
| Concurrency.NonConcurrentSlotDiffers | main.py:13-21 | every non-concurrent label has a last token different from the target's |
| Concurrency.SuffixTestOverApproximates | main.py:18 | "Red 11" and "Red 1" have different slot tokens, yet "Red 11" is classified concurrent with "Red 1"; the full split of a concrete event is computed |
| Assignments.Put | main.py:79 | a nested-defaultdict write adds the competitor as a key, sets exactly that slot, and leaves every other slot and competitor as it was |
| Assignments.IdleIffNoneAssigned | main.py:150 | a competitor has no non-empty entry exactly when the count of non-empty entries is zero |
| Assignments.AssignedCountAfterWrite | main.py:77-79 | writing one entry raises the count of non-empty entries by at most one |
| ScheduleIndex.AddCell | main.py:47-51 | a recognised column creates both empty slots; a non-empty label appends the name to the end of that pool; an unrecognised column changes nothing; all other slots and pools are unchanged |
| ScheduleIndex.AddCellKeepsScanned | main.py:46-51 | one cell keeps the scan invariant: duplicate-free key orders, every pool member a key of both tables, nothing assigned, no pool for the empty label, no empty pool |
| ScheduleIndex.BuildScanned | main.py:45-51 | the scan of any rows ends in the scan invariant |
| ScheduleIndex.BuildPools | main.py:45-51 | each pool the scan builds equals the reference definition (the names of rows holding that cell, in file order) for a recognised event and non-empty label, and is empty otherwise |
| ScheduleIndex.BuildCompetitors | main.py:45-49 | a name becomes a table key exactly when some row of that name has a recognised column, even with an empty label |
| ScheduleIndex.ShufflePools | main.py:57-60 | every pool becomes a permutation of itself; tables, key orders and group orders are unchanged |
| ScheduleIndex.ShuffleKeepsScanned | main.py:53 | the shuffle keeps the scan invariant |
| RoleFiller.PopOne | main.py:72-75 | an empty pool is skipped with nothing changed; otherwise the pool loses exactly its last element, which is taken iff it is eligible; other pools are unchanged |
| RoleFiller.PopEligible | main.py:71-84 | the visit keeps the pool keys, and anyone it takes passes the eligibility test |
| RoleFiller.PopStopsAtCommit | main.py:71-83 | a commit ends the visit: the committed competitor is the last one removed from some listed pool, and every pool not listed up to that point is untouched |
| RoleFiller.AssignRole | main.py:62-84 | a failed call leaves the table as it was; a commit writes exactly `[p][event] := group` for an eligible `p` |
| RoleFiller.PopShrinksPools | main.py:74-75 | each pool only loses elements from its end (rejected competitors are never put back), and unlisted pools are untouched |
| RoleFiller.PopBoundedByListings | main.py:71-75 | a pool loses at most as many elements as it is listed |
| RoleFiller.PopTakesFromListedPool | main.py:74-83 | the committed competitor is the last element removed from some listed pool |
| RoleFiller.PopDiscardsOnlyIneligible | main.py:74-83 | every removed competitor who was not committed failed the eligibility test |
| RoleFiller.PopFailureVisitsAll | main.py:71-84 | on failure every pool lost exactly min(its length, times listed) elements, so every listed pool was visited |
| RoleFiller.AssignRoleKeepsCap | main.py:76-80 | a scrambling call keeps every competitor within the scramble cap |
| RoleFiller.AssignRoleKeepsHolders | main.py:76-83 | a judging call never gives a delegate a slot; a scrambling call gives slots only to approved scramblers |
| Driver.PoolCalls | main.py:62-84 | a run of up to `n` pool calls keeps the pool keys, commits at most `n` competitors, and ends on a failed call iff it committed fewer than `n` |
| Driver.PoolCallsUnfold | main.py:109-111 | a run of `m` > 0 calls starts with one `assign_role_to_group` call: a failure ends the run on that call's pools with the table unchanged, a commit is followed by the run of `m - 1` calls on what it left |
| Driver.TraceStart | main.py:109 | a loop that has made no call is at the start of the reference run |
| Driver.TraceStep | main.py:109-115 | one more call moves a loop along the reference run: a commit adds its competitor to the committed part, and a failure is where the run ends, with the loop's committed competitors |
| Driver.TraceEnd | main.py:109 | a loop with no calls left is at the reference run's end, having committed everyone it will |
| Driver.PoolFrameStep | main.py:71-83 | one more call keeps a run's frame: pools only popped, only this event's slots changed to this group for the committed competitors, keys grown only by pool members |
| Driver.ScrambleHoldersStep | main.py:76-80 | one more scrambling commit keeps the committed scramblers approved, and keeps the cap and approved-only invariants |
| Driver.ScramblerPhase | main.py:108-115 | the loop ends exactly where the reference run of `assign_role_to_group` calls ends (`PoolCalls` with the scrambler quota, on the non-concurrent pools): the same pools, scrambling table, scramblers in call order and short flag; it makes one call per scrambler plus one more only when it falls short; at most the quota, all approved, short iff fewer than the quota; the pools are only popped; the cap and approved-only are kept; only the event's slots change, to this group and to the committed scramblers |
| Driver.PoolStep | main.py:121-125 | one judge-phase pool call is exactly one `assign_role_to_group` call on the loop's pools and judging table: its pools and table are the loop's next ones, its commit (if any) is appended to the pool judges, and the pool path stays open iff it committed someone; the step stays on the reference run and keeps the phase invariant |
| Driver.PoolTraceStep | main.py:121-125 | a judging pool call keeps the loop on the reference run, and a failed one hands the loop to the fallback iterations that follow that run |
| Driver.Fallbacks | main.py:124-141 | the reference fallback iterations only fail with the IndexError; giving up takes one attempt more than the list's starting length; not giving up means the quota is met |
| Driver.JudgeCalls | main.py:117-141 | the reference judge phase only fails with the IndexError and keeps the pool keys |
| Driver.FallbackTraceStep | main.py:126-141 | one fallback iteration stays on the reference fallback run, or ends where it gives up |
| Driver.FallbackStep | main.py:124-141 | the attempt fails iff the experienced list is empty (the IndexError); otherwise it commits iff `experienced[0]` is available, and then records that person in this group and drops the list's last element; when not available nothing but the attempt count changes; from a state on the reference fallback run (`Fallbacks`) it fails where that run fails, gives up where it gives up, and otherwise stays on it |
| Driver.JudgeLoop | main.py:117-141 | an error is the reference run failing: the pool calls failed and the fallback iterations after them hit the empty list; otherwise the final state keeps the invariant, gives up iff fewer judges than the quota were committed (after one attempt more than the list's starting length), and then equals the reference fallbacks' end state; a loop that met the quota is still on the reference run |
| Driver.JudgeIteration | main.py:121-141 | one loop iteration: an error is the reference run's failure; a give-up is the reference give-up; otherwise the state stays on the reference run, the pool path never reopens, and progress is made |
| Driver.JudgeEnd | main.py:117-141 | however the loop ends (error, give-up, quota met) its result is the reference `JudgeCalls` outcome |
| Driver.JudgeTraceEnd | main.py:121 | a loop that met the quota has exactly the reference outcome, whether or not the pool path was still open |
| Driver.DoneResult | main.py:117-141 | a finished loop's outcome keeps every promise of the judge phase |
| Driver.JudgePhase | main.py:117-141 | the outcome is exactly `JudgeCalls`, the reference phase (pool calls until the quota or the first failure, then the fallback iterations on the pools and table that call left); judges ≤ quota, and short iff fewer than the quota; with an empty experienced list the phase never falls short; every pool judge is a non-delegate from the pool of a non-concurrent group; each fallback judge is `experienced[0]`, absent from every concurrent pool and with empty entries; one list element is removed from the end per fallback commit; only this event's slots change, to this group |
| Driver.JudgeGroup | main.py:117-141 | the judge phase seen from the group: equal to `JudgeCalls`; the IndexError only when the list is shorter than the quota; short iff fewer judges than the quota; pool judges from non-concurrent pools, every fallback judge `experienced[0]`; the pools of the event's groups are only popped; the delegate-free judging table is kept |
| Driver.GroupShortfalls | main.py:108-141 | a group's warnings name that group, with a scrambler warning iff the scrambler phase fell short and a judge warning iff the judge phase did |
| Driver.Classify | main.py:95 | the driver's classification is `filter_concurrent_groups`, and both lists name groups of the event |
| Driver.AssignGroup | main.py:94-141 | one group is exactly `GroupCalls`, the reference: `filter_concurrent_groups`, the scrambling pool calls on the non-concurrent pools, then `JudgeCalls` on the pools and scrambling table they leave, with the warnings those two produce; the pools are only popped, the experienced list is a prefix of before, quotas are respected, each warning is raised iff its quota is unmet, each judge comes from a non-concurrent group's pool or is `experienced[0]`, only this event's slots change and only to this group, and the table invariants are kept |
| Driver.GroupCallsOf | main.py:95-141 | the reference group outcome is the reference scrambling run followed by the reference judge phase, with the warnings of both |
| Driver.GroupResultOf | main.py:95-141 | one group's outcome keeps the group promises, given those of its scrambler and judge phases |
| Driver.AssignEvent | main.py:93-141 | one event is exactly `EventCalls` over its groups in order, each on the pools, tables and experienced list the previous group left, with the warnings concatenated in group order and a stop at the first failure, which names one of its groups; changed slots hold labels of this event's groups; other events are untouched; the invariants are kept |
| Driver.GroupStep | main.py:94-141 | one group of the event advances the reference `EventCalls` by exactly that group, or fails where it fails; the event invariant is kept |
| Driver.GroupsInvStep | main.py:94-141 | one group's guarantees extend those of the groups before it |
| Driver.ChangedStaysWithin | main.py:94-136 | a change into one group of the event composes with earlier changes into the event's groups |
| Driver.AssignAll | main.py:86-141 | the whole pass is exactly `PassCalls` over the events in order: final tables, pools, experienced list and the warnings of every group in order, or the first failure; slots change only for indexed events and only to labels of that event's groups; keys grow only by pool members and experienced competitors; the cap, approved-only and delegate-free invariants survive; the failure names an indexed group |
| Driver.EventStep | main.py:93-141 | one event of the pass advances the reference `PassCalls` by exactly that event, or fails where it fails; the pass invariant is kept |
| Driver.PassCalls | main.py:93-141 | the reference pass only fails on one of its events |
| Driver.EventCalls | main.py:94-141 | the reference groups of an event keep the pool keys and only fail on one of those groups, naming the event |
| Driver.GroupCalls | main.py:94-141 | the reference group only fails with the IndexError for that group and keeps the pool keys |
| Output.TableRows | main.py:149-152 | a competitor gets a row, in key order, exactly when some entry is non-empty; the row is their entries plus the name column |
| Output.ZeroJudgingWarnings | main.py:153-154 | warnings, in key order, go exactly to the non-delegates with no non-empty judging entry |
| Output.WrittenOrWarned | main.py:149-154 | each non-delegate of the judging table is written or warned, never both |
| Output.FirstMisfit | main.py:147-152 | `writerow` fails at the first row holding a column outside the field names, and only if such a row exists |
| Cli.ValidateArgs | main.py:162-167 | a bad path is reported first; an identifier error is reported only for a good path; no error iff both checks pass |
| Cli.CompetitionIdMatchesRegex | main.py:165-166 | the direct end-of-string test accepts exactly what `re.search('20[0-9]{2}$')` matches, including a match before a final newline |
| Cli.CompetitionIdExamples | main.py:159-167 | "PickeringC2023" and "PickeringC2023\n" are accepted; "2023Open" and "Open1999" are rejected |
| Cli.ParseYear | main.py:190 | the parse fails iff the first (up to four) characters are empty or hold a non-digit; otherwise it is their decimal value, below 10000 |
| Cli.YearRoundTrip | main.py:190 | a four-digit year written at the start of an ID parses back to the same year |
| Cli.ExperiencedList | main.py:185-191 | the list is built iff no non-delegate has an unparsable ID; otherwise the error names the first such non-delegate in key order; the list is a subsequence of the key order holding exactly the experienced non-delegates |
| Cli.ExperiencedHasNoDelegate | main.py:187-188 | delegates never appear in the experienced list |
| Checker.CheckCells | check.py:26-35 | no violation iff every recognised column of the row passes; a reported violation is the first failing column, carrying its observed competing, judging and scrambling tokens (the name and tokens are what the assertion message prints; the column is recorded by the model only, the message does not show it) |
| Checker.CheckSchedule | check.py:19-37 | "clean" iff every row passes; otherwise the report is the first failing row's own violation |
| Checker.SentinelIsNoToken | check.py:31-33 | no slot token equals any of the three sentinels |
| Checker.IdleSlotPasses | check.py:29-35 | a competitor who neither judges nor scrambles an event (including a missing entry) passes for it |
| Checker.CompeteEqualsScramblePasses | check.py:35 | competing and scrambling in the same slot passes, because the chained comparison never compares those two |
| Checker.JudgingOwnSlotFails | check.py:35 | judging the group one competes in fails whenever the label has a slot token |
| Checker.PoolJudgeClearsCompeteCheck | check.py:28-35 | a judge popped from a non-concurrent group's pool clears the compete ≠ judge comparison for the group they judge |
| ScheduleIndex.PoolMemberCompetes | main.py:45-51 | every member of a scanned pool has a schedule row holding that event and group |
| Checker.PoolJudgePassesCompeteCheck | check.py:26-35 | a judge drawn, as Driver.AssignGroup states, from a scanned pool of a group not concurrent with the one they judge has a schedule column of that event where the competing and judging tokens differ |
| Pipeline.AssignedSlotsAreGroups | main.py:93-95 | starting from idle tables, every non-empty slot after the pass is a group of that event in the schedule |
| Pipeline.Scan | main.py:178 | the index is the row scan with its pools reordered; the scan invariant holds, each pool is a permutation of the reference pool, and the keys are exactly the listed competitors |
| Pipeline.Experienced | main.py:185-193 | the list fails iff some non-delegate competitor has an unparsable ID, and the error names the first of them in key order; otherwise it is the shuffle of `Cli.ExperiencedList`, whose members are exactly the experienced non-delegate keys |
| Pipeline.Assign | main.py:195-204 | the pass is exactly `PassCalls` over the scanned index; it keeps the table keys; every assigned slot is a schedule group of that event; with a non-negative cap, the table invariants hold at the end |
| Pipeline.WriteRows | main.py:149-152 | one file's rows: an error iff some row holds a column outside the field names, and it names the competitor of the first such row |
| Pipeline.WriteFiles | main.py:143-154 | both files are written iff every row fits the field names; otherwise the error names the competitor of the first misfit row, in the judge file, or in the scramble file only when every judge row fits; the rows and warnings are those of the filter |
| Pipeline.Write | main.py:206-212 | the field names are `"name"` then the index's events; the files are written iff every row of both tables fits them, otherwise the error is the first misfit row (judge file first); a finished write reports the tables, rows, warnings and shortfalls it was given |
| Pipeline.Run | main.py:156-212 | argument errors iff the checks fail, reporting the first failing check; past them, with `RunPass` the reference pass on the scanned, shuffled index and the shuffled experienced list (`RunTied`): a bad-ID error iff the reference stops at the ID check, naming a listed competitor; an assignment failure iff the reference pass fails, and it is that failure, naming a schedule group; a `DictWriter` error iff some row of the reference tables falls outside the field names `["name"]` + the scanned events, naming the first misfit row (judge file first); a finished run iff none of these, with those field names and the reference tables and shortfall warnings; a finished run also keeps the key, slot, cap, approved-only, delegate-free and row guarantees above |
| Pipeline.RunPassOf | main.py:178-204 | on the scanned, shuffled index, the reference pass is absent exactly when the experienced list fails on an ID, and otherwise is `PassCalls` from the shuffled experienced list |
| Pipeline.TiedBadId | main.py:185-191 | a run stopped at the ID check meets `RunTied` exactly when the reference stops there |
| Pipeline.TiedUnassignable | main.py:195-204 | a run stopped by the assignment pass meets `RunTied` when the reference pass fails the same way |
| Pipeline.TiedMisfit | main.py:206-212 | a run stopped by `DictWriter` meets `RunTied` when its error is the first misfit row of the reference tables |
| Pipeline.TiedOk | main.py:206-212 | a finished run meets `RunTied` when every row of the reference tables fits and it reports those tables and warnings |

## Left out

- CSV reading and writing, and the output file names: rows come in as sequences of (column, value) pairs. The names `main.py` writes and the names `check.py` reads do not match anyway.
- The HTTP request and JSON decoding of the WCIF person list, and the `config.json` load with its defaults. The delegate set, the name-to-WCA-ID map and the configuration values are parameters.
- The `' ('` split of person names at main.py:183: the ID map is given keyed by competitor name.
- `random.shuffle`: pools and the experienced list are reordered by caller-supplied functions that preserve multisets.
- `events.py` is not part of this model. `EVENT_IDS` is the `recognised` parameter.
- argparse and the text of the printed warnings: warnings are recorded as (event, group) tags or as names.
- `int()` leniency on the WCA ID prefix (surrounding whitespace, a sign, underscores, non-ASCII digits): the model parses the first one to four characters when they are all ASCII digits, and anything else is the ValueError.
- A missing `name` column (a KeyError): every row carries a name.
- The keys that defaultdict reads create (`assignments[person]` at main.py:77, and `judging_assignments[person][event]` at main.py:132): the model treats these as pure reads returning "". The names read this way are already keys in the scanned tables, and the entries created would be empty, so they would not change which rows are written.
- Pipeline.Run: the cap, approved-only and delegate-free table guarantees are stated only for a non-negative `maxScrambleAssignmentsPerCompetitor`. A negative cap is never met, so scrambling fails at every call.
- Pipeline.Run and Driver.AssignAll: the end-to-end property that `check.py` passes on the tool's output is not stated. It does not hold in general. The fallback's availability test reads the current pools, which have already been popped. So a competitor popped earlier from a concurrent group's pool, and rejected as a scrambler, can become a judge in their own time slot. Only the pool-judge case is proved, for one group: Driver.AssignGroup draws each pool judge from a non-concurrent group's pool, ScheduleIndex.PoolMemberCompetes places every scanned pool member in that group's schedule cells, and Checker.PoolJudgePassesCompeteCheck shows their compete ≠ judge comparison holds there. The chain is not composed through Driver.AssignAll to the written files.

=== FILE: assignments.dfy ===
/** The two assignment tables of main.py (competitor -> event -> group label, the
    empty label meaning "unassigned") and the defaultdict reads and writes on them. */
module Assignments {
  import opened Common

  type Entries = map<EventId, Label>

  /** `competitors_to_judging_assignments` or `competitors_to_scrambling_assignments`. */
  type Table = map<Name, Entries>

  /** `t[p]` on a defaultdict: a missing competitor reads as no entries. */
  function EntriesOf(t: Table, p: Name): Entries {
    if p in t then t[p] else map[]
  }

  /** `t[p][e]` on nested defaultdicts: anything missing reads as the empty label. */
  function Slot(t: Table, p: Name, e: EventId): Label {
    if e in EntriesOf(t, p) then EntriesOf(t, p)[e] else ""
  }

  /** `t[p][e] = g`: writes that one slot, creating the competitor if missing,
      and changes nothing else. */
  function Put(t: Table, p: Name, e: EventId, g: Label): (r: Table)
    ensures r.Keys == t.Keys + {p}
    ensures Slot(r, p, e) == g
    ensures forall q, e' :: q != p || e' != e ==> Slot(r, q, e') == Slot(t, q, e')
    ensures forall q :: q in t && q != p ==> r[q] == t[q]
  {
    t[p := EntriesOf(t, p)[e := g]]
  }

  /** The number of events whose entry is non-empty: Python's
      `len(list(filter(lambda g: len(g) > 0, entries.values())))`. */
  function AssignedCount(m: Entries): nat {
    |set e | e in m && m[e] != ""|
  }

  /** No entry is a real assignment. */
  predicate Idle(m: Entries) {
    forall e :: e in m ==> m[e] == ""
  }

  /** Idle entries are exactly the ones the output filter counts as zero. */
  lemma IdleIffNoneAssigned(m: Entries)
    ensures Idle(m) <==> AssignedCount(m) == 0
  {
    var s := set e | e in m && m[e] != "";
    if !Idle(m) {
      var e :| e in m && m[e] != "";
      assert e in s;
    }
  }

  /** Writing one entry raises the count by at most one. */
  lemma AssignedCountAfterWrite(m: Entries, e: EventId, g: Label)
    ensures AssignedCount(m[e := g]) <= AssignedCount(m) + 1
  {
    var m' := m[e := g];
    var before := set x | x in m && m[x] != "";
    var after := set x | x in m' && m'[x] != "";
    assert after <= before + {e};
    assert |after| <= |before + {e}| by { SubsetCardinality(after, before + {e}); }
    assert |before + {e}| <= |before| + 1;
  }

  lemma SubsetCardinality<T>(a: set<T>, b: set<T>)
    requires a <= b
    ensures |a| <= |b|
  {
    assert b == a + (b - a);
  }

  /** Every competitor holds at most `cap` non-empty entries. */
  predicate WithinCap(t: Table, cap: int) {
    forall p :: p in t ==> AssignedCount(t[p]) <= cap
  }

  /** Only members of `allowed` hold a non-empty entry. */
  predicate HeldOnlyBy(t: Table, allowed: set<Name>) {
    forall p :: p in t && p !in allowed ==> Idle(t[p])
  }

  /** No member of `excluded` holds a non-empty entry. */
  predicate NeverHeldBy(t: Table, excluded: set<Name>) {
    forall p :: p in t && p in excluded ==> Idle(t[p])
  }

  /** Slots of events other than `e` agree. */
  ghost predicate SameOutside(t: Table, t': Table, e: EventId) {
    forall p, e' :: e' != e ==> Slot(t', p, e') == Slot(t, p, e')
  }

  /** Every slot of event `e` that changed now holds a label of `labels`, and its
      holder belongs to `holders`. */
  ghost predicate ChangedWithin(t: Table, t': Table, e: EventId, labels: set<Label>, holders: set<Name>) {
    forall p :: Slot(t', p, e) != Slot(t, p, e) ==> Slot(t', p, e) in labels && p in holders
  }

  /** Every slot of event `e` that changed now holds a label of `labels`. */
  ghost predicate ChangedTo(t: Table, t': Table, e: EventId, labels: set<Label>) {
    forall p :: Slot(t', p, e) != Slot(t, p, e) ==> Slot(t', p, e) in labels
  }

  /** Slots of events outside `events` agree. */
  ghost predicate SameOutsideAll(t: Table, t': Table, events: seq<EventId>) {
    forall p, e :: e !in events ==> Slot(t', p, e) == Slot(t, p, e)
  }

  /** Writing `g` into `p`'s slot for `e` extends a change of `e` into `{g}` by
      one holder. */
  lemma PutExtendsChange(t0: Table, t1: Table, p: Name, e: EventId, g: Label, holders: seq<Name>)
    requires SameOutside(t0, t1, e)
    requires ChangedWithin(t0, t1, e, {g}, Elems(holders))
    ensures SameOutside(t0, Put(t1, p, e, g), e)
    ensures ChangedWithin(t0, Put(t1, p, e, g), e, {g}, Elems(holders + [p]))
  {
    var t2 := Put(t1, p, e, g);
    forall q | Slot(t2, q, e) != Slot(t0, q, e) ensures Slot(t2, q, e) in {g} && q in holders + [p] {
      if q != p {
        assert Slot(t1, q, e) != Slot(t0, q, e);
      }
    }
  }
}

=== FILE: checker.dfy ===
/** The per-event conflict assertion of check.py: each competing, judging and
    scrambling text is cut to its last `split(' ')` token, an empty token is
    replaced by a sentinel, and `compete != judge != scramble` must hold. */
module Checker {
  import opened Common
  import opened Labels
  import opened ScheduleIndex
  import opened Concurrency
  import opened Driver

  const NotCompeting: string := "not competing"
  const NotJudging: string := "not judging"
  const NotScrambling: string := "not scrambling"

  /** One output file read back: competitor -> column -> value. */
  type OutputTable = map<Name, map<string, string>>

  /** The slot token of a text, or the sentinel when that token is empty. */
  function SlotToken(text: string, sentinel: string): string {
    var t := LastToken(text);
    if |t| > 0 then t else sentinel
  }

  /** Python's chained `compete != judge != scramble`: two comparisons joined by
      `and`; compete and scramble are never compared with each other. */
  predicate SlotClear(compete: string, judge: string, scramble: string) {
    var c := SlotToken(compete, NotCompeting);
    var j := SlotToken(judge, NotJudging);
    var s := SlotToken(scramble, NotScrambling);
    c != j && j != s
  }

  /** `table.get(name, {}).get(event, '')`. */
  function Lookup(table: OutputTable, name: Name, column: string): string {
    if name in table && column in table[name] then table[name][column] else ""
  }

  /** The values the failing assertion reports. */
  datatype Violation = Violation(name: Name, event: EventId, compete: string, judge: string, scramble: string)

  ghost predicate CellClear(row: Row, i: int, judges: OutputTable, scrambles: OutputTable, recognised: set<EventId>)
    requires 0 <= i < |row.cells|
  {
    var (col, val) := row.cells[i];
    col in recognised ==> SlotClear(val, Lookup(judges, row.name, col), Lookup(scrambles, row.name, col))
  }

  ghost predicate RowClear(row: Row, judges: OutputTable, scrambles: OutputTable, recognised: set<EventId>) {
    forall i :: 0 <= i < |row.cells| ==> CellClear(row, i, judges, scrambles, recognised)
  }

  /** Column `i` is the first column of the row that fails the assertion. */
  ghost predicate FirstFailingCell(row: Row, i: int, judges: OutputTable, scrambles: OutputTable, recognised: set<EventId>) {
    && 0 <= i < |row.cells|
    && !CellClear(row, i, judges, scrambles, recognised)
    && forall k :: 0 <= k < i ==> CellClear(row, k, judges, scrambles, recognised)
  }

  /** Column `i` is the first failing column and `v` is the violation recorded
      for it. */
  ghost predicate ReportsCell(row: Row, i: int, v: Violation, judges: OutputTable, scrambles: OutputTable, recognised: set<EventId>) {
    && FirstFailingCell(row, i, judges, scrambles, recognised)
    && v == Observed(row.name, row.cells[i].0, row.cells[i].1, judges, scrambles)
  }

  /** The violation recorded for column `col` with competing text `val`: the
      competitor's name and the three compared tokens, which is what the
      assertion message prints, plus the column, which the message does not
      print but the model keeps to say which column failed. */
  function Observed(name: Name, col: string, val: string, judges: OutputTable, scrambles: OutputTable): Violation {
    Violation(name, col, SlotToken(val, NotCompeting),
              SlotToken(Lookup(judges, name, col), NotJudging),
              SlotToken(Lookup(scrambles, name, col), NotScrambling))
  }

  /** The columns of one schedule row, in order; the first failing recognised
      column stops the run, and its tokens are what is reported. */
  function CheckCells(name: Name, cells: seq<(string, string)>, judges: OutputTable, scrambles: OutputTable,
                      recognised: set<EventId>): (r: Option<Violation>)
    ensures r.None? <==> forall i :: 0 <= i < |cells| ==> CellClear(Row(name, cells), i, judges, scrambles, recognised)
    ensures r.Some? ==>
      && r.value.name == name && r.value.event in recognised
      && (r.value.compete == r.value.judge || r.value.judge == r.value.scramble)
    ensures r.Some? ==> exists i :: ReportsCell(Row(name, cells), i, r.value, judges, scrambles, recognised)
    decreases |cells|
  {
    if |cells| == 0 then None
    else
      var (col, val) := cells[0];
      var v := Observed(name, col, val, judges, scrambles);
      if col in recognised && !(v.compete != v.judge && v.judge != v.scramble) then
        assert ReportsCell(Row(name, cells), 0, v, judges, scrambles, recognised);
        Some(v)
      else
        assert CellClear(Row(name, cells), 0, judges, scrambles, recognised);
        var rest := CheckCells(name, cells[1..], judges, scrambles, recognised);
        CellsAfterClearFirst(name, cells, judges, scrambles, recognised, rest);
        rest
  }

  /** When the first column passes, the row's outcome is that of the rest of the
      row, with every column shifted by one. */
  lemma CellsAfterClearFirst(name: Name, cells: seq<(string, string)>, judges: OutputTable, scrambles: OutputTable,
                             recognised: set<EventId>, rest: Option<Violation>)
    requires |cells| > 0 && CellClear(Row(name, cells), 0, judges, scrambles, recognised)
    requires rest.None? <==> forall i :: 0 <= i < |cells[1..]| ==> CellClear(Row(name, cells[1..]), i, judges, scrambles, recognised)
    requires rest.Some? ==> exists i :: ReportsCell(Row(name, cells[1..]), i, rest.value, judges, scrambles, recognised)
    ensures rest.None? <==> forall i :: 0 <= i < |cells| ==> CellClear(Row(name, cells), i, judges, scrambles, recognised)
    ensures rest.Some? ==> exists i :: ReportsCell(Row(name, cells), i, rest.value, judges, scrambles, recognised)
  {
    forall i | 0 <= i < |cells| - 1
      ensures CellClear(Row(name, cells[1..]), i, judges, scrambles, recognised) <==> CellClear(Row(name, cells), i + 1, judges, scrambles, recognised)
    {
      assert cells[1..][i] == cells[i + 1];
    }
    if rest.None? {
      forall i | 0 <= i < |cells| ensures CellClear(Row(name, cells), i, judges, scrambles, recognised) {
        if i > 0 {
          assert CellClear(Row(name, cells[1..]), i - 1, judges, scrambles, recognised);
        }
      }
    } else {
      var i :| ReportsCell(Row(name, cells[1..]), i, rest.value, judges, scrambles, recognised);
      assert cells[1..][i] == cells[i + 1];
      forall k | 0 <= k < i + 1 ensures CellClear(Row(name, cells), k, judges, scrambles, recognised) {
        if k > 0 {
          assert CellClear(Row(name, cells[1..]), k - 1, judges, scrambles, recognised);
        }
      }
      assert ReportsCell(Row(name, cells), i + 1, rest.value, judges, scrambles, recognised);
    }
  }

  /** The row `k` is the first row of the schedule that fails the assertion. */
  ghost predicate FirstFailingRow(rows: seq<Row>, k: int, judges: OutputTable, scrambles: OutputTable, recognised: set<EventId>) {
    && 0 <= k < |rows|
    && !RowClear(rows[k], judges, scrambles, recognised)
    && forall j :: 0 <= j < k ==> RowClear(rows[j], judges, scrambles, recognised)
  }

  /** Row `k` is the first failing row and `r` is what its column check reports. */
  ghost predicate ReportsRow(rows: seq<Row>, k: int, r: Option<Violation>, judges: OutputTable, scrambles: OutputTable, recognised: set<EventId>) {
    && FirstFailingRow(rows, k, judges, scrambles, recognised)
    && r == CheckCells(rows[k].name, rows[k].cells, judges, scrambles, recognised)
  }

  /** check.py's loop over the schedule rows: None is "clean!", Some is what the
      assertion reports for the first failing row. */
  function CheckSchedule(rows: seq<Row>, judges: OutputTable, scrambles: OutputTable, recognised: set<EventId>)
    : (r: Option<Violation>)
    ensures r.None? <==> forall k :: 0 <= k < |rows| ==> RowClear(rows[k], judges, scrambles, recognised)
    ensures r.Some? ==> r.value.event in recognised && (r.value.compete == r.value.judge || r.value.judge == r.value.scramble)
    ensures r.Some? ==> exists k :: ReportsRow(rows, k, r, judges, scrambles, recognised)
    decreases |rows|
  {
    if |rows| == 0 then None
    else
      var first := CheckCells(rows[0].name, rows[0].cells, judges, scrambles, recognised);
      if first.Some? then
        assert rows[0] == Row(rows[0].name, rows[0].cells);
        assert ReportsRow(rows, 0, first, judges, scrambles, recognised);
        first
      else
        assert rows[0] == Row(rows[0].name, rows[0].cells);
        assert RowClear(rows[0], judges, scrambles, recognised);
        var rest := CheckSchedule(rows[1..], judges, scrambles, recognised);
        assert rest.None? ==> forall k :: 0 <= k < |rows| ==> RowClear(rows[k], judges, scrambles, recognised) by {
          if rest.None? {
            forall k | 0 <= k < |rows| ensures RowClear(rows[k], judges, scrambles, recognised) {
              if k > 0 {
                assert rows[k] == rows[1..][k - 1];
              }
            }
          }
        }
        assert rest.Some? ==> exists k :: ReportsRow(rows, k, rest, judges, scrambles, recognised) by {
          if rest.Some? {
            var k :| ReportsRow(rows[1..], k, rest, judges, scrambles, recognised);
            assert rows[1..][k] == rows[k + 1];
            forall j | 0 <= j < k + 1 ensures RowClear(rows[j], judges, scrambles, recognised) {
              if j > 0 {
                assert rows[j] == rows[1..][j - 1];
              }
            }
            assert ReportsRow(rows, k + 1, rest, judges, scrambles, recognised);
          }
        }
        rest
  }

  /** A sentinel never equals a real token: tokens hold no space, sentinels do. */
  lemma SentinelIsNoToken(text: string)
    ensures LastToken(text) != NotCompeting
    ensures LastToken(text) != NotJudging
    ensures LastToken(text) != NotScrambling
  {
    LastTokenShape(text);
    assert NotCompeting[3] == ' ' && NotJudging[3] == ' ' && NotScrambling[3] == ' ';
  }

  /** A competitor who neither judges nor scrambles a slot (a missing entry reads
      as the empty text) always passes for it. */
  lemma IdleSlotPasses(compete: string, judge: string, scramble: string)
    requires LastToken(judge) == "" && LastToken(scramble) == ""
    ensures SlotClear(compete, judge, scramble)
  {
    SentinelIsNoToken(compete);
  }

  /** Competing and scrambling in the same slot passes: the chained comparison
      never compares them. */
  lemma CompeteEqualsScramblePasses()
    ensures SlotClear("Red 1", "", "Blue 1")
    ensures SlotToken("Red 1", NotCompeting) == SlotToken("Blue 1", NotScrambling)
  {
    SplitWithoutSpace("1");
    SplitAtFirstSpace("Red", "1");
    SplitAtFirstSpace("Blue", "1");
    assert "Red" + " " + "1" == "Red 1";
    assert "Blue" + " " + "1" == "Blue 1";
    assert SplitOnSpace("") == [""];
  }

  /** Judging one's own competing slot fails whenever the text has a slot token. */
  lemma JudgingOwnSlotFails(g: string, scramble: string)
    requires LastToken(g) != ""
    ensures !SlotClear(g, g, scramble)
  {
  }

  /** Row `k` of the schedule belongs to `j`, its column `i` is event `e`, and the
      competing token observed there differs from the judging token. */
  ghost predicate CompeteDiffersFromJudge(rows: seq<Row>, j: Name, e: EventId, k: int, i: int, judges: OutputTable, scrambles: OutputTable) {
    && 0 <= k < |rows| && 0 <= i < |rows[k].cells| && rows[k].name == j && rows[k].cells[i].0 == e
    && var v := Observed(j, e, rows[k].cells[i].1, judges, scrambles);
       v.compete != v.judge
  }

  /** A judge drawn from the pool of a group that is not concurrent with the one
      they judge, where every pool member was listed there by the scan, competes
      in that group; for that column of their schedule row, the competing and the
      judging tokens differ, so the first half of the assertion holds. */
  lemma PoolJudgePassesCompeteCheck(rows: seq<Row>, recognised: set<EventId>, e: EventId, group: Label, groups: seq<Label>,
                                    pools: map<Label, seq<Name>>, j: Name, judges: OutputTable, scrambles: OutputTable)
    requires DrawnFrom(j, FilterConcurrent(group, groups).nonConcurrent, pools)
    requires forall l, p :: l in pools && p in pools[l] ==> p in PoolAt(Build(rows, recognised), e, l)
    requires Lookup(judges, j, e) == group
    ensures exists k, i :: CompeteDiffersFromJudge(rows, j, e, k, i, judges, scrambles)
  {
    var l :| l in FilterConcurrent(group, groups).nonConcurrent && l in pools && j in pools[l];
    PoolMemberCompetes(rows, recognised, e, l, j);
    var k, i :| 0 <= k < |rows| && 0 <= i < |rows[k].cells| && rows[k].name == j && rows[k].cells[i] == (e, l);
    PoolJudgeClearsCompeteCheck(group, groups, l);
    assert CompeteDiffersFromJudge(rows, j, e, k, i, judges, scrambles);
  }

  /** A judge committed through the pool path for `group` was popped from a
      non-concurrent group `g`; when `g` is their own competing text (unique
      names), the compete-versus-judge half of the assertion holds. */
  lemma PoolJudgeClearsCompeteCheck(group: Label, groups: seq<Label>, g: Label)
    requires g in FilterConcurrent(group, groups).nonConcurrent
    ensures SlotToken(g, NotCompeting) != SlotToken(group, NotJudging)
  {
    NonConcurrentSlotDiffers(group, groups, g);
    SentinelIsNoToken(g);
    SentinelIsNoToken(group);
  }
}

=== FILE: cli.dfy ===
/** The input checks and the experienced-competitor list of main.py's entry point. */
module Cli {
  import opened Common
  import opened Labels

  datatype ArgError = NotCsv | NotCompetitionId

  /** `--input` must end in ".csv". */
  predicate ValidInputPath(path: string) {
    EndsWith(path, ".csv")
  }

  predicate IsDigit(c: char) {
    '0' <= c <= '9'
  }

  /** "20" and two digits start at position `i`. */
  predicate YearAt(s: string, i: int) {
    0 <= i && i + 4 <= |s| && s[i] == '2' && s[i + 1] == '0' && IsDigit(s[i + 2]) && IsDigit(s[i + 3])
  }

  /** Reference semantics of `re.search('20[0-9]{2}$', s)`: a match of the four
      characters at some position `i`, where Python's `$` accepts the end of the
      string or a single newline that ends it. */
  ghost predicate RegexMatchesAt(s: string, i: int) {
    YearAt(s, i) && (i + 4 == |s| || (i + 5 == |s| && s[|s| - 1] == '\n'))
  }

  /** The competition identifier check as a direct test of the string's end. */
  predicate ValidCompetitionId(id: string) {
    YearAt(id, |id| - 4) || (|id| >= 5 && id[|id| - 1] == '\n' && YearAt(id, |id| - 5))
  }

  /** The direct test accepts exactly the strings the regular expression finds a
      match in. */
  lemma CompetitionIdMatchesRegex(id: string)
    ensures ValidCompetitionId(id) <==> exists i :: 0 <= i <= |id| && RegexMatchesAt(id, i)
  {
    if ValidCompetitionId(id) {
      if YearAt(id, |id| - 4) {
        assert RegexMatchesAt(id, |id| - 4);
      } else {
        assert RegexMatchesAt(id, |id| - 5);
      }
    }
  }

  /** The two checks in order: the input path first, then the identifier. */
  function ValidateArgs(path: string, id: string): (r: Option<ArgError>)
    ensures r == None <==> ValidInputPath(path) && ValidCompetitionId(id)
    ensures r == Some(NotCsv) <==> !ValidInputPath(path)
    ensures r == Some(NotCompetitionId) <==> ValidInputPath(path) && !ValidCompetitionId(id)
  {
    if !ValidInputPath(path) then Some(NotCsv)
    else if !ValidCompetitionId(id) then Some(NotCompetitionId)
    else None
  }

  /** Concrete identifiers: a typical one, one with a trailing newline (accepted
      by Python's `$`), and one whose year is not at the end. */
  lemma CompetitionIdExamples()
    ensures ValidCompetitionId("PickeringC2023")
    ensures ValidCompetitionId("PickeringC2023\n")
    ensures !ValidCompetitionId("2023Open")
    ensures !ValidCompetitionId("Open1999")
  {
  }

  /** The value of a string of decimal digits. */
  function DecimalValue(ds: string): nat
    requires forall i :: 0 <= i < |ds| ==> IsDigit(ds[i])
    decreases |ds|
  {
    if |ds| == 0 then 0
    else DecimalValue(ds[..|ds| - 1]) * 10 + DigitValue(ds[|ds| - 1])
  }

  function DigitValue(c: char): nat
    requires IsDigit(c)
  {
    (c as int) - ('0' as int)
  }

  /** `wca_id[0:4]`: Python's slice stops at the end of a shorter string. */
  function YearPrefix(wcaId: string): (p: string)
    ensures |p| == if |wcaId| < 4 then |wcaId| else 4
    ensures p <= wcaId
  {
    if |wcaId| < 4 then wcaId else wcaId[..4]
  }

  predicate AllDigits(s: string) {
    forall i :: 0 <= i < |s| ==> IsDigit(s[i])
  }

  /** `int(wca_id[0:4])` on an ASCII-digit prefix; None stands for the ValueError,
      raised for an empty prefix or one holding a non-digit. */
  function ParseYear(wcaId: string): (r: Option<nat>)
    ensures r.None? <==> |YearPrefix(wcaId)| == 0 || exists i :: 0 <= i < |YearPrefix(wcaId)| && !IsDigit(YearPrefix(wcaId)[i])
    ensures r.Some? ==> AllDigits(YearPrefix(wcaId)) && r.value == DecimalValue(YearPrefix(wcaId))
    ensures r.Some? ==> r.value < 10000
  {
    var prefix := YearPrefix(wcaId);
    if |prefix| > 0 && AllDigits(prefix) then
      DecimalValueBound(prefix);
      assert Pow10(|prefix|) <= 10000 by {
        assert Pow10(1) == 10 && Pow10(2) == 100 && Pow10(3) == 1000 && Pow10(4) == 10000;
      }
      Some(DecimalValue(prefix))
    else None
  }

  lemma {:induction false} DecimalValueBound(ds: string)
    requires forall i :: 0 <= i < |ds| ==> IsDigit(ds[i])
    ensures DecimalValue(ds) < Pow10(|ds|)
    decreases |ds|
  {
    if |ds| > 0 {
      DecimalValueBound(ds[..|ds| - 1]);
    }
  }

  function Pow10(n: nat): nat {
    if n == 0 then 1 else 10 * Pow10(n - 1)
  }

  function DigitChar(d: int): char
    requires 0 <= d < 10
  {
    (('0' as int) + d) as char
  }

  /** The four-digit rendering of a year, as in the first characters of a WCA ID. */
  function FourDigits(y: nat): string
    requires y < 10000
  {
    [DigitChar(y / 1000), DigitChar(y / 100 % 10), DigitChar(y / 10 % 10), DigitChar(y % 10)]
  }

  /** Round trip: the year prefix of an ID that starts with a four-digit year parses
      back to that year, whatever follows it. */
  lemma YearRoundTrip(y: nat, rest: string)
    requires y < 10000
    ensures ParseYear(FourDigits(y) + rest) == Some(y)
  {
    var a, b, c, d := y / 1000, y / 100 % 10, y / 10 % 10, y % 10;
    var s := FourDigits(y) + rest;
    var prefix := s[..4];
    assert prefix == FourDigits(y);
    assert DigitValue(DigitChar(a)) == a && DigitValue(DigitChar(b)) == b;
    assert DigitValue(DigitChar(c)) == c && DigitValue(DigitChar(d)) == d;
    assert prefix[..3][..2][..1][..0] == [];
    assert prefix[..3][..2][..1] == prefix[..1];
    assert prefix[..3][..2] == prefix[..2];
    assert prefix[..3] == prefix[..3];
    assert DecimalValue(prefix[..1]) == a;
    assert DecimalValue(prefix[..2]) == a * 10 + b;
    assert DecimalValue(prefix[..3]) == (a * 10 + b) * 10 + c;
    assert DecimalValue(prefix) == ((a * 10 + b) * 10 + c) * 10 + d;
    DigitsRecompose(y);
  }

  lemma DigitsRecompose(y: nat)
    requires y < 10000
    ensures ((y / 1000 * 10 + y / 100 % 10) * 10 + y / 10 % 10) * 10 + y % 10 == y
  {
    var q1 := y / 10;
    var q2 := q1 / 10;
    var q3 := q2 / 10;
    assert y == q1 * 10 + y % 10;
    assert q1 == q2 * 10 + q1 % 10;
    assert q2 == q3 * 10 + q2 % 10;
    assert q2 == y / 100;
    assert q3 == y / 1000;
    assert q1 % 10 == y / 10 % 10;
    assert q2 % 10 == y / 100 % 10;
  }

  /** `name_to_wca_id.get(competitor)`: absent and JSON null both read as None. */
  function IdOf(ids: map<Name, Option<string>>, p: Name): Option<string> {
    if p in ids then ids[p] else None
  }

  /** Competitors the list takes: non-delegates whose ID is present, non-empty, and
      starts with a year no later than `startingYear`. */
  predicate IsExperienced(p: Name, delegates: set<Name>, ids: map<Name, Option<string>>, startingYear: int) {
    && p !in delegates
    && IdOf(ids, p).Some? && |IdOf(ids, p).value| > 0
    && ParseYear(IdOf(ids, p).value).Some?
    && ParseYear(IdOf(ids, p).value).value <= startingYear
  }

  /** Competitors whose ID makes `int()` raise: the prefix is not a number. */
  predicate HasBadId(p: Name, delegates: set<Name>, ids: map<Name, Option<string>>) {
    && p !in delegates
    && IdOf(ids, p).Some? && |IdOf(ids, p).value| > 0
    && ParseYear(IdOf(ids, p).value).None?
  }

  /** `keys[i]` is the first competitor in `keys` whose ID makes `int()` raise. */
  predicate FirstBadId(keys: seq<Name>, delegates: set<Name>, ids: map<Name, Option<string>>, i: int) {
    && 0 <= i < |keys| && HasBadId(keys[i], delegates, ids)
    && forall j :: 0 <= j < i ==> !HasBadId(keys[j], delegates, ids)
  }

  /** The experienced-competitor list, before its shuffle, in the judging table's
      key order `keys`; the first competitor with a non-numeric ID prefix is the
      ValueError. */
  function ExperiencedList(keys: seq<Name>, delegates: set<Name>, ids: map<Name, Option<string>>, startingYear: int)
    : (r: Result<seq<Name>, Name>)
    ensures r.Ok? <==> forall i :: 0 <= i < |keys| ==> !HasBadId(keys[i], delegates, ids)
    ensures r.Ok? ==> IsSubsequence(r.value, keys)
    ensures r.Ok? ==> forall p :: p in r.value <==> p in keys && IsExperienced(p, delegates, ids, startingYear)
    ensures r.Err? ==> r.error in keys && HasBadId(r.error, delegates, ids)
    ensures r.Err? ==> exists i :: FirstBadId(keys, delegates, ids, i) && keys[i] == r.error
    decreases |keys|
  {
    if |keys| == 0 then Ok([])
    else
      var p := keys[0];
      if HasBadId(p, delegates, ids) then
        assert FirstBadId(keys, delegates, ids, 0);
        Err(p)
      else
        var rest := ExperiencedList(keys[1..], delegates, ids, startingYear);
        if rest.Err? then
          var i :| FirstBadId(keys[1..], delegates, ids, i) && keys[1..][i] == rest.error;
          assert FirstBadId(keys, delegates, ids, i + 1);
          rest
        else if IsExperienced(p, delegates, ids, startingYear) then Ok([p] + rest.value)
        else rest
  }

  /** Delegates never appear in the experienced list. */
  lemma ExperiencedHasNoDelegate(keys: seq<Name>, delegates: set<Name>, ids: map<Name, Option<string>>, startingYear: int)
    requires ExperiencedList(keys, delegates, ids, startingYear).Ok?
    ensures var l := ExperiencedList(keys, delegates, ids, startingYear).value;
      forall i :: 0 <= i < |l| ==> l[i] !in delegates
  {
    var l := ExperiencedList(keys, delegates, ids, startingYear).value;
    forall i | 0 <= i < |l| ensures l[i] !in delegates {
      assert l[i] in l;
    }
  }
}

=== FILE: common.dfy ===
/** Shared vocabulary: the names the competition data uses and the failure-carrying
    datatypes every other module returns. */
module Common {

  /** A competitor, identified by the name column of the schedule. */
  type Name = string

  /** An event code, such as "333". */
  type EventId = string

  /** A group label such as "Red 1"; the empty label means "no group". */
  type Label = string

  datatype Option<+T> = None | Some(value: T)

  datatype Result<+T, +E> = Ok(value: T) | Err(error: E)

  /** No element occurs twice. */
  predicate NoDup<T(==)>(s: seq<T>) {
    forall i, j :: 0 <= i < j < |s| ==> s[i] != s[j]
  }

  /** `a` is an initial segment of `b`: `b` with some elements removed from its end. */
  predicate IsPrefix<T(==)>(a: seq<T>, b: seq<T>) {
    |a| <= |b| && a == b[..|a|]
  }

  /** The elements of a sequence, as a set. */
  function Elems<T>(s: seq<T>): set<T> {
    set x | x in s
  }

  lemma PrefixTrans<T>(a: seq<T>, b: seq<T>, c: seq<T>)
    requires IsPrefix(a, b) && IsPrefix(b, c)
    ensures IsPrefix(a, c)
  {
    assert b[..|a|] == c[..|b|][..|a|] == c[..|a|];
  }

  /** `a` keeps some of the elements of `b`, in the order they have in `b`. */
  predicate IsSubsequence<T(==)>(a: seq<T>, b: seq<T>)
    decreases |b|
  {
    if |a| == 0 then true
    else if |b| == 0 then false
    else if a[0] == b[0] then IsSubsequence(a[1..], b[1..])
    else IsSubsequence(a, b[1..])
  }

  function Max0(x: int): nat {
    if x < 0 then 0 else x
  }
}

=== FILE: concurrency.dfy ===
/** The concurrency classifier of main.py: an event's group labels are split by a
    suffix test against the last space-separated token of the group being filled. */
module Concurrency {
  import opened Common
  import opened Labels

  datatype Partition = Partition(nonConcurrent: seq<Label>, concurrent: seq<Label>)

  /** `zs` is `xs` and `ys` shuffled together, each keeping its own order. */
  ghost predicate Interleaves<T>(xs: seq<T>, ys: seq<T>, zs: seq<T>)
    decreases |zs|
  {
    if |zs| == 0 then xs == [] && ys == []
    else
      || (|xs| > 0 && xs[0] == zs[0] && Interleaves(xs[1..], ys, zs[1..]))
      || (|ys| > 0 && ys[0] == zs[0] && Interleaves(xs, ys[1..], zs[1..]))
  }

  /** Is `g` counted as running alongside the group whose last token is `number`?
      A suffix test, so "Red 11" runs alongside "Red 1". */
  predicate RunsAlongside(g: Label, number: string) {
    EndsWith(g, number)
  }

  /** `filter_concurrent_groups(group, groups)`: the two lists interleave back into
      `groups` (each label lands in exactly one, in input order), every concurrent
      label passes the suffix test and no non-concurrent one does. */
  function FilterConcurrent(group: Label, groups: seq<Label>): (r: Partition)
    ensures Interleaves(r.nonConcurrent, r.concurrent, groups)
    ensures forall i :: 0 <= i < |r.concurrent| ==> RunsAlongside(r.concurrent[i], LastToken(group))
    ensures forall i :: 0 <= i < |r.nonConcurrent| ==> !RunsAlongside(r.nonConcurrent[i], LastToken(group))
    decreases |groups|
  {
    if |groups| == 0 then Partition([], [])
    else
      var rest := FilterConcurrent(group, groups[1..]);
      if RunsAlongside(groups[0], LastToken(group)) then
        var r := Partition(rest.nonConcurrent, [groups[0]] + rest.concurrent);
        assert r.concurrent[1..] == rest.concurrent;
        r
      else
        var r := Partition([groups[0]] + rest.nonConcurrent, rest.concurrent);
        assert r.nonConcurrent[1..] == rest.nonConcurrent;
        r
  }

  /** An interleaving keeps every element exactly once. */
  lemma {:induction false} InterleavesMultiset<T>(xs: seq<T>, ys: seq<T>, zs: seq<T>)
    requires Interleaves(xs, ys, zs)
    ensures multiset(xs) + multiset(ys) == multiset(zs)
    decreases |zs|
  {
    if |zs| > 0 {
      assert zs == [zs[0]] + zs[1..];
      if |xs| > 0 && xs[0] == zs[0] && Interleaves(xs[1..], ys, zs[1..]) {
        InterleavesMultiset(xs[1..], ys, zs[1..]);
        assert xs == [xs[0]] + xs[1..];
      } else {
        InterleavesMultiset(xs, ys[1..], zs[1..]);
        assert ys == [ys[0]] + ys[1..];
      }
    }
  }

  /** Together the two lists hold each input label exactly as often as the input
      does, and a label is concurrent exactly when it passes the suffix test. */
  lemma FilterConcurrentPartitions(group: Label, groups: seq<Label>)
    ensures var r := FilterConcurrent(group, groups);
      && multiset(r.nonConcurrent) + multiset(r.concurrent) == multiset(groups)
      && |r.nonConcurrent| + |r.concurrent| == |groups|
      && (forall g :: g in r.concurrent <==> g in groups && RunsAlongside(g, LastToken(group)))
      && (forall g :: g in r.nonConcurrent <==> g in groups && !RunsAlongside(g, LastToken(group)))
  {
    var r := FilterConcurrent(group, groups);
    InterleavesMultiset(r.nonConcurrent, r.concurrent, groups);
    assert |multiset(r.nonConcurrent) + multiset(r.concurrent)| == |multiset(groups)|;
    forall g ensures g in groups <==> g in r.nonConcurrent || g in r.concurrent {
      assert g in groups <==> g in multiset(groups);
    }
  }

  /** The group being filled is always classified as concurrent with itself. */
  lemma TargetIsConcurrent(group: Label, groups: seq<Label>)
    requires group in groups
    ensures group in FilterConcurrent(group, groups).concurrent
    ensures group !in FilterConcurrent(group, groups).nonConcurrent
  {
    LastTokenShape(group);
    FilterConcurrentPartitions(group, groups);
  }

  /** A non-concurrent label never shares the target's last token. */
  lemma NonConcurrentSlotDiffers(group: Label, groups: seq<Label>, g: Label)
    requires g in FilterConcurrent(group, groups).nonConcurrent
    ensures LastToken(g) != LastToken(group)
  {
    if LastToken(g) == LastToken(group) {
      SameLastTokenEndsWith(g, group);
    }
  }

  /** The suffix test is not slot-number equality: "Red 11" is counted as concurrent
      with "Red 1" although its slot-number is "11". */
  lemma SuffixTestOverApproximates()
    ensures LastToken("Red 11") != LastToken("Red 1")
    ensures "Red 11" in FilterConcurrent("Red 1", ["Red 1", "Blue 1", "Red 11", "Red 2"]).concurrent
    ensures FilterConcurrent("Red 1", ["Red 1", "Blue 1", "Red 11", "Red 2"]).nonConcurrent == ["Red 2"]
  {
    SplitWithoutSpace("1");
    SplitWithoutSpace("11");
    SplitAtFirstSpace("Red", "1");
    SplitAtFirstSpace("Red", "11");
    assert "Red" + " " + "1" == "Red 1";
    assert "Red" + " " + "11" == "Red 11";
    var gs: seq<Label> := ["Red 1", "Blue 1", "Red 11", "Red 2"];
    assert EndsWith("Red 1", "1") && EndsWith("Blue 1", "1") && EndsWith("Red 11", "1");
    assert !EndsWith("Red 2", "1");
    assert gs[1..][1..][1..][1..] == [];
    assert FilterConcurrent("Red 1", gs[3..]).nonConcurrent == ["Red 2"];
    assert gs[3..] == gs[1..][1..][1..];
    assert FilterConcurrent("Red 1", gs[2..]).nonConcurrent == ["Red 2"];
    assert "Red 11" in FilterConcurrent("Red 1", gs[2..]).concurrent;
    assert gs[2..] == gs[1..][1..];
    assert FilterConcurrent("Red 1", gs[1..]).nonConcurrent == ["Red 2"];
    assert "Red 11" in FilterConcurrent("Red 1", gs[1..]).concurrent;
  }
}

=== FILE: driver.dfy ===
/** `assign_scramblers_and_judges` of main.py: for every event and every group, a
    scrambler phase, then a judge phase that falls back to the experienced
    competitors once the non-concurrent pools fail. */
module Driver {
  import opened Common
  import opened Assignments
  import opened Concurrency
  import opened RoleFiller
  import opened ScheduleIndex

  /** The configuration values and the delegate set the driver reads. */
  datatype Settings = Settings(
    judgesPerGroup: int,
    scramblersPerGroup: int,
    maxScrambles: int,
    approved: set<Name>,
    delegates: set<Name>)

  /** The warnings main.py prints for a group left short. */
  datatype Shortfall = ScramblersShort(event: EventId, group: Label) | JudgesShort(event: EventId, group: Label)

  /** The IndexError of `experienced_competitors[0]` on an empty list. */
  datatype Failure = NoExperiencedCompetitor(event: EventId, group: Label)

  /** Every listed label has a pool. */
  predicate HasPools(labels: seq<Label>, pools: map<Label, seq<Name>>) {
    forall i :: 0 <= i < |labels| ==> labels[i] in pools
  }

  /** `p` is listed in the pool of one of `labels`. */
  ghost predicate DrawnFrom(p: Name, labels: seq<Label>, pools: map<Label, seq<Name>>) {
    exists l :: l in labels && l in pools && p in pools[l]
  }

  /** `pools'` comes from `pools` by popping elements off the ends of the pools
      listed in `touched` only. */
  ghost predicate PoppedFrom(pools': map<Label, seq<Name>>, pools: map<Label, seq<Name>>, touched: seq<Label>) {
    && pools'.Keys == pools.Keys
    && (forall g :: g in pools ==> IsPrefix(pools'[g], pools[g]))
    && (forall g :: g in pools && g !in touched ==> pools'[g] == pools[g])
  }

  lemma PoppedFromTrans(p3: map<Label, seq<Name>>, p2: map<Label, seq<Name>>, p1: map<Label, seq<Name>>, touched: seq<Label>)
    requires PoppedFrom(p3, p2, touched) && PoppedFrom(p2, p1, touched)
    ensures PoppedFrom(p3, p1, touched)
  {
    forall g | g in p1 ensures IsPrefix(p3[g], p1[g]) {
      assert p3[g] == p2[g][..|p3[g]|];
    }
  }

  /** A competitor listed in a popped pool was listed in the pool before. */
  lemma DrawnFromPopped(p: Name, labels: seq<Label>, pools': map<Label, seq<Name>>, pools: map<Label, seq<Name>>, touched: seq<Label>)
    requires DrawnFrom(p, labels, pools') && PoppedFrom(pools', pools, touched)
    ensures DrawnFrom(p, labels, pools)
  {
    var l :| l in labels && l in pools' && p in pools'[l];
    assert pools'[l] == pools[l][..|pools'[l]|];
    assert p in pools[l];
  }

  /** Everyone listed in some pool. */
  ghost function Members(pools: map<Label, seq<Name>>): set<Name> {
    set g, p | g in pools && p in pools[g] :: p
  }

  lemma MembersPopped(pools': map<Label, seq<Name>>, pools: map<Label, seq<Name>>, touched: seq<Label>)
    requires PoppedFrom(pools', pools, touched)
    ensures Members(pools') <= Members(pools)
  {
    forall p | p in Members(pools') ensures p in Members(pools) {
      var g :| g in pools' && p in pools'[g];
      assert pools'[g] == pools[g][..|pools'[g]|];
      assert g in pools && p in pools[g];
    }
  }

  /** What one call of the role filler establishes, in either mode. */
  lemma AssignRoleFacts(group: Label, others: seq<Label>, pools: map<Label, seq<Name>>, t: Table,
                        event: EventId, s: Settings, mode: Mode)
    requires HasPools(others, pools)
    ensures var r := AssignRole(group, others, pools, t, event, s.delegates, mode, s.maxScrambles);
      && PoppedFrom(r.pools, pools, others)
      && (r.committed.Some? ==> exists g :: g in others && |r.pools[g]| < |pools[g]| && pools[g][|r.pools[g]|] == r.committed.value)
      && (mode.Scrambling? && WithinCap(t, s.maxScrambles) ==> WithinCap(r.table, s.maxScrambles))
      && (mode.Judging? && NeverHeldBy(t, s.delegates) ==> NeverHeldBy(r.table, s.delegates))
      && (mode.Scrambling? && HeldOnlyBy(t, mode.approved) ==> HeldOnlyBy(r.table, mode.approved))
      && (r.committed.None? ==> r.table.Keys == t.Keys)
      && (r.committed.Some? ==> r.table.Keys == t.Keys + {r.committed.value} && r.committed.value in Members(pools))
      && Members(r.pools) <= Members(pools)
  {
    var r := AssignRole(group, others, pools, t, event, s.delegates, mode, s.maxScrambles);
    PopShrinksPools(others, pools, EligibilityTest(mode, t, s.delegates, s.maxScrambles));
    PopTakesFromListedPool(others, pools, EligibilityTest(mode, t, s.delegates, s.maxScrambles));
    AssignRoleKeepsHolders(group, others, pools, t, event, s.delegates, mode, s.maxScrambles);
    if mode.Scrambling? && WithinCap(t, s.maxScrambles) {
      AssignRoleKeepsCap(group, others, pools, t, event, s.delegates, mode.approved, s.maxScrambles);
    }
    MembersPopped(r.pools, pools, others);
    if r.committed.Some? {
      var g :| g in others && |r.pools[g]| < |pools[g]| && pools[g][|r.pools[g]|] == r.committed.value;
      assert g in pools && pools[g][|r.pools[g]|] in pools[g];
    }
  }

  /** One pool call, with what the lemmas about it establish. */
  method CallAssignRole(group: Label, others: seq<Label>, pools: map<Label, seq<Name>>, t: Table,
                        event: EventId, s: Settings, mode: Mode)
    returns (r: Fill)
    requires HasPools(others, pools)
    ensures r == AssignRole(group, others, pools, t, event, s.delegates, mode, s.maxScrambles)
    ensures PoppedFrom(r.pools, pools, others)
    ensures r.committed.Some? ==> exists g :: g in others && |r.pools[g]| < |pools[g]| && pools[g][|r.pools[g]|] == r.committed.value
    ensures mode.Scrambling? && WithinCap(t, s.maxScrambles) ==> WithinCap(r.table, s.maxScrambles)
    ensures mode.Judging? && NeverHeldBy(t, s.delegates) ==> NeverHeldBy(r.table, s.delegates)
    ensures mode.Scrambling? && HeldOnlyBy(t, mode.approved) ==> HeldOnlyBy(r.table, mode.approved)
    ensures r.committed.None? ==> r.table.Keys == t.Keys
    ensures r.committed.Some? ==> r.table.Keys == t.Keys + {r.committed.value} && r.committed.value in Members(pools)
    ensures Members(r.pools) <= Members(pools)
  {
    r := AssignRole(group, others, pools, t, event, s.delegates, mode, s.maxScrambles);
    AssignRoleFacts(group, others, pools, t, event, s, mode);
  }

  /** The outcome of a run of pool calls: the pools and table after it, the
      competitors committed in call order, and whether it ended on a call that
      committed nobody. */
  datatype PoolRun = PoolRun(pools: map<Label, seq<Name>>, table: Table, committed: seq<Name>, failed: bool)

  /** Reference definition of a phase's pool calls: up to `n` calls of
      `assign_role_to_group`, each on the pools and table the previous call left,
      stopping at the first call that commits nobody. */
  function PoolCalls(n: nat, group: Label, others: seq<Label>, pools: map<Label, seq<Name>>, t: Table,
                     event: EventId, s: Settings, mode: Mode): (r: PoolRun)
    requires HasPools(others, pools)
    ensures r.pools.Keys == pools.Keys
    ensures |r.committed| <= n
    ensures r.failed <==> |r.committed| < n
    decreases n
  {
    if n == 0 then PoolRun(pools, t, [], false)
    else
      var f := AssignRole(group, others, pools, t, event, s.delegates, mode, s.maxScrambles);
      if f.committed.None? then PoolRun(f.pools, f.table, [], true)
      else
        var rest := PoolCalls(n - 1, group, others, f.pools, f.table, event, s, mode);
        rest.(committed := [f.committed.value] + rest.committed)
  }

  /** The rest of a run, with `done` committed before it. */
  function After(done: seq<Name>, r: PoolRun): PoolRun {
    r.(committed := done + r.committed)
  }

  /** What a scrambler phase promises: at most the quota of scramblers, short
      exactly when the quota is unmet, only approved scramblers, the pools only
      lose elements (only the non-concurrent ones, and nobody is added), the
      cap and the approved-holder invariants are kept, and the scrambling table
      changed only in this event's column, for this group, for those
      scramblers. */
  ghost predicate ScrambleResult(event: EventId, group: Label, nonConcurrent: seq<Label>, pools: map<Label, seq<Name>>,
                                 scrambling: Table, s: Settings, pools': map<Label, seq<Name>>, scrambling': Table,
                                 scramblers: seq<Name>, short: bool) {
    && |scramblers| <= Max0(s.scramblersPerGroup)
    && (short <==> |scramblers| < s.scramblersPerGroup)
    && (forall i :: 0 <= i < |scramblers| ==> scramblers[i] in s.approved)
    && PoppedFrom(pools', pools, nonConcurrent)
    && (WithinCap(scrambling, s.maxScrambles) ==> WithinCap(scrambling', s.maxScrambles))
    && (HeldOnlyBy(scrambling, s.approved) ==> HeldOnlyBy(scrambling', s.approved))
    && SameOutside(scrambling, scrambling', event)
    && ChangedWithin(scrambling, scrambling', event, {group}, Elems(scramblers))
    && Members(pools') <= Members(pools)
    && scrambling.Keys <= scrambling'.Keys <= scrambling.Keys + Members(pools)
  }

  /** The scrambler phase of one group: pool calls over the non-concurrent groups
      until the quota is met or the first call fails. `calls` counts the pool
      calls: one per scrambler, plus the failed one that ends a short phase. */
  method ScramblerPhase(event: EventId, group: Label, nonConcurrent: seq<Label>, pools: map<Label, seq<Name>>,
                        scrambling: Table, s: Settings)
    returns (pools': map<Label, seq<Name>>, scrambling': Table, scramblers: seq<Name>, short: bool, calls: nat)
    requires HasPools(nonConcurrent, pools)
    ensures PoolCalls(Max0(s.scramblersPerGroup), group, nonConcurrent, pools, scrambling, event, s, Scrambling(s.approved))
            == PoolRun(pools', scrambling', scramblers, short)
    ensures calls == |scramblers| + (if short then 1 else 0)
    ensures ScrambleResult(event, group, nonConcurrent, pools, scrambling, s, pools', scrambling', scramblers, short)
  {
    var mode := Scrambling(s.approved);
    pools', scrambling', scramblers, short, calls := pools, scrambling, [], false, 0;
    ghost var whole := PoolCalls(Max0(s.scramblersPerGroup), group, nonConcurrent, pools, scrambling, event, s, mode);
    ghost var m: nat := Max0(s.scramblersPerGroup);
    TraceStart(m, group, nonConcurrent, pools, scrambling, event, s, mode);
    while |scramblers| < s.scramblersPerGroup
      invariant m == Max0(s.scramblersPerGroup) - |scramblers|
      invariant !short && calls == |scramblers|
      invariant HasPools(nonConcurrent, pools')
      invariant Traced(whole, m, scramblers, group, nonConcurrent, pools', scrambling', event, s, mode)
      invariant PoolFrame(pools, scrambling, nonConcurrent, event, group, pools', scrambling', scramblers)
      invariant ScrambleHolders(scrambling, scrambling', scramblers, s)
      decreases m
    {
      var r := AssignRole(group, nonConcurrent, pools', scrambling', event, s.delegates, mode, s.maxScrambles);
      TraceStep(whole, m, scramblers, group, nonConcurrent, pools', scrambling', event, s, mode, r);
      ghost var scramblers0, m0, pools0, scrambling0 := scramblers, m, pools', scrambling';
      PoolFrameStep(pools, scrambling, nonConcurrent, event, group, pools', scrambling', scramblers, s, mode, r);
      ScrambleHoldersStep(scrambling, group, nonConcurrent, pools', scrambling', event, scramblers, s, r);
      pools' := r.pools;
      calls := calls + 1;
      if r.committed.Some? {
        scramblers := scramblers + [r.committed.value];
        scrambling' := r.table;
        m := m - 1;
        TraceNext(whole, m0, scramblers0, group, nonConcurrent, pools0, scrambling0, event, s, mode, r, m, scramblers, pools', scrambling');
      } else {
        short := true;
        break;
      }
    }
    if !short {
      TraceEnd(whole, m, scramblers, group, nonConcurrent, pools', scrambling', event, s, mode);
    }
  }

  /** What a run of pool calls so far has done to the pools and the table: the
      pools are only popped, and only this event's slots change, to this group
      and for the competitors committed. */
  ghost predicate PoolFrame(pools0: map<Label, seq<Name>>, t0: Table, others: seq<Label>, event: EventId, group: Label,
                            pools: map<Label, seq<Name>>, t: Table, committed: seq<Name>) {
    && PoppedFrom(pools, pools0, others)
    && Members(pools) <= Members(pools0)
    && SameOutside(t0, t, event)
    && ChangedWithin(t0, t, event, {group}, Elems(committed))
    && t0.Keys <= t.Keys <= t0.Keys + Members(pools0)
  }

  /** One more pool call keeps the frame of the run. */
  lemma PoolFrameStep(pools0: map<Label, seq<Name>>, t0: Table, others: seq<Label>, event: EventId, group: Label,
                      pools: map<Label, seq<Name>>, t: Table, committed: seq<Name>, s: Settings, mode: Mode, r: Fill)
    requires HasPools(others, pools)
    requires PoolFrame(pools0, t0, others, event, group, pools, t, committed)
    requires r == AssignRole(group, others, pools, t, event, s.delegates, mode, s.maxScrambles)
    ensures r.committed.Some? ==> PoolFrame(pools0, t0, others, event, group, r.pools, r.table, committed + [r.committed.value])
    ensures r.committed.None? ==> PoolFrame(pools0, t0, others, event, group, r.pools, t, committed)
  {
    AssignRoleFacts(group, others, pools, t, event, s, mode);
    PoppedFromTrans(r.pools, pools, pools0, others);
    if r.committed.Some? {
      PutExtendsChange(t0, t, r.committed.value, event, group, committed);
    }
  }

  /** Who a scrambling run has committed so far, and the table invariants it
      keeps: only approved scramblers, within the cap. */
  ghost predicate ScrambleHolders(t0: Table, t: Table, committed: seq<Name>, s: Settings) {
    && (forall i :: 0 <= i < |committed| ==> committed[i] in s.approved)
    && (WithinCap(t0, s.maxScrambles) ==> WithinCap(t, s.maxScrambles))
    && (HeldOnlyBy(t0, s.approved) ==> HeldOnlyBy(t, s.approved))
  }

  /** One more scrambling pool call keeps the holder invariants. */
  lemma ScrambleHoldersStep(t0: Table, group: Label, others: seq<Label>, pools: map<Label, seq<Name>>, t: Table,
                            event: EventId, committed: seq<Name>, s: Settings, r: Fill)
    requires HasPools(others, pools)
    requires ScrambleHolders(t0, t, committed, s)
    requires r == AssignRole(group, others, pools, t, event, s.delegates, Scrambling(s.approved), s.maxScrambles)
    ensures r.committed.Some? ==> ScrambleHolders(t0, r.table, committed + [r.committed.value], s)
  {
    AssignRoleKeepsHolders(group, others, pools, t, event, s.delegates, Scrambling(s.approved), s.maxScrambles);
    if WithinCap(t, s.maxScrambles) {
      AssignRoleKeepsCap(group, others, pools, t, event, s.delegates, s.approved, s.maxScrambles);
    }
  }

  /** The first call of a run of `m` > 0 calls. */
  lemma PoolCallsUnfold(m: nat, group: Label, others: seq<Label>, pools: map<Label, seq<Name>>, t: Table,
                        event: EventId, s: Settings, mode: Mode, r: Fill)
    requires HasPools(others, pools) && m > 0
    requires r == AssignRole(group, others, pools, t, event, s.delegates, mode, s.maxScrambles)
    ensures HasPools(others, r.pools)
    ensures r.committed.None? ==> PoolCalls(m, group, others, pools, t, event, s, mode) == PoolRun(r.pools, t, [], true)
    ensures r.committed.Some? ==>
      PoolCalls(m, group, others, pools, t, event, s, mode) == After([r.committed.value], PoolCalls(m - 1, group, others, r.pools, r.table, event, s, mode))
  {
  }

  /** `whole` is the run of pool calls that committed `done` so far and has
      at most `m` calls left, starting on `pools` and `t`. */
  ghost predicate Traced(whole: PoolRun, m: nat, done: seq<Name>, group: Label, others: seq<Label>,
                         pools: map<Label, seq<Name>>, t: Table, event: EventId, s: Settings, mode: Mode) {
    HasPools(others, pools) && whole == After(done, PoolCalls(m, group, others, pools, t, event, s, mode))
  }

  lemma TraceStart(n: nat, group: Label, others: seq<Label>, pools: map<Label, seq<Name>>, t: Table,
                   event: EventId, s: Settings, mode: Mode)
    requires HasPools(others, pools)
    ensures Traced(PoolCalls(n, group, others, pools, t, event, s, mode), n, [], group, others, pools, t, event, s, mode)
  {
    AfterNothing(PoolCalls(n, group, others, pools, t, event, s, mode));
  }

  /** One more call of a run traced so far: a commit moves its competitor to the
      done part, and a failure ends the run on that call's pools. */
  lemma TraceStep(whole: PoolRun, m: nat, done: seq<Name>, group: Label, others: seq<Label>,
                  pools: map<Label, seq<Name>>, t: Table, event: EventId, s: Settings, mode: Mode, r: Fill)
    requires m > 0 && Traced(whole, m, done, group, others, pools, t, event, s, mode)
    requires r == AssignRole(group, others, pools, t, event, s.delegates, mode, s.maxScrambles)
    ensures HasPools(others, r.pools)
    ensures r.committed.Some? ==> Traced(whole, m - 1, done + [r.committed.value], group, others, r.pools, r.table, event, s, mode)
    ensures r.committed.None? ==> whole == PoolRun(r.pools, t, done, true)
  {
    PoolCallsUnfold(m, group, others, pools, t, event, s, mode, r);
    if r.committed.Some? {
      AfterCommit(done, r.committed.value, PoolCalls(m - 1, group, others, r.pools, r.table, event, s, mode));
    } else {
      assert done + [] == done;
    }
  }

  /** The trace after a committing call, on the loop's own variables. */
  lemma TraceNext(whole: PoolRun, m: nat, done: seq<Name>, group: Label, others: seq<Label>,
                  pools: map<Label, seq<Name>>, t: Table, event: EventId, s: Settings, mode: Mode, r: Fill,
                  m': nat, done': seq<Name>, pools': map<Label, seq<Name>>, t': Table)
    requires m > 0 && Traced(whole, m, done, group, others, pools, t, event, s, mode)
    requires r == AssignRole(group, others, pools, t, event, s.delegates, mode, s.maxScrambles)
    requires r.committed.Some? && m' == m - 1 && done' == done + [r.committed.value] && pools' == r.pools && t' == r.table
    ensures Traced(whole, m', done', group, others, pools', t', event, s, mode)
  {
    TraceStep(whole, m, done, group, others, pools, t, event, s, mode, r);
    PoolCallsCount(m, m', group, others, r.pools, r.table, event, s, mode);
  }

  lemma PoolCallsCount(m: nat, k: nat, group: Label, others: seq<Label>, pools: map<Label, seq<Name>>, t: Table,
                       event: EventId, s: Settings, mode: Mode)
    requires HasPools(others, pools) && m > 0 && k == m - 1
    ensures PoolCalls(k, group, others, pools, t, event, s, mode) == PoolCalls(m - 1, group, others, pools, t, event, s, mode)
  {
  }

  /** A run with no calls left has committed everyone it will. */
  lemma TraceEnd(whole: PoolRun, m: nat, done: seq<Name>, group: Label, others: seq<Label>,
                 pools: map<Label, seq<Name>>, t: Table, event: EventId, s: Settings, mode: Mode)
    requires m == 0 && Traced(whole, m, done, group, others, pools, t, event, s, mode)
    ensures whole == PoolRun(pools, t, done, false)
  {
    assert done + [] == done;
  }

  lemma AfterNothing(r: PoolRun)
    ensures After([], r) == r
  {
    assert [] + r.committed == r.committed;
  }

  /** Committing `p` moves it from the rest of the run to the done part. */
  lemma AfterCommit(done: seq<Name>, p: Name, r: PoolRun)
    ensures After(done, r.(committed := [p] + r.committed)) == After(done + [p], r)
  {
    assert done + ([p] + r.committed) == done + [p] + r.committed;
  }

  /** The state after one group's judge phase. `poolJudges` and `fallbackJudges`
      are the competitors committed through the pools and through the experienced
      list, `poolCalls` counts pool calls and `attempts` fallback iterations;
      `short` is the warning. */
  datatype JudgeOutcome = JudgeOutcome(
    pools: map<Label, seq<Name>>,
    judging: Table,
    experienced: seq<Name>,
    poolJudges: seq<Name>,
    fallbackJudges: seq<Name>,
    poolCalls: nat,
    attempts: nat,
    short: bool)

  /** Is the front experienced competitor free to judge? Absent from every current
      concurrent pool (the group's own included), and without a judging or
      scrambling entry for the event. */
  predicate FallbackAvailable(person: Name, concurrent: seq<Label>, pools: map<Label, seq<Name>>,
                              judging: Table, scrambling: Table, event: EventId)
    requires HasPools(concurrent, pools)
  {
    && (forall i :: 0 <= i < |concurrent| ==> person !in pools[concurrent[i]])
    && Slot(judging, person, event) == ""
    && Slot(scrambling, person, event) == ""
  }

  /** The judge phase's loop state. */
  datatype JudgeState = JudgeState(
    pools: map<Label, seq<Name>>,
    judging: Table,
    experienced: seq<Name>,
    poolJudges: seq<Name>,
    fallbackJudges: seq<Name>,
    poolCalls: nat,
    attempts: nat,
    poolsOpen: bool)
  {
    function Committed(): nat { |poolJudges| + |fallbackJudges| }
  }

  /** The inputs of one judge phase. */
  datatype JudgeTask = JudgeTask(
    event: EventId,
    group: Label,
    nonConcurrent: seq<Label>,
    concurrent: seq<Label>,
    pools: map<Label, seq<Name>>,
    judging: Table,
    scrambling: Table,
    experienced: seq<Name>,
    s: Settings)
  {
    predicate Valid() {
      HasPools(nonConcurrent, pools) && HasPools(concurrent, pools)
    }
  }

  /** Counters: commits within the quota, pool calls stop after the first failure,
      and fallback attempts only start after it. */
  ghost predicate CountsInv(t: JudgeTask, st: JudgeState) {
    && st.Committed() <= Max0(t.s.judgesPerGroup)
    && st.attempts <= |t.experienced| + 1
    && (st.poolsOpen ==> st.poolCalls == |st.poolJudges| && st.attempts == 0)
    && (!st.poolsOpen ==> st.poolCalls == |st.poolJudges| + 1)
    && |st.fallbackJudges| <= st.attempts
  }

  /** The experienced list loses its last elements, one per fallback commit, and
      every fallback judge is the list's original front competitor. */
  ghost predicate ExperiencedInv(t: JudgeTask, st: JudgeState) {
    && |st.experienced| + |st.fallbackJudges| == |t.experienced|
    && st.experienced == t.experienced[..|st.experienced|]
    && (forall i :: 0 <= i < |st.fallbackJudges| ==> st.fallbackJudges[i] == t.experienced[0])
    && (|st.fallbackJudges| > 0 ==> !st.poolsOpen && Slot(st.judging, t.experienced[0], t.event) == t.group)
    && (t.group != "" ==> |st.fallbackJudges| <= 1)
    && (st.poolsOpen ==> st.experienced == t.experienced && st.fallbackJudges == [])
  }

  /** Eligibility of everyone committed so far. */
  ghost predicate EligibilityInv(t: JudgeTask, st: JudgeState)
    requires st.pools.Keys == t.pools.Keys && t.Valid()
  {
    && (forall i :: 0 <= i < |st.poolJudges| ==> st.poolJudges[i] !in t.s.delegates)
    && (forall i :: 0 <= i < |st.poolJudges| ==> DrawnFrom(st.poolJudges[i], t.nonConcurrent, t.pools))
    && (forall i :: 0 <= i < |st.fallbackJudges| ==>
          && (forall j :: 0 <= j < |t.concurrent| ==> st.fallbackJudges[i] !in st.pools[t.concurrent[j]])
          && Slot(t.scrambling, st.fallbackJudges[i], t.event) == ""
          && (t.group != "" ==> Slot(t.judging, st.fallbackJudges[i], t.event) == ""))
  }

  /** What changed in the pools and the judging table. */
  ghost predicate FrameInv(t: JudgeTask, st: JudgeState) {
    && PoppedFrom(st.pools, t.pools, t.nonConcurrent)
    && SameOutside(t.judging, st.judging, t.event)
    && ChangedWithin(t.judging, st.judging, t.event, {t.group}, Elems(st.poolJudges + st.fallbackJudges))
    && ((NeverHeldBy(t.judging, t.s.delegates) && forall i :: 0 <= i < |t.experienced| ==> t.experienced[i] !in t.s.delegates)
        ==> NeverHeldBy(st.judging, t.s.delegates))
    && Members(st.pools) <= Members(t.pools)
    && t.judging.Keys <= st.judging.Keys <= t.judging.Keys + Members(t.pools) + Elems(t.experienced)
  }

  /** Fallback attempts commit until the first one that does not; from then on
      the front competitor stays unavailable, since an attempt that commits
      nothing changes nothing the next attempt reads. */
  ghost predicate AttemptsInv(t: JudgeTask, st: JudgeState)
    requires st.pools.Keys == t.pools.Keys && t.Valid()
  {
    || st.attempts == |st.fallbackJudges|
    || (|st.experienced| > 0 && !FallbackAvailable(st.experienced[0], t.concurrent, st.pools, st.judging, t.scrambling, t.event))
  }

  ghost predicate JudgeInv(t: JudgeTask, st: JudgeState) {
    && t.Valid()
    && CountsInv(t, st)
    && ExperiencedInv(t, st)
    && FrameInv(t, st)
    && EligibilityInv(t, st)
    && AttemptsInv(t, st)
  }

  /** What the fallback iterations leave: the judging table, the experienced
      list, the competitors they committed, the attempts made, and whether they
      gave up. */
  datatype FallbackRun = FallbackRun(judging: Table, experienced: seq<Name>, judges: seq<Name>, attempts: nat, short: bool)

  /** Reference definition of the fallback iterations of the judge loop, with
      `base` pool judges, `judges` fallback judges and `attempts` attempts so far:
      until the quota is met, inspect the front of the experienced list (failing
      on an empty one), commit them when available while dropping the list's
      last element, count the attempt, and give up once the attempts exceed the
      list's length at the start of the phase. */
  function Fallbacks(t: JudgeTask, pools: map<Label, seq<Name>>, base: nat, attempts: nat,
                     experienced: seq<Name>, judging: Table, judges: seq<Name>): (r: Result<FallbackRun, Failure>)
    requires HasPools(t.concurrent, pools) && attempts <= |t.experienced|
    ensures r.Err? ==> r.error == NoExperiencedCompetitor(t.event, t.group)
    ensures r.Ok? && r.value.short ==> r.value.attempts == |t.experienced| + 1
    ensures r.Ok? && !r.value.short ==> base + |r.value.judges| >= t.s.judgesPerGroup
    decreases |t.experienced| - attempts
  {
    if base + |judges| >= t.s.judgesPerGroup then Ok(FallbackRun(judging, experienced, judges, attempts, false))
    else if |experienced| == 0 then Err(NoExperiencedCompetitor(t.event, t.group))
    else
      var person := experienced[0];
      var available := FallbackAvailable(person, t.concurrent, pools, judging, t.scrambling, t.event);
      var experienced' := if available then experienced[..|experienced| - 1] else experienced;
      var judging' := if available then Put(judging, person, t.event, t.group) else judging;
      var judges' := if available then judges + [person] else judges;
      if attempts + 1 > |t.experienced| then Ok(FallbackRun(judging', experienced', judges', attempts + 1, true))
      else Fallbacks(t, pools, base, attempts + 1, experienced', judging', judges')
  }

  /** The fallback iterations that follow a run of judging pool calls that ended
      on a failed call. */
  function JudgeFallbacks(t: JudgeTask, whole: PoolRun): Result<FallbackRun, Failure>
    requires t.Valid() && whole.pools.Keys == t.pools.Keys
  {
    Fallbacks(t, whole.pools, |whole.committed|, 0, t.experienced, whole.table, [])
  }

  /** Reference definition of one group's judge phase: judging pool calls until
      the quota is met or a call commits nobody, then the fallback iterations on
      the pools and table that call left. */
  function JudgeCalls(t: JudgeTask): (r: Result<JudgeOutcome, Failure>)
    requires t.Valid()
    ensures r.Err? ==> r.error == NoExperiencedCompetitor(t.event, t.group)
    ensures r.Ok? ==> r.value.pools.Keys == t.pools.Keys
  {
    var whole := PoolCalls(Max0(t.s.judgesPerGroup), t.group, t.nonConcurrent, t.pools, t.judging, t.event, t.s, Judging);
    if !whole.failed then
      Ok(JudgeOutcome(whole.pools, whole.table, t.experienced, whole.committed, [], |whole.committed|, 0, false))
    else
      match JudgeFallbacks(t, whole)
      case Err(e) => Err(e)
      case Ok(f) => Ok(JudgeOutcome(whole.pools, f.judging, f.experienced, whole.committed, f.judges, |whole.committed| + 1, f.attempts, f.short))
  }

  /** The outcome a judge loop state reports. */
  function Outcome(st: JudgeState, short: bool): JudgeOutcome {
    JudgeOutcome(st.pools, st.judging, st.experienced, st.poolJudges, st.fallbackJudges, st.poolCalls, st.attempts, short)
  }

  /** `fwhole` is the result of the fallback iterations from state `st` on. */
  ghost predicate FallbackTraced(t: JudgeTask, fwhole: Result<FallbackRun, Failure>, st: JudgeState) {
    && HasPools(t.concurrent, st.pools) && st.attempts <= |t.experienced|
    && fwhole == Fallbacks(t, st.pools, |st.poolJudges|, st.attempts, st.experienced, st.judging, st.fallbackJudges)
  }

  /** The judge loop's state lies on the reference run `whole` of pool calls:
      while the pools are open `whole` is still being traced, and once they are
      closed `whole` failed on the loop's pools, after its pool judges, and the
      fallback iterations from the loop's state are those that follow it. */
  ghost predicate JudgeTrace(t: JudgeTask, whole: PoolRun, st: JudgeState)
    requires t.Valid()
  {
    && whole.pools.Keys == t.pools.Keys
    && |st.poolJudges| <= Max0(t.s.judgesPerGroup)
    && (st.poolsOpen ==>
          Traced(whole, Max0(t.s.judgesPerGroup) - |st.poolJudges|, st.poolJudges, t.group, t.nonConcurrent,
                 st.pools, st.judging, t.event, t.s, Judging))
    && (!st.poolsOpen ==>
          && whole.failed && whole.pools == st.pools && whole.committed == st.poolJudges
          && FallbackTraced(t, JudgeFallbacks(t, whole), st))
  }

  /** The judge loop starts at the start of the reference run. */
  lemma JudgeTraceStart(t: JudgeTask, whole: PoolRun, st: JudgeState, m: nat)
    requires t.Valid() && m == Max0(t.s.judgesPerGroup)
    requires whole == PoolCalls(m, t.group, t.nonConcurrent, t.pools, t.judging, t.event, t.s, Judging)
    requires st == JudgeState(t.pools, t.judging, t.experienced, [], [], 0, 0, true)
    ensures JudgeTrace(t, whole, st)
  {
    TraceStart(m, t.group, t.nonConcurrent, t.pools, t.judging, t.event, t.s, Judging);
  }

  /** A pool call keeps the loop on the reference run. */
  lemma PoolTraceStep(t: JudgeTask, whole: PoolRun, st: JudgeState, r: Fill, st': JudgeState)
    requires JudgeInv(t, st) && st.poolsOpen && st.Committed() < t.s.judgesPerGroup && JudgeTrace(t, whole, st)
    requires r == AssignRole(t.group, t.nonConcurrent, st.pools, st.judging, t.event, t.s.delegates, Judging, t.s.maxScrambles)
    requires r.committed.Some? ==>
      st' == st.(pools := r.pools, judging := r.table, poolJudges := st.poolJudges + [r.committed.value], poolCalls := st.poolCalls + 1)
    requires r.committed.None? ==> st' == st.(pools := r.pools, poolCalls := st.poolCalls + 1, poolsOpen := false)
    ensures JudgeTrace(t, whole, st')
  {
    var m: nat := Max0(t.s.judgesPerGroup) - |st.poolJudges|;
    if r.committed.Some? {
      TraceNext(whole, m, st.poolJudges, t.group, t.nonConcurrent, st.pools, st.judging, t.event, t.s, Judging, r,
                Max0(t.s.judgesPerGroup) - |st'.poolJudges|, st'.poolJudges, st'.pools, st'.judging);
    } else {
      TraceStep(whole, m, st.poolJudges, t.group, t.nonConcurrent, st.pools, st.judging, t.event, t.s, Judging, r);
    }
  }

  /** One fallback iteration follows the reference iterations: it fails where
      they fail, gives up where they give up, and otherwise stays on them. */
  lemma FallbackTraceStep(t: JudgeTask, fwhole: Result<FallbackRun, Failure>, st: JudgeState, st': JudgeState)
    requires t.Valid() && FallbackTraced(t, fwhole, st) && st.Committed() < t.s.judgesPerGroup && |st.experienced| > 0
    requires st' == if FallbackAvailable(st.experienced[0], t.concurrent, st.pools, st.judging, t.scrambling, t.event)
                    then FallbackCommit(t, st) else st.(attempts := st.attempts + 1)
    ensures st'.attempts > |t.experienced| ==>
      fwhole == Ok(FallbackRun(st'.judging, st'.experienced, st'.fallbackJudges, st'.attempts, true))
    ensures st'.attempts <= |t.experienced| ==> FallbackTraced(t, fwhole, st')
  {
  }

  /** The reference pool calls failed, and the fallback iterations after them fail with `e`. */
  ghost predicate FailedOn(t: JudgeTask, whole: PoolRun, e: Failure)
    requires t.Valid()
  {
    whole.pools.Keys == t.pools.Keys && whole.failed && JudgeFallbacks(t, whole) == Err(e)
  }

  /** The reference pool calls failed on the loop's pools after its pool
      judges, and the fallback iterations after them give up in state `st`. */
  ghost predicate GaveUp(t: JudgeTask, whole: PoolRun, st: JudgeState)
    requires t.Valid()
  {
    && whole.pools.Keys == t.pools.Keys && whole.failed && whole.pools == st.pools && whole.committed == st.poolJudges
    && JudgeFallbacks(t, whole) == Ok(FallbackRun(st.judging, st.experienced, st.fallbackJudges, st.attempts, true))
  }

  /** The judge loop's first state keeps the invariant: nothing committed,
      nothing changed, the pool path open. */
  lemma JudgeInvStart(t: JudgeTask, st: JudgeState)
    requires t.Valid() && st == JudgeState(t.pools, t.judging, t.experienced, [], [], 0, 0, true)
    ensures JudgeInv(t, st)
  {
    assert t.experienced[..|t.experienced|] == t.experienced;
  }

  /** What the judge loop promises about its final state `st` and whether it
      gave up: the loop invariant, giving up exactly when the quota is unmet
      (after one attempt more than the list's starting length, so never with an
      empty list), and the matching end of the reference run. */
  ghost predicate JudgeDone(t: JudgeTask, whole: PoolRun, st: JudgeState, short: bool) {
    && JudgeInv(t, st)
    && (short <==> st.Committed() < t.s.judgesPerGroup)
    && (short ==> st.attempts == |t.experienced| + 1)
    && (|t.experienced| == 0 ==> !short && |st.poolJudges| >= t.s.judgesPerGroup)
    && (short ==> GaveUp(t, whole, st))
    && (!short ==> JudgeTrace(t, whole, st))
  }

  /** A loop that meets the quota is done without giving up. */
  lemma DoneByQuota(t: JudgeTask, whole: PoolRun, st: JudgeState)
    requires JudgeInv(t, st) && JudgeTrace(t, whole, st) && st.Committed() >= t.s.judgesPerGroup
    ensures JudgeDone(t, whole, st, false)
  {
  }

  /** However the judge loop ends, it ends where the reference does. */
  lemma JudgeEnd(t: JudgeTask, whole: PoolRun, res: Result<(JudgeState, bool), Failure>)
    requires t.Valid()
    requires whole == PoolCalls(Max0(t.s.judgesPerGroup), t.group, t.nonConcurrent, t.pools, t.judging, t.event, t.s, Judging)
    requires res.Err? ==> FailedOn(t, whole, res.error)
    requires res.Ok? ==> JudgeDone(t, whole, res.value.0, res.value.1)
    ensures res.Err? ==> JudgeCalls(t) == Err(res.error)
    ensures res.Ok? ==> JudgeCalls(t) == Ok(Outcome(res.value.0, res.value.1))
  {
    if res.Ok? && !res.value.1 {
      JudgeTraceEnd(t, whole, res.value.0);
    }
  }

  /** A loop that met the quota has the reference outcome. */
  lemma JudgeTraceEnd(t: JudgeTask, whole: PoolRun, st: JudgeState)
    requires JudgeInv(t, st) && JudgeTrace(t, whole, st) && st.Committed() >= t.s.judgesPerGroup
    requires whole == PoolCalls(Max0(t.s.judgesPerGroup), t.group, t.nonConcurrent, t.pools, t.judging, t.event, t.s, Judging)
    ensures JudgeCalls(t) == Ok(Outcome(st, false))
  {
    if st.poolsOpen {
      TraceEnd(whole, Max0(t.s.judgesPerGroup) - |st.poolJudges|, st.poolJudges, t.group, t.nonConcurrent,
               st.pools, st.judging, t.event, t.s, Judging);
    }
  }

  /** One pool call of the judge phase: `assign_role_to_group` on the loop's
      pools and judging table, whose commit (if any) becomes a pool judge and
      whose failure closes the pool path. */
  method PoolStep(t: JudgeTask, st: JudgeState, ghost whole: PoolRun) returns (st': JudgeState)
    requires JudgeInv(t, st) && st.poolsOpen && st.Committed() < t.s.judgesPerGroup
    ensures var r := AssignRole(t.group, t.nonConcurrent, st.pools, st.judging, t.event, t.s.delegates, Judging, t.s.maxScrambles);
      && st'.pools == r.pools && st'.judging == r.table && (st'.poolsOpen <==> r.committed.Some?)
      && st'.poolJudges == st.poolJudges + (if r.committed.Some? then [r.committed.value] else [])
    ensures JudgeTrace(t, whole, st) ==> JudgeTrace(t, whole, st')
    ensures JudgeInv(t, st')
    ensures st'.fallbackJudges == st.fallbackJudges && st'.attempts == st.attempts
    ensures st'.poolsOpen ==> st'.Committed() == st.Committed() + 1
    ensures !st'.poolsOpen ==> st'.Committed() == st.Committed()
  {
    var r := CallAssignRole(t.group, t.nonConcurrent, st.pools, st.judging, t.event, t.s, Judging);
    if r.committed.Some? {
      st' := st.(pools := r.pools, judging := r.table, poolJudges := st.poolJudges + [r.committed.value], poolCalls := st.poolCalls + 1);
    } else {
      st' := st.(pools := r.pools, poolCalls := st.poolCalls + 1, poolsOpen := false);
    }
    PoolStepInv(t, st, r, st');
    if JudgeTrace(t, whole, st) {
      PoolTraceStep(t, whole, st, r, st');
    }
  }

  /** A pool call keeps the judge loop's invariant. */
  lemma PoolStepInv(t: JudgeTask, st: JudgeState, r: Fill, st': JudgeState)
    requires JudgeInv(t, st) && st.poolsOpen && st.Committed() < t.s.judgesPerGroup
    requires r == AssignRole(t.group, t.nonConcurrent, st.pools, st.judging, t.event, t.s.delegates, Judging, t.s.maxScrambles)
    requires r.committed.Some? ==>
      st' == st.(pools := r.pools, judging := r.table, poolJudges := st.poolJudges + [r.committed.value], poolCalls := st.poolCalls + 1)
    requires r.committed.None? ==> st' == st.(pools := r.pools, poolCalls := st.poolCalls + 1, poolsOpen := false)
    ensures JudgeInv(t, st')
  {
    AssignRoleFacts(t.group, t.nonConcurrent, st.pools, st.judging, t.event, t.s, Judging);
    PoppedFromTrans(r.pools, st.pools, t.pools, t.nonConcurrent);
    if r.committed.Some? {
      var p := r.committed.value;
      var g :| g in t.nonConcurrent && |r.pools[g]| < |st.pools[g]| && st.pools[g][|r.pools[g]|] == p;
      PutExtendsChange(t.judging, st.judging, p, t.event, t.group, st.poolJudges + st.fallbackJudges);
      assert st.fallbackJudges == [];
      HoldersAfterPoolCommit(st.poolJudges, st.fallbackJudges, p);
      PoolCommitEligibility(t, st, st', g, p);
    }
  }

  /** A pool commit of `p`, popped from the pool of `g`, keeps the eligibility
      invariant: `p` is a non-delegate drawn from a non-concurrent pool. */
  lemma PoolCommitEligibility(t: JudgeTask, st: JudgeState, st': JudgeState, g: Label, p: Name)
    requires JudgeInv(t, st) && st.poolsOpen && st'.pools.Keys == t.pools.Keys
    requires g in t.nonConcurrent && |st'.pools[g]| < |st.pools[g]| && st.pools[g][|st'.pools[g]|] == p
    requires p !in t.s.delegates
    requires st' == st.(pools := st'.pools, judging := st'.judging, poolJudges := st.poolJudges + [p], poolCalls := st.poolCalls + 1)
    ensures EligibilityInv(t, st')
  {
    assert st.pools[g] == t.pools[g][..|st.pools[g]|];
    assert p in t.pools[g];
    assert DrawnFrom(p, t.nonConcurrent, t.pools);
  }

  /** While no fallback judge exists, a pool commit adds its judge at the end of
      the holder list either way. */
  lemma HoldersAfterPoolCommit(poolJudges: seq<Name>, fallbackJudges: seq<Name>, p: Name)
    requires fallbackJudges == []
    ensures Elems(poolJudges + [p] + fallbackJudges) == Elems(poolJudges + fallbackJudges + [p])
  {
    assert poolJudges + [p] + fallbackJudges == poolJudges + fallbackJudges + [p];
  }

  /** The state after a fallback commit of the front competitor (before the
      attempt is counted): the last list element goes, the front one judges. */
  function FallbackCommit(t: JudgeTask, st: JudgeState): JudgeState
    requires |st.experienced| > 0
  {
    var person := st.experienced[0];
    st.(experienced := st.experienced[..|st.experienced| - 1],
        judging := Put(st.judging, person, t.event, t.group),
        fallbackJudges := st.fallbackJudges + [person],
        attempts := st.attempts + 1)
  }

  /** Preconditions shared by the fallback-step lemmas. */
  ghost predicate CommitReady(t: JudgeTask, st: JudgeState) {
    && JudgeInv(t, st) && !st.poolsOpen && st.attempts <= |t.experienced|
    && st.Committed() < t.s.judgesPerGroup && |st.experienced| > 0
    && FallbackAvailable(st.experienced[0], t.concurrent, st.pools, st.judging, t.scrambling, t.event)
  }

  lemma FallbackCommitCounts(t: JudgeTask, st: JudgeState)
    requires CommitReady(t, st)
    ensures CountsInv(t, FallbackCommit(t, st)) && ExperiencedInv(t, FallbackCommit(t, st))
  {
    var st' := FallbackCommit(t, st);
    assert st.experienced[0] == t.experienced[0];
    if |st.fallbackJudges| > 0 && t.group != "" {
      assert false;
    }
  }

  lemma FallbackCommitFrame(t: JudgeTask, st: JudgeState)
    requires CommitReady(t, st)
    ensures FrameInv(t, FallbackCommit(t, st))
  {
    var st' := FallbackCommit(t, st);
    var person := st.experienced[0];
    assert person in t.experienced;
    forall q | Slot(st'.judging, q, t.event) != Slot(t.judging, q, t.event)
      ensures Slot(st'.judging, q, t.event) in {t.group} && q in st'.poolJudges + st'.fallbackJudges
    {
      if q != person {
        assert Slot(st.judging, q, t.event) != Slot(t.judging, q, t.event);
        assert q in st.poolJudges + st.fallbackJudges;
      }
    }
  }

  lemma FallbackCommitEligibility(t: JudgeTask, st: JudgeState)
    requires CommitReady(t, st)
    ensures FallbackCommit(t, st).pools.Keys == t.pools.Keys
    ensures EligibilityInv(t, FallbackCommit(t, st))
  {
    var person := st.experienced[0];
    if t.group != "" && Slot(t.judging, person, t.event) != "" {
      assert false;
    }
  }

  /** One fallback iteration: inspect the front of the experienced list. It fails
      exactly on an empty list; otherwise it commits the front competitor exactly
      when they are available, removing the last list element, and counts the
      attempt either way. */
  method FallbackStep(t: JudgeTask, st: JudgeState, ghost fwhole: Result<FallbackRun, Failure>)
    returns (res: Result<JudgeState, Failure>)
    requires JudgeInv(t, st) && !st.poolsOpen && st.attempts <= |t.experienced| && st.Committed() < t.s.judgesPerGroup
    ensures FallbackTraced(t, fwhole, st) ==>
      && (res.Err? ==> fwhole == Err(res.error))
      && (res.Ok? && res.value.attempts > |t.experienced| ==>
            fwhole == Ok(FallbackRun(res.value.judging, res.value.experienced, res.value.fallbackJudges, res.value.attempts, true)))
      && (res.Ok? && res.value.attempts <= |t.experienced| ==> FallbackTraced(t, fwhole, res.value))
    ensures res.Err? <==> |st.experienced| == 0
    ensures res.Err? ==> res.error == NoExperiencedCompetitor(t.event, t.group) && |t.experienced| < t.s.judgesPerGroup
    ensures res.Ok? ==> JudgeInv(t, res.value) && !res.value.poolsOpen
    ensures res.Ok? ==> res.value.attempts == st.attempts + 1 && res.value.Committed() >= st.Committed()
    ensures res.Ok? ==> res.value.poolJudges == st.poolJudges && res.value.pools == st.pools
    ensures res.Ok? ==>
      var person := st.experienced[0];
      FallbackAvailable(person, t.concurrent, st.pools, st.judging, t.scrambling, t.event)
      <==> res.value.fallbackJudges == st.fallbackJudges + [person]
    ensures res.Ok? && FallbackAvailable(st.experienced[0], t.concurrent, st.pools, st.judging, t.scrambling, t.event) ==>
      && res.value.judging == Put(st.judging, st.experienced[0], t.event, t.group)
      && res.value.experienced == st.experienced[..|st.experienced| - 1]
    ensures res.Ok? && !FallbackAvailable(st.experienced[0], t.concurrent, st.pools, st.judging, t.scrambling, t.event) ==>
      res.value.judging == st.judging && res.value.experienced == st.experienced && res.value.fallbackJudges == st.fallbackJudges
    ensures res.Ok? && res.value.attempts > |t.experienced| ==> res.value.Committed() == st.Committed()
  {
    if |st.experienced| == 0 {
      return Err(NoExperiencedCompetitor(t.event, t.group));
    }
    var person := st.experienced[0];
    if FallbackAvailable(person, t.concurrent, st.pools, st.judging, t.scrambling, t.event) {
      FallbackCommitCounts(t, st);
      FallbackCommitFrame(t, st);
      FallbackCommitEligibility(t, st);
      if FallbackTraced(t, fwhole, st) {
        FallbackTraceStep(t, fwhole, st, FallbackCommit(t, st));
      }
      return Ok(FallbackCommit(t, st));
    }
    if FallbackTraced(t, fwhole, st) {
      FallbackTraceStep(t, fwhole, st, st.(attempts := st.attempts + 1));
    }
    return Ok(st.(attempts := st.attempts + 1));
  }

  /** What a judge phase's outcome `o` promises: the pools only lose elements,
      the counters and the quota agree (giving up exactly when the quota is
      unmet), fallback judges are the experienced list's front competitor and
      cost the list its last elements, pool judges are non-delegates drawn from
      non-concurrent pools, fallback judges were free, and the judging table
      changed only in this event's column, for this group, for those judges. */
  ghost predicate JudgeResult(t: JudgeTask, o: JudgeOutcome)
    requires t.Valid()
  {
    && PoppedFrom(o.pools, t.pools, t.nonConcurrent)
    && |o.fallbackJudges| <= |t.experienced|
    && |o.poolJudges| + |o.fallbackJudges| <= Max0(t.s.judgesPerGroup)
    && (o.short <==> |o.poolJudges| + |o.fallbackJudges| < t.s.judgesPerGroup)
    && (o.short ==> o.attempts == |t.experienced| + 1)
    && (|t.experienced| == 0 ==> !o.short && |o.poolJudges| >= t.s.judgesPerGroup)
    && o.poolCalls <= |o.poolJudges| + 1
    && (o.poolCalls == |o.poolJudges| ==> o.attempts == 0)
    && |o.fallbackJudges| <= o.attempts
    && o.experienced == t.experienced[..|t.experienced| - |o.fallbackJudges|]
    && (forall i :: 0 <= i < |o.fallbackJudges| ==> o.fallbackJudges[i] == t.experienced[0])
    && (t.group != "" ==> |o.fallbackJudges| <= 1)
    && (forall i :: 0 <= i < |o.poolJudges| ==> o.poolJudges[i] !in t.s.delegates)
    && (forall i :: 0 <= i < |o.poolJudges| ==> DrawnFrom(o.poolJudges[i], t.nonConcurrent, t.pools))
    && (forall i :: 0 <= i < |o.fallbackJudges| ==>
          && (forall j :: 0 <= j < |t.concurrent| ==> o.fallbackJudges[i] !in o.pools[t.concurrent[j]])
          && Slot(t.scrambling, o.fallbackJudges[i], t.event) == ""
          && (t.group != "" ==> Slot(t.judging, o.fallbackJudges[i], t.event) == ""))
    && SameOutside(t.judging, o.judging, t.event)
    && ChangedWithin(t.judging, o.judging, t.event, {t.group}, Elems(o.poolJudges + o.fallbackJudges))
    && ((NeverHeldBy(t.judging, t.s.delegates) && forall i :: 0 <= i < |t.experienced| ==> t.experienced[i] !in t.s.delegates)
        ==> NeverHeldBy(o.judging, t.s.delegates))
    && Members(o.pools) <= Members(t.pools)
    && t.judging.Keys <= o.judging.Keys <= t.judging.Keys + Members(t.pools) + Elems(t.experienced)
  }

  /** A finished judge loop's outcome keeps those promises. */
  lemma DoneResult(t: JudgeTask, whole: PoolRun, st: JudgeState, short: bool)
    requires JudgeDone(t, whole, st, short)
    ensures JudgeResult(t, Outcome(st, short))
  {
  }

  /** The judge phase of one group. Pool calls over the non-concurrent groups until
      the first failure; from then on each iteration inspects
      `experienced_competitors[0]`, commits them when available while removing the
      LAST list element, and counts an attempt either way, giving up once the
      attempts exceed the list's length at the start of the phase. An empty list
      at a fallback iteration is the IndexError. */
  method JudgePhase(t: JudgeTask) returns (res: Result<JudgeOutcome, Failure>)
    requires t.Valid()
    ensures res == JudgeCalls(t)
    ensures res.Err? ==> res.error == NoExperiencedCompetitor(t.event, t.group) && |t.experienced| < t.s.judgesPerGroup
    ensures res.Ok? ==> JudgeResult(t, res.value)
  {
    ghost var whole := PoolCalls(Max0(t.s.judgesPerGroup), t.group, t.nonConcurrent, t.pools, t.judging, t.event, t.s, Judging);
    JudgeTraceStart(t, whole, JudgeState(t.pools, t.judging, t.experienced, [], [], 0, 0, true), Max0(t.s.judgesPerGroup));
    var r := JudgeLoop(t, whole);
    JudgeEnd(t, whole, r);
    if r.Err? {
      return Err(r.error);
    }
    DoneResult(t, whole, r.value.0, r.value.1);
    return Ok(Outcome(r.value.0, r.value.1));
  }

  /** One iteration of the judge loop: a pool call while the pool path is open,
      then a fallback iteration unless that call committed someone. `stop` is
      the give-up once the attempts exceed the list's starting length. */
  method JudgeIteration(t: JudgeTask, st: JudgeState, ghost whole: PoolRun) returns (res: Result<JudgeState, Failure>, stop: bool)
    requires JudgeInv(t, st) && st.attempts <= |t.experienced| && st.Committed() < t.s.judgesPerGroup
    requires JudgeTrace(t, whole, st)
    ensures res.Err? ==>
      && FailedOn(t, whole, res.error)
      && res.error == NoExperiencedCompetitor(t.event, t.group) && |t.experienced| < t.s.judgesPerGroup
    ensures res.Ok? ==> JudgeInv(t, res.value)
    ensures res.Ok? && stop ==> JudgeDone(t, whole, res.value, true)
    ensures res.Ok? && !stop ==>
      && res.value.attempts <= |t.experienced| && JudgeTrace(t, whole, res.value)
      && (!st.poolsOpen ==> !res.value.poolsOpen)
      && (st.poolsOpen == res.value.poolsOpen ==> res.value.Committed() + res.value.attempts > st.Committed() + st.attempts)
  {
    var st' := st;
    var fromPool := false;
    if st.poolsOpen {
      st' := PoolStep(t, st, whole);
      fromPool := st'.poolsOpen;
    }
    if fromPool {
      return Ok(st'), false;
    }
    res := FallbackStep(t, st', JudgeFallbacks(t, whole));
    stop := res.Ok? && res.value.attempts > |t.experienced|;
  }

  /** The loop of the judge phase: its final state, and whether it gave up. */
  method JudgeLoop(t: JudgeTask, ghost whole: PoolRun) returns (res: Result<(JudgeState, bool), Failure>)
    requires t.Valid() && JudgeTrace(t, whole, JudgeState(t.pools, t.judging, t.experienced, [], [], 0, 0, true))
    ensures res.Err? ==> FailedOn(t, whole, res.error)
    ensures res.Err? ==> res.error == NoExperiencedCompetitor(t.event, t.group) && |t.experienced| < t.s.judgesPerGroup
    ensures res.Ok? ==> JudgeDone(t, whole, res.value.0, res.value.1)
  {
    var n := |t.experienced|;
    var st := JudgeState(t.pools, t.judging, t.experienced, [], [], 0, 0, true);
    JudgeInvStart(t, st);
    while st.Committed() < t.s.judgesPerGroup
      invariant JudgeInv(t, st)
      invariant st.attempts <= n
      invariant JudgeTrace(t, whole, st)
      decreases (if st.poolsOpen then 1 else 0), t.s.judgesPerGroup - st.Committed() + n - st.attempts
    {
      var step, stop := JudgeIteration(t, st, whole);
      if step.Err? {
        return Err(step.error);
      }
      st := step.value;
      if stop {
        return Ok((st, true));
      }
    }
    DoneByQuota(t, whole, st);
    return Ok((st, false));
  }

  /** The state after one group. */
  datatype GroupOutcome = GroupOutcome(
    pools: map<Label, seq<Name>>,
    judging: Table,
    scrambling: Table,
    experienced: seq<Name>,
    scramblers: seq<Name>,
    judges: seq<Name>,
    shortfalls: seq<Shortfall>)

  /** The table invariants the whole pass keeps: the scrambling cap, scrambling
      held only by approved scramblers, and (while the experienced list holds no
      delegate) judging never held by a delegate. */
  ghost predicate TablesInv(judging: Table, scrambling: Table, experienced: seq<Name>, s: Settings) {
    && WithinCap(scrambling, s.maxScrambles)
    && HeldOnlyBy(scrambling, s.approved)
    && NeverHeldBy(judging, s.delegates)
    && (forall i :: 0 <= i < |experienced| ==> experienced[i] !in s.delegates)
  }

  /** Reference definition of one group of one event: split the event's groups
      by concurrency, run the scrambling pool calls over the non-concurrent
      pools, then the judge phase on the pools and scrambling table they leave.
      The warnings are the scrambler one when the scrambling calls failed and
      the judge one when the judge phase gave up. */
  function GroupCalls(event: EventId, group: Label, order: seq<Label>, pools: map<Label, seq<Name>>,
                      judging: Table, scrambling: Table, experienced: seq<Name>, s: Settings): (r: Result<GroupOutcome, Failure>)
    requires HasPools(order, pools)
    ensures r.Err? ==> r.error == NoExperiencedCompetitor(event, group)
    ensures r.Ok? ==> r.value.pools.Keys == pools.Keys
  {
    var part := FilterConcurrent(group, order);
    FilterConcurrentPartitions(group, order);
    var sc := PoolCalls(Max0(s.scramblersPerGroup), group, part.nonConcurrent, pools, scrambling, event, s, Scrambling(s.approved));
    match JudgeCalls(JudgeTask(event, group, part.nonConcurrent, part.concurrent, sc.pools, judging, sc.table, experienced, s))
    case Err(e) => Err(e)
    case Ok(o) => Ok(GroupFrom(event, group, sc.table, sc.committed, sc.failed, o))
  }

  /** One group of one event: classify, run the scrambler phase over the
      non-concurrent pools, then the judge phase. */
  method AssignGroup(event: EventId, group: Label, order: seq<Label>, pools: map<Label, seq<Name>>,
                     judging: Table, scrambling: Table, experienced: seq<Name>, s: Settings)
    returns (res: Result<GroupOutcome, Failure>)
    requires HasPools(order, pools)
    ensures res == GroupCalls(event, group, order, pools, judging, scrambling, experienced, s)
    ensures res.Err? ==> res.error == NoExperiencedCompetitor(event, group) && |experienced| < s.judgesPerGroup
    ensures res.Ok? ==> GroupResult(event, group, order, pools, judging, scrambling, experienced, s, res.value)
  {
    var part := Classify(group, order, pools);
    var pools1, scrambling1, scramblers, scramblersShort, _ := ScramblerPhase(event, group, part.nonConcurrent, pools, scrambling, s);
    var t := JudgeTask(event, group, part.nonConcurrent, part.concurrent, pools1, judging, scrambling1, experienced, s);
    var judged := JudgeGroup(t, order);
    GroupCallsOf(event, group, order, pools, judging, scrambling, experienced, s, pools1, scrambling1, scramblers, scramblersShort, judged);
    if judged.Err? {
      return Err(judged.error);
    }
    GroupResultOf(event, group, order, pools, judging, scrambling, experienced, s, pools1, scrambling1, scramblers, scramblersShort, judged.value);
    return Ok(GroupFrom(event, group, scrambling1, scramblers, scramblersShort, judged.value));
  }

  /** What one group's outcome `o` promises: the pools only lose elements and
      the experienced list only its last elements; scramblers and judges stay
      within their quotas, each warning is issued exactly when its quota is
      unmet; scramblers are approved, and judges are drawn from non-concurrent
      pools or are the experienced list's front competitor; both tables changed
      only in this event's column, for this group, for those competitors; the
      table invariants are kept. */
  ghost predicate GroupResult(event: EventId, group: Label, order: seq<Label>, pools: map<Label, seq<Name>>,
                              judging: Table, scrambling: Table, experienced: seq<Name>, s: Settings, o: GroupOutcome)
  {
    && PoppedFrom(o.pools, pools, order)
    && IsPrefix(o.experienced, experienced)
    && |o.scramblers| <= Max0(s.scramblersPerGroup)
    && |o.judges| <= Max0(s.judgesPerGroup)
    && (ScramblersShort(event, group) in o.shortfalls <==> |o.scramblers| < s.scramblersPerGroup)
    && (JudgesShort(event, group) in o.shortfalls <==> |o.judges| < s.judgesPerGroup)
    && (forall i :: 0 <= i < |o.scramblers| ==> o.scramblers[i] in s.approved)
    && (forall i :: 0 <= i < |o.judges| ==>
          DrawnFrom(o.judges[i], FilterConcurrent(group, order).nonConcurrent, pools) || (|experienced| > 0 && o.judges[i] == experienced[0]))
    && SameOutside(judging, o.judging, event)
    && SameOutside(scrambling, o.scrambling, event)
    && ChangedWithin(judging, o.judging, event, {group}, Elems(o.judges))
    && ChangedWithin(scrambling, o.scrambling, event, {group}, Elems(o.scramblers))
    && (forall f :: f in o.shortfalls ==> f.event == event && f.group == group)
    && (TablesInv(judging, scrambling, experienced, s) ==> TablesInv(o.judging, o.scrambling, o.experienced, s))
    && Members(o.pools) <= Members(pools)
    && judging.Keys <= o.judging.Keys <= judging.Keys + Members(pools) + Elems(experienced)
    && scrambling.Keys <= o.scrambling.Keys <= scrambling.Keys + Members(pools)
  }

  /** The reference group outcome from the scrambler phase's results and the
      judge phase's outcome. */
  function GroupFrom(event: EventId, group: Label, scrambling: Table, scramblers: seq<Name>, scramblersShort: bool,
                     o: JudgeOutcome): GroupOutcome {
    GroupOutcome(o.pools, o.judging, scrambling, o.experienced, scramblers, o.poolJudges + o.fallbackJudges,
                 GroupShortfalls(event, group, scramblersShort, o.short))
  }

  /** The reference group calls, given the scrambling pool calls' result and the
      judge phase's. */
  lemma GroupCallsOf(event: EventId, group: Label, order: seq<Label>, pools: map<Label, seq<Name>>,
                     judging: Table, scrambling: Table, experienced: seq<Name>, s: Settings,
                     pools1: map<Label, seq<Name>>, scrambling1: Table, scramblers: seq<Name>, short: bool,
                     judged: Result<JudgeOutcome, Failure>)
    requires HasPools(order, pools)
    requires HasPools(FilterConcurrent(group, order).nonConcurrent, pools) && HasPools(FilterConcurrent(group, order).concurrent, pools)
    requires PoolCalls(Max0(s.scramblersPerGroup), group, FilterConcurrent(group, order).nonConcurrent, pools, scrambling, event, s, Scrambling(s.approved))
             == PoolRun(pools1, scrambling1, scramblers, short)
    requires var part := FilterConcurrent(group, order);
      judged == JudgeCalls(JudgeTask(event, group, part.nonConcurrent, part.concurrent, pools1, judging, scrambling1, experienced, s))
    ensures judged.Err? ==> GroupCalls(event, group, order, pools, judging, scrambling, experienced, s) == Err(judged.error)
    ensures judged.Ok? ==>
      GroupCalls(event, group, order, pools, judging, scrambling, experienced, s) == Ok(GroupFrom(event, group, scrambling1, scramblers, short, judged.value))
  {
  }

  /** The promises of one group's two phases: the scrambler phase's on the
      event's pools, and the judge phase's on the pools and scrambling table
      that phase left. */
  ghost predicate PhasesKept(event: EventId, group: Label, order: seq<Label>, pools: map<Label, seq<Name>>,
                             judging: Table, scrambling: Table, experienced: seq<Name>, s: Settings,
                             pools1: map<Label, seq<Name>>, scrambling1: Table, scramblers: seq<Name>, short: bool, o: JudgeOutcome) {
    var part := FilterConcurrent(group, order);
    && HasPools(order, pools)
    && HasPools(part.nonConcurrent, pools1) && HasPools(part.concurrent, pools1)
    && (forall g :: g in part.nonConcurrent ==> g in order)
    && ScrambleResult(event, group, part.nonConcurrent, pools, scrambling, s, pools1, scrambling1, scramblers, short)
    && JudgeResult(JudgeTask(event, group, part.nonConcurrent, part.concurrent, pools1, judging, scrambling1, experienced, s), o)
  }

  /** One group's outcome keeps its promises, given those of its phases. */
  lemma GroupResultOf(event: EventId, group: Label, order: seq<Label>, pools: map<Label, seq<Name>>,
                      judging: Table, scrambling: Table, experienced: seq<Name>, s: Settings,
                      pools1: map<Label, seq<Name>>, scrambling1: Table, scramblers: seq<Name>, short: bool, o: JudgeOutcome)
    requires PhasesKept(event, group, order, pools, judging, scrambling, experienced, s, pools1, scrambling1, scramblers, short, o)
    ensures GroupResult(event, group, order, pools, judging, scrambling, experienced, s, GroupFrom(event, group, scrambling1, scramblers, short, o))
  {
    GroupPoolsOf(event, group, order, pools, judging, scrambling, experienced, s, pools1, scrambling1, scramblers, short, o);
    GroupRolesOf(event, group, order, pools, judging, scrambling, experienced, s, pools1, scrambling1, scramblers, short, o);
    GroupTablesOf(event, group, order, pools, judging, scrambling, experienced, s, pools1, scrambling1, scramblers, short, o);
  }

  lemma GroupPoolsOf(event: EventId, group: Label, order: seq<Label>, pools: map<Label, seq<Name>>,
                     judging: Table, scrambling: Table, experienced: seq<Name>, s: Settings,
                     pools1: map<Label, seq<Name>>, scrambling1: Table, scramblers: seq<Name>, short: bool, o: JudgeOutcome)
    requires PhasesKept(event, group, order, pools, judging, scrambling, experienced, s, pools1, scrambling1, scramblers, short, o)
    ensures PoppedFrom(o.pools, pools, order) && Members(o.pools) <= Members(pools)
    ensures judging.Keys <= o.judging.Keys <= judging.Keys + Members(pools) + Elems(experienced)
    ensures scrambling.Keys <= scrambling1.Keys <= scrambling.Keys + Members(pools)
  {
    var part := FilterConcurrent(group, order);
    PoppedFromSuper(pools1, pools, part.nonConcurrent, order);
    PoppedFromSuper(o.pools, pools1, part.nonConcurrent, order);
    PoppedFromTrans(o.pools, pools1, pools, order);
    KeysCompose(judging.Keys, o.judging.Keys, Members(pools1), Members(pools), Elems(experienced));
  }

  lemma GroupRolesOf(event: EventId, group: Label, order: seq<Label>, pools: map<Label, seq<Name>>,
                     judging: Table, scrambling: Table, experienced: seq<Name>, s: Settings,
                     pools1: map<Label, seq<Name>>, scrambling1: Table, scramblers: seq<Name>, short: bool, o: JudgeOutcome)
    requires PhasesKept(event, group, order, pools, judging, scrambling, experienced, s, pools1, scrambling1, scramblers, short, o)
    ensures var g := GroupFrom(event, group, scrambling1, scramblers, short, o);
      && IsPrefix(g.experienced, experienced)
      && |g.scramblers| <= Max0(s.scramblersPerGroup)
      && |g.judges| <= Max0(s.judgesPerGroup)
      && (ScramblersShort(event, group) in g.shortfalls <==> |g.scramblers| < s.scramblersPerGroup)
      && (JudgesShort(event, group) in g.shortfalls <==> |g.judges| < s.judgesPerGroup)
      && (forall i :: 0 <= i < |g.scramblers| ==> g.scramblers[i] in s.approved)
      && (forall i :: 0 <= i < |g.judges| ==>
            DrawnFrom(g.judges[i], FilterConcurrent(group, order).nonConcurrent, pools) || (|experienced| > 0 && g.judges[i] == experienced[0]))
      && (forall f :: f in g.shortfalls ==> f.event == event && f.group == group)
  {
    var part := FilterConcurrent(group, order);
    var g := GroupFrom(event, group, scrambling1, scramblers, short, o);
    forall i | 0 <= i < |g.judges|
      ensures DrawnFrom(g.judges[i], part.nonConcurrent, pools) || (|experienced| > 0 && g.judges[i] == experienced[0])
    {
      if i < |o.poolJudges| {
        assert g.judges[i] == o.poolJudges[i];
        DrawnFromPopped(g.judges[i], part.nonConcurrent, pools1, pools, part.nonConcurrent);
      } else {
        assert g.judges[i] == o.fallbackJudges[i - |o.poolJudges|];
      }
    }
  }

  lemma GroupTablesOf(event: EventId, group: Label, order: seq<Label>, pools: map<Label, seq<Name>>,
                      judging: Table, scrambling: Table, experienced: seq<Name>, s: Settings,
                      pools1: map<Label, seq<Name>>, scrambling1: Table, scramblers: seq<Name>, short: bool, o: JudgeOutcome)
    requires PhasesKept(event, group, order, pools, judging, scrambling, experienced, s, pools1, scrambling1, scramblers, short, o)
    ensures SameOutside(judging, o.judging, event) && SameOutside(scrambling, scrambling1, event)
    ensures ChangedWithin(judging, o.judging, event, {group}, Elems(o.poolJudges + o.fallbackJudges))
    ensures ChangedWithin(scrambling, scrambling1, event, {group}, Elems(scramblers))
    ensures TablesInv(judging, scrambling, experienced, s) ==> TablesInv(o.judging, scrambling1, o.experienced, s)
  {
    if TablesInv(judging, scrambling, experienced, s) {
      TablesInvStep(judging, scrambling, experienced, s, o.judging, scrambling1, o.experienced);
    }
  }



  /** The group-level guarantees of both phases keep the table invariants. */
  lemma TablesInvStep(judging: Table, scrambling: Table, experienced: seq<Name>, s: Settings,
                      judging': Table, scrambling': Table, experienced': seq<Name>)
    requires TablesInv(judging, scrambling, experienced, s)
    requires WithinCap(scrambling, s.maxScrambles) ==> WithinCap(scrambling', s.maxScrambles)
    requires HeldOnlyBy(scrambling, s.approved) ==> HeldOnlyBy(scrambling', s.approved)
    requires (NeverHeldBy(judging, s.delegates) && forall i :: 0 <= i < |experienced| ==> experienced[i] !in s.delegates)
             ==> NeverHeldBy(judging', s.delegates)
    requires IsPrefix(experienced', experienced)
    ensures TablesInv(judging', scrambling', experienced', s)
  {
    assert forall i :: 0 <= i < |experienced'| ==> experienced'[i] == experienced[i];
  }

  /** The warnings of one group, scramblers first. */
  function GroupShortfalls(event: EventId, group: Label, scramblersShort: bool, judgesShort: bool): (r: seq<Shortfall>)
    ensures ScramblersShort(event, group) in r <==> scramblersShort
    ensures JudgesShort(event, group) in r <==> judgesShort
    ensures forall f :: f in r ==> f.event == event && f.group == group
    ensures |r| <= 2
  {
    (if scramblersShort then [ScramblersShort(event, group)] else [])
    + (if judgesShort then [JudgesShort(event, group)] else [])
  }

  /** `filter_concurrent_groups` as the driver uses it: both halves list groups
      of the event. */
  method Classify(group: Label, order: seq<Label>, pools: map<Label, seq<Name>>) returns (part: Partition)
    requires HasPools(order, pools)
    ensures part == FilterConcurrent(group, order)
    ensures HasPools(part.nonConcurrent, pools) && HasPools(part.concurrent, pools)
    ensures forall g :: g in part.nonConcurrent ==> g in order
  {
    part := FilterConcurrent(group, order);
    FilterConcurrentPartitions(group, order);
  }

  /** The judge phase as one group sees it: the list of judges, the pools touched
      among the event's groups, and the judging-table guarantees. */
  method JudgeGroup(t: JudgeTask, order: seq<Label>) returns (res: Result<JudgeOutcome, Failure>)
    requires t.Valid()
    requires forall g :: g in t.nonConcurrent ==> g in order
    ensures res == JudgeCalls(t)
    ensures res.Ok? ==> JudgeResult(t, res.value)
    ensures res.Err? ==> res.error == NoExperiencedCompetitor(t.event, t.group) && |t.experienced| < t.s.judgesPerGroup
    ensures res.Ok? ==> var o := res.value;
      && PoppedFrom(o.pools, t.pools, order)
      && IsPrefix(o.experienced, t.experienced)
      && |o.poolJudges + o.fallbackJudges| <= Max0(t.s.judgesPerGroup)
      && (o.short <==> |o.poolJudges + o.fallbackJudges| < t.s.judgesPerGroup)
      && (forall i :: 0 <= i < |o.poolJudges| ==> DrawnFrom(o.poolJudges[i], t.nonConcurrent, t.pools))
      && (forall i :: 0 <= i < |o.fallbackJudges| ==> |t.experienced| > 0 && o.fallbackJudges[i] == t.experienced[0])
      && SameOutside(t.judging, o.judging, t.event)
      && ChangedWithin(t.judging, o.judging, t.event, {t.group}, Elems(o.poolJudges + o.fallbackJudges))
      && ((NeverHeldBy(t.judging, t.s.delegates) && forall i :: 0 <= i < |t.experienced| ==> t.experienced[i] !in t.s.delegates)
          ==> NeverHeldBy(o.judging, t.s.delegates))
      && Members(o.pools) <= Members(t.pools)
      && t.judging.Keys <= o.judging.Keys <= t.judging.Keys + Members(t.pools) + Elems(t.experienced)
  {
    res := JudgePhase(t);
    if res.Ok? {
      PoppedFromSuper(res.value.pools, t.pools, t.nonConcurrent, order);
    }
  }

  /** Set algebra for the key bounds of one group. */
  lemma KeysCompose(k0: set<Name>, k1: set<Name>, m1: set<Name>, m0: set<Name>, x: set<Name>)
    requires m1 <= m0 && k0 <= k1 <= k0 + m1 + x
    ensures k1 <= k0 + m0 + x
  {
  }

  /** Touching fewer pools is touching a sub-list of them. */
  lemma PoppedFromSuper(p2: map<Label, seq<Name>>, p1: map<Label, seq<Name>>, touched: seq<Label>, wider: seq<Label>)
    requires PoppedFrom(p2, p1, touched)
    requires forall g :: g in touched ==> g in wider
    ensures PoppedFrom(p2, p1, wider)
  {
  }

  /** The state after one event. */
  datatype EventOutcome = EventOutcome(
    pools: map<Label, seq<Name>>,
    judging: Table,
    scrambling: Table,
    experienced: seq<Name>,
    shortfalls: seq<Shortfall>)

  /** The state after one more group: its pools, tables and experienced list,
      and its warnings after those of the groups before it. */
  function AfterGroup(st: EventOutcome, o: GroupOutcome): EventOutcome {
    EventOutcome(o.pools, o.judging, o.scrambling, o.experienced, st.shortfalls + o.shortfalls)
  }

  /** Reference definition of the groups `rest` of one event, whose groups are
      `order`, from state `st`: one group after the other, each on the pools,
      tables and experienced list the previous one left, stopping at the first
      failure. */
  function EventCalls(event: EventId, rest: seq<Label>, order: seq<Label>, st: EventOutcome, s: Settings): (r: Result<EventOutcome, Failure>)
    requires HasPools(order, st.pools)
    ensures r.Ok? ==> r.value.pools.Keys == st.pools.Keys
    ensures r.Err? ==> r.error.event == event && r.error.group in rest
    decreases |rest|
  {
    if |rest| == 0 then Ok(st)
    else
      match GroupCalls(event, rest[0], order, st.pools, st.judging, st.scrambling, st.experienced, s)
      case Err(e) => Err(e)
      case Ok(o) => EventCalls(event, rest[1..], order, AfterGroup(st, o), s)
  }

  /** Every group of one event, in the event's group order. */
  method AssignEvent(event: EventId, gs: Groups, judging: Table, scrambling: Table,
                     experienced: seq<Name>, s: Settings)
    returns (res: Result<EventOutcome, Failure>)
    requires HasPools(gs.order, gs.pools)
    ensures res == EventCalls(event, gs.order, gs.order, EventOutcome(gs.pools, judging, scrambling, experienced, []), s)
    ensures res.Err? ==> res.error.event == event && res.error.group in gs.order && s.judgesPerGroup > 0
    ensures res.Ok? ==> GroupsInv(event, gs, judging, scrambling, experienced, s, res.value)
  {
    var st := EventOutcome(gs.pools, judging, scrambling, experienced, []);
    var rest := gs.order;
    ghost var whole := EventCalls(event, gs.order, gs.order, st, s);
    GroupsInvStart(event, gs, judging, scrambling, experienced, s);
    while |rest| > 0
      invariant forall g :: g in rest ==> g in gs.order
      invariant GroupsInv(event, gs, judging, scrambling, experienced, s, st)
      invariant whole == EventCalls(event, rest, gs.order, st, s)
    {
      var r := GroupStep(event, gs, judging, scrambling, experienced, s, st, rest);
      if r.Err? {
        return Err(r.error);
      }
      st := r.value;
      rest := rest[1..];
    }
    return Ok(st);
  }

  /** What the groups of one event keep, whatever number of them is done: the
      pools only lose elements (nobody is added), the experienced list only its
      last elements; both tables changed only in this event's column and only
      to labels of the event's groups; every warning names one of those groups;
      the table invariants are kept, and the tables gain rows only for pool
      members and experienced competitors. */
  ghost predicate GroupsInv(event: EventId, gs: Groups, judging: Table, scrambling: Table,
                            experienced: seq<Name>, s: Settings, st: EventOutcome) {
    && PoppedFrom(st.pools, gs.pools, gs.order)
    && IsPrefix(st.experienced, experienced)
    && SameOutside(judging, st.judging, event)
    && SameOutside(scrambling, st.scrambling, event)
    && ChangedTo(judging, st.judging, event, Elems(gs.order))
    && ChangedTo(scrambling, st.scrambling, event, Elems(gs.order))
    && (forall f :: f in st.shortfalls ==> f.event == event && f.group in gs.order)
    && (TablesInv(judging, scrambling, experienced, s) ==> TablesInv(st.judging, st.scrambling, st.experienced, s))
    && Members(st.pools) <= Members(gs.pools)
    && judging.Keys <= st.judging.Keys <= judging.Keys + Members(gs.pools) + Elems(experienced)
    && scrambling.Keys <= st.scrambling.Keys <= scrambling.Keys + Members(gs.pools)
  }

  /** Before the first group nothing has changed. */
  lemma GroupsInvStart(event: EventId, gs: Groups, judging: Table, scrambling: Table, experienced: seq<Name>, s: Settings)
    ensures GroupsInv(event, gs, judging, scrambling, experienced, s, EventOutcome(gs.pools, judging, scrambling, experienced, []))
  {
    assert experienced[..|experienced|] == experienced;
  }

  /** The next group of one event, the first of `rest`. */
  method GroupStep(event: EventId, gs: Groups, judging: Table, scrambling: Table,
                   experienced: seq<Name>, s: Settings, st: EventOutcome, rest: seq<Label>)
    returns (res: Result<EventOutcome, Failure>)
    requires HasPools(gs.order, gs.pools) && |rest| > 0 && rest[0] in gs.order
    requires GroupsInv(event, gs, judging, scrambling, experienced, s, st)
    ensures res.Err? ==> res.error.event == event && res.error.group in gs.order && s.judgesPerGroup > 0
    ensures res.Ok? ==> GroupsInv(event, gs, judging, scrambling, experienced, s, res.value)
    ensures res.Err? ==> EventCalls(event, rest, gs.order, st, s) == Err(res.error)
    ensures res.Ok? ==> EventCalls(event, rest, gs.order, st, s) == EventCalls(event, rest[1..], gs.order, res.value, s)
  {
    var group := rest[0];
    var r := AssignGroup(event, group, gs.order, st.pools, st.judging, st.scrambling, st.experienced, s);
    if r.Err? {
      return Err(r.error);
    }
    var o := r.value;
    GroupsInvStep(event, gs, judging, scrambling, experienced, s, st, group, o);
    return Ok(AfterGroup(st, o));
  }

  /** One group's guarantees extend those of the groups before it. */
  lemma GroupsInvStep(event: EventId, gs: Groups, judging: Table, scrambling: Table,
                      experienced: seq<Name>, s: Settings, st: EventOutcome, group: Label, o: GroupOutcome)
    requires group in gs.order
    requires GroupsInv(event, gs, judging, scrambling, experienced, s, st)
    requires PoppedFrom(o.pools, st.pools, gs.order)
    requires IsPrefix(o.experienced, st.experienced)
    requires SameOutside(st.judging, o.judging, event) && SameOutside(st.scrambling, o.scrambling, event)
    requires ChangedWithin(st.judging, o.judging, event, {group}, Elems(o.judges))
    requires ChangedWithin(st.scrambling, o.scrambling, event, {group}, Elems(o.scramblers))
    requires forall f :: f in o.shortfalls ==> f.event == event && f.group == group
    requires TablesInv(st.judging, st.scrambling, st.experienced, s) ==> TablesInv(o.judging, o.scrambling, o.experienced, s)
    requires Members(o.pools) <= Members(st.pools)
    requires st.judging.Keys <= o.judging.Keys <= st.judging.Keys + Members(st.pools) + Elems(st.experienced)
    requires st.scrambling.Keys <= o.scrambling.Keys <= st.scrambling.Keys + Members(st.pools)
    ensures GroupsInv(event, gs, judging, scrambling, experienced, s, AfterGroup(st, o))
  {
    var labels := Elems(gs.order);
    PoppedFromTrans(o.pools, st.pools, gs.pools, gs.order);
    ChangedStaysWithin(judging, st.judging, o.judging, event, labels, group, Elems(o.judges));
    ChangedStaysWithin(scrambling, st.scrambling, o.scrambling, event, labels, group, Elems(o.scramblers));
    PrefixElems(st.experienced, experienced);
    KeysGrow(judging.Keys, st.judging.Keys, o.judging.Keys, Members(st.pools), Members(gs.pools), Elems(st.experienced), Elems(experienced));
    KeysGrow(scrambling.Keys, st.scrambling.Keys, o.scrambling.Keys, Members(st.pools), Members(gs.pools), {}, {});
  }

  /** Composing a change into `labels` with a change into `{group}`, `group` in `labels`. */
  lemma ChangedStaysWithin(t1: Table, t2: Table, t3: Table, e: EventId, labels: set<Label>, group: Label, holders: set<Name>)
    requires ChangedTo(t1, t2, e, labels) && group in labels
    requires ChangedWithin(t2, t3, e, {group}, holders)
    ensures ChangedTo(t1, t3, e, labels)
  {
    forall p | Slot(t3, p, e) != Slot(t1, p, e) ensures Slot(t3, p, e) in labels {
      if Slot(t3, p, e) == Slot(t2, p, e) {
      }
    }
  }

  /** The state after the whole pass. */
  datatype RunOutcome = RunOutcome(index: Index, experienced: seq<Name>, shortfalls: seq<Shortfall>)

  /** Every recognised event has its groups' pools. */
  ghost predicate Assignable(ix: Index) {
    forall e :: e in ix.events ==> e in ix.byEvent && HasPools(ix.byEvent[e].order, ix.byEvent[e].pools)
  }

  /** `assign_scramblers_and_judges`: every event, in the index's event order. The
      tables change only in slots of indexed events, and only to labels of that
      event's groups; the three table invariants survive; the experienced list only
      loses elements from its end. */
  method AssignAll(ix: Index, experienced: seq<Name>, s: Settings)
    returns (res: Result<RunOutcome, Failure>)
    requires Assignable(ix)
    ensures res.Err? ==> PassCalls(ix.events, Pass(ix, experienced, []), s) == Err(res.error)
    ensures res.Ok? ==> PassCalls(ix.events, Pass(ix, experienced, []), s) == Ok(Pass(res.value.index, res.value.experienced, res.value.shortfalls))
    ensures res.Err? ==> res.error.event in ix.events && res.error.group in ix.byEvent[res.error.event].order
    ensures res.Err? ==> s.judgesPerGroup > 0
    ensures res.Ok? ==> var o := res.value;
      && o.index.competitors == ix.competitors && o.index.events == ix.events
      && o.index.byEvent.Keys == ix.byEvent.Keys
      && (forall e :: e in ix.byEvent ==> o.index.byEvent[e].order == ix.byEvent[e].order)
      && IsPrefix(o.experienced, experienced)
      && SameOutsideAll(ix.judging, o.index.judging, ix.events)
      && SameOutsideAll(ix.scrambling, o.index.scrambling, ix.events)
      && (forall e :: e in ix.events ==> ChangedTo(ix.judging, o.index.judging, e, Elems(ix.byEvent[e].order)))
      && (forall e :: e in ix.events ==> ChangedTo(ix.scrambling, o.index.scrambling, e, Elems(ix.byEvent[e].order)))
      && (forall f :: f in o.shortfalls ==> f.event in ix.events)
      && (TablesInv(ix.judging, ix.scrambling, experienced, s) ==> TablesInv(o.index.judging, o.index.scrambling, o.experienced, s))
      && ix.judging.Keys <= o.index.judging.Keys <= ix.judging.Keys + PoolMembers(ix) + Elems(experienced)
      && ix.scrambling.Keys <= o.index.scrambling.Keys <= ix.scrambling.Keys + PoolMembers(ix)
  {
    var st := Pass(ix, experienced, []);
    var k := 0;
    ghost var rest := ix.events;
    ghost var whole := PassCalls(ix.events, st, s);
    PassInvStart(ix, experienced, s);
    while k < |ix.events|
      invariant PassInv(ix, experienced, s, st, k)
      invariant rest == ix.events[k..]
      invariant whole == PassCalls(rest, st, s)
    {
      var r := EventStep(ix, experienced, s, st, k);
      if r.Err? {
        return Err(r.error);
      }
      st := r.value;
      k := k + 1;
      rest := rest[1..];
    }
    assert ix.events[..k] == ix.events;
    return Ok(RunOutcome(st.cur, st.exp, st.shortfalls));
  }

  /** The state of the pass between two events. */
  datatype Pass = Pass(cur: Index, exp: seq<Name>, shortfalls: seq<Shortfall>)

  /** The state after one more event: its tables, its groups' pools, the
      experienced list it left, and its warnings after those before it. */
  function AfterEvent(st: Pass, event: EventId, o: EventOutcome): Pass
    requires event in st.cur.byEvent
  {
    Pass(st.cur.(judging := o.judging, scrambling := o.scrambling,
                 byEvent := st.cur.byEvent[event := Groups(st.cur.byEvent[event].order, o.pools)]),
         o.experienced, st.shortfalls + o.shortfalls)
  }

  /** Reference definition of the pass over the events `events` from state
      `st`: each event's groups in their order, on the tables and experienced
      list the previous event left, stopping at the first failure. */
  function PassCalls(events: seq<EventId>, st: Pass, s: Settings): (r: Result<Pass, Failure>)
    requires forall e :: e in events ==> e in st.cur.byEvent && HasPools(st.cur.byEvent[e].order, st.cur.byEvent[e].pools)
    ensures r.Err? ==> r.error.event in events
    decreases |events|
  {
    if |events| == 0 then Ok(st)
    else
      var event := events[0];
      var gs := st.cur.byEvent[event];
      match EventCalls(event, gs.order, gs.order, EventOutcome(gs.pools, st.cur.judging, st.cur.scrambling, st.exp, []), s)
      case Err(e) => Err(e)
      case Ok(o) => PassCalls(events[1..], AfterEvent(st, event, o), s)
  }

  /** Before the first event nothing has changed. */
  lemma PassInvStart(ix: Index, experienced: seq<Name>, s: Settings)
    requires Assignable(ix)
    ensures PassInv(ix, experienced, s, Pass(ix, experienced, []), 0)
  {
    assert ix.events[..0] == [];
    assert experienced[..|experienced|] == experienced;
  }

  /** What the pass keeps after its first `k` events. */
  ghost predicate PassInv(ix: Index, experienced: seq<Name>, s: Settings, st: Pass, k: nat) {
    && k <= |ix.events|
    && st.cur.competitors == ix.competitors && st.cur.events == ix.events
    && PoolsWithin(st.cur.byEvent, ix.byEvent, ix.events)
    && IsPrefix(st.exp, experienced)
    && SameOutsideAll(ix.judging, st.cur.judging, ix.events[..k])
    && SameOutsideAll(ix.scrambling, st.cur.scrambling, ix.events[..k])
    && (forall e :: e in ix.events && e in ix.byEvent ==> ChangedTo(ix.judging, st.cur.judging, e, Elems(ix.byEvent[e].order)))
    && (forall e :: e in ix.events && e in ix.byEvent ==> ChangedTo(ix.scrambling, st.cur.scrambling, e, Elems(ix.byEvent[e].order)))
    && (forall f :: f in st.shortfalls ==> f.event in ix.events)
    && (TablesInv(ix.judging, ix.scrambling, experienced, s) ==> TablesInv(st.cur.judging, st.cur.scrambling, st.exp, s))
    && ix.judging.Keys <= st.cur.judging.Keys <= ix.judging.Keys + PoolMembers(ix) + Elems(experienced)
    && ix.scrambling.Keys <= st.cur.scrambling.Keys <= ix.scrambling.Keys + PoolMembers(ix)
  }

  /** One event of the pass. */
  method EventStep(ix: Index, experienced: seq<Name>, s: Settings, st: Pass, k: nat)
    returns (res: Result<Pass, Failure>)
    requires Assignable(ix) && PassInv(ix, experienced, s, st, k) && k < |ix.events|
    ensures res.Err? ==> res.error.event in ix.events && res.error.group in ix.byEvent[res.error.event].order
    ensures res.Err? ==> s.judgesPerGroup > 0
    ensures res.Ok? ==> PassInv(ix, experienced, s, res.value, k + 1)
    ensures res.Err? ==> PassCalls(ix.events[k..], st, s) == Err(res.error)
    ensures res.Ok? ==> PassCalls(ix.events[k..], st, s) == PassCalls(ix.events[k..][1..], res.value, s)
  {
    var cur := st.cur;
    var event := ix.events[k];
    var gs := cur.byEvent[event];
    var r := AssignEvent(event, gs, cur.judging, cur.scrambling, st.exp, s);
    if r.Err? {
      assert gs.order == ix.byEvent[event].order;
      return Err(r.error);
    }
    var o := r.value;
    PassInvStep(ix, experienced, s, st, k, o);
    return Ok(AfterEvent(st, event, o));
  }

  /** One event's guarantees extend those of the events before it. */
  lemma PassInvStep(ix: Index, experienced: seq<Name>, s: Settings, st: Pass, k: nat, o: EventOutcome)
    requires Assignable(ix) && PassInv(ix, experienced, s, st, k) && k < |ix.events|
    requires var event := ix.events[k]; var gs := st.cur.byEvent[event];
      && PoppedFrom(o.pools, gs.pools, gs.order)
      && IsPrefix(o.experienced, st.exp)
      && SameOutside(st.cur.judging, o.judging, event)
      && SameOutside(st.cur.scrambling, o.scrambling, event)
      && ChangedTo(st.cur.judging, o.judging, event, Elems(gs.order))
      && ChangedTo(st.cur.scrambling, o.scrambling, event, Elems(gs.order))
      && (forall f :: f in o.shortfalls ==> f.event == event && f.group in gs.order)
      && (TablesInv(st.cur.judging, st.cur.scrambling, st.exp, s) ==> TablesInv(o.judging, o.scrambling, o.experienced, s))
      && Members(o.pools) <= Members(gs.pools)
      && st.cur.judging.Keys <= o.judging.Keys <= st.cur.judging.Keys + Members(gs.pools) + Elems(st.exp)
      && st.cur.scrambling.Keys <= o.scrambling.Keys <= st.cur.scrambling.Keys + Members(gs.pools)
    ensures PassInv(ix, experienced, s, AfterEvent(st, ix.events[k], o), k + 1)
  {
    var cur := st.cur;
    var event := ix.events[k];
    var gs := cur.byEvent[event];
    EventStepFrame(ix.judging, cur.judging, o.judging, ix.events, k, ix.byEvent);
    EventStepFrame(ix.scrambling, cur.scrambling, o.scrambling, ix.events, k, ix.byEvent);
    PoolMembersCover(ix, event, gs.pools);
    PoolsWithinStep(cur.byEvent, ix.byEvent, ix.events, event, o.pools);
    PrefixElems(st.exp, experienced);
    KeysGrow(ix.judging.Keys, cur.judging.Keys, o.judging.Keys, Members(gs.pools), PoolMembers(ix), Elems(st.exp), Elems(experienced));
    KeysGrow(ix.scrambling.Keys, cur.scrambling.Keys, o.scrambling.Keys, Members(gs.pools), PoolMembers(ix), {}, {});
    var cur' := cur.(judging := o.judging, scrambling := o.scrambling,
                     byEvent := cur.byEvent[event := Groups(gs.order, o.pools)]);
    assert PoolsWithin(cur'.byEvent, ix.byEvent, ix.events);
    PrefixTrans(o.experienced, st.exp, experienced);
    assert forall f :: f in st.shortfalls + o.shortfalls ==> f.event in ix.events;
    assert k + 1 <= |ix.events|;
    assert cur'.competitors == ix.competitors && cur'.events == ix.events;
    assert SameOutsideAll(ix.judging, cur'.judging, ix.events[..k + 1]);
    assert SameOutsideAll(ix.scrambling, cur'.scrambling, ix.events[..k + 1]);
    assert (forall e :: e in ix.events && e in ix.byEvent ==> ChangedTo(ix.judging, cur'.judging, e, Elems(ix.byEvent[e].order)));
    assert (forall e :: e in ix.events && e in ix.byEvent ==> ChangedTo(ix.scrambling, cur'.scrambling, e, Elems(ix.byEvent[e].order)));
    assert (TablesInv(ix.judging, ix.scrambling, experienced, s) ==> TablesInv(cur'.judging, cur'.scrambling, o.experienced, s));
    assert ix.judging.Keys <= cur'.judging.Keys <= ix.judging.Keys + PoolMembers(ix) + Elems(experienced);
    assert ix.scrambling.Keys <= cur'.scrambling.Keys <= ix.scrambling.Keys + PoolMembers(ix);
    assert PassInv(ix, experienced, s, Pass(cur', o.experienced, st.shortfalls + o.shortfalls), k + 1);
  }

  /** The per-event pools of the pass against those of the index: same events and
      group orders, every listed group still has a pool, and no pool gained a
      member. */
  ghost predicate PoolsWithin(byEvent: map<EventId, Groups>, orig: map<EventId, Groups>, events: seq<EventId>) {
    && byEvent.Keys == orig.Keys
    && (forall e :: e in orig ==> byEvent[e].order == orig[e].order)
    && (forall e :: e in events ==> e in byEvent && HasPools(byEvent[e].order, byEvent[e].pools))
    && (forall e :: e in orig ==> Members(byEvent[e].pools) <= Members(orig[e].pools))
  }

  lemma PoolsWithinStep(byEvent: map<EventId, Groups>, orig: map<EventId, Groups>, events: seq<EventId>,
                        event: EventId, pools: map<Label, seq<Name>>)
    requires PoolsWithin(byEvent, orig, events) && event in byEvent
    requires PoppedFrom(pools, byEvent[event].pools, byEvent[event].order)
    requires Members(pools) <= Members(byEvent[event].pools)
    ensures PoolsWithin(byEvent[event := Groups(byEvent[event].order, pools)], orig, events)
  {
  }

  /** Everyone listed in some pool of some event. */
  ghost function PoolMembers(ix: Index): set<Name> {
    set e, p | e in ix.byEvent && p in Members(ix.byEvent[e].pools) :: p
  }

  lemma PoolMembersCover(ix: Index, e: EventId, pools: map<Label, seq<Name>>)
    requires e in ix.byEvent && Members(pools) <= Members(ix.byEvent[e].pools)
    ensures Members(pools) <= PoolMembers(ix)
  {
    forall p | p in Members(pools) ensures p in PoolMembers(ix) {
      assert p in Members(ix.byEvent[e].pools);
    }
  }

  lemma PrefixElems(a: seq<Name>, b: seq<Name>)
    requires IsPrefix(a, b)
    ensures Elems(a) <= Elems(b)
  {
    forall p | p in Elems(a) ensures p in Elems(b) {
      var i :| 0 <= i < |a| && a[i] == p;
      assert b[i] == p;
    }
  }

  /** Set algebra for the key bounds of one event step. */
  lemma KeysGrow(k0: set<Name>, k1: set<Name>, k2: set<Name>, m: set<Name>, bigM: set<Name>, x: set<Name>, bigX: set<Name>)
    requires m <= bigM && x <= bigX
    requires k0 <= k1 <= k0 + bigM + bigX
    requires k1 <= k2 <= k1 + m + x
    ensures k0 <= k2 <= k0 + bigM + bigX
  {
  }

  /** Processing event number `k` keeps the frame of the events before it. */
  lemma EventStepFrame(t0: Table, t1: Table, t2: Table, events: seq<EventId>, k: nat, byEvent: map<EventId, Groups>)
    requires k < |events| && events[k] in byEvent
    requires SameOutsideAll(t0, t1, events[..k])
    requires forall e :: e in events ==> e in byEvent && ChangedTo(t0, t1, e, Elems(byEvent[e].order))
    requires SameOutside(t1, t2, events[k])
    requires ChangedTo(t1, t2, events[k], Elems(byEvent[events[k]].order))
    ensures SameOutsideAll(t0, t2, events[..k + 1])
    ensures forall e :: e in events ==> ChangedTo(t0, t2, e, Elems(byEvent[e].order))
  {
    assert events[..k + 1] == events[..k] + [events[k]];
    forall e | e in events ensures ChangedTo(t0, t2, e, Elems(byEvent[e].order)) {
      forall p | Slot(t2, p, e) != Slot(t0, p, e) ensures Slot(t2, p, e) in Elems(byEvent[e].order) {
        if e != events[k] {
          assert Slot(t2, p, e) == Slot(t1, p, e);
        } else if Slot(t2, p, e) == Slot(t1, p, e) {
        }
      }
    }
  }
}

=== FILE: labels.dfy ===
/** Python's string operations on group labels: `str.split(" ")` (a cut at every
    single space, so repeated spaces give empty tokens), its last token, and
    `str.endswith`. */
module Labels {

  /** `s.endswith(suffix)`; every string ends with the empty string. */
  predicate EndsWith(s: string, suffix: string) {
    |suffix| <= |s| && s[|s| - |suffix|..] == suffix
  }

  /** `s.split(" ")`: never empty, and no token holds a space. */
  function SplitOnSpace(s: string): (tokens: seq<string>)
    ensures |tokens| >= 1
    ensures forall i :: 0 <= i < |tokens| ==> ' ' !in tokens[i]
    decreases |s|
  {
    if |s| == 0 then [""]
    else
      var rest := SplitOnSpace(s[1..]);
      if s[0] == ' ' then [""] + rest
      else [[s[0]] + rest[0]] + rest[1..]
  }

  /** `" ".join(tokens)`, the inverse of `SplitOnSpace`. */
  function JoinWithSpace(tokens: seq<string>): string
    requires |tokens| >= 1
  {
    if |tokens| == 1 then tokens[0] else tokens[0] + " " + JoinWithSpace(tokens[1..])
  }

  /** `s.split(" ")[-1]`: the slot-number part of a label such as "Red 1". */
  function LastToken(s: string): string {
    var tokens := SplitOnSpace(s);
    tokens[|tokens| - 1]
  }

  /** Joining the tokens gives back the string that was split. */
  lemma {:induction false} JoinSplit(s: string)
    ensures JoinWithSpace(SplitOnSpace(s)) == s
    decreases |s|
  {
    if |s| > 0 {
      var rest := SplitOnSpace(s[1..]);
      JoinSplit(s[1..]);
      if s[0] == ' ' {
        assert ([""] + rest)[1..] == rest;
      } else if |rest| == 1 {
        assert s == [s[0]] + s[1..];
      } else {
        var tokens := [[s[0]] + rest[0]] + rest[1..];
        assert tokens[1..] == rest[1..];
        assert JoinWithSpace(rest) == rest[0] + " " + JoinWithSpace(rest[1..]);
        assert s == [s[0]] + s[1..];
      }
    }
  }

  /** A string without a space is a single token. */
  lemma {:induction false} SplitWithoutSpace(s: string)
    requires ' ' !in s
    ensures SplitOnSpace(s) == [s]
    decreases |s|
  {
    if |s| > 0 {
      assert ' ' !in s[1..] by {
        forall i | 0 <= i < |s[1..]| ensures s[1..][i] != ' ' {
          assert s[1..][i] == s[i + 1];
        }
      }
      SplitWithoutSpace(s[1..]);
      assert s == [s[0]] + s[1..];
    }
  }

  /** Splitting `a + " " + b` with `a` space-free cuts exactly at the joining space. */
  lemma {:induction false} SplitAtFirstSpace(a: string, b: string)
    requires ' ' !in a
    ensures SplitOnSpace(a + " " + b) == [a] + SplitOnSpace(b)
    decreases |a|
  {
    if |a| == 0 {
      assert a + " " + b == [' '] + b;
      assert (a + " " + b)[1..] == b;
    } else {
      assert ' ' !in a[1..] by {
        forall i | 0 <= i < |a[1..]| ensures a[1..][i] != ' ' {
          assert a[1..][i] == a[i + 1];
        }
      }
      SplitAtFirstSpace(a[1..], b);
      assert (a + " " + b)[1..] == a[1..] + " " + b;
      assert a == [a[0]] + a[1..];
    }
  }

  /** Splitting a join of space-free tokens gives the tokens back. */
  lemma {:induction false} SplitJoin(tokens: seq<string>)
    requires |tokens| >= 1
    requires forall i :: 0 <= i < |tokens| ==> ' ' !in tokens[i]
    ensures SplitOnSpace(JoinWithSpace(tokens)) == tokens
    decreases |tokens|
  {
    if |tokens| == 1 {
      SplitWithoutSpace(tokens[0]);
    } else {
      SplitJoin(tokens[1..]);
      SplitAtFirstSpace(tokens[0], JoinWithSpace(tokens[1..]));
      assert tokens == [tokens[0]] + tokens[1..];
    }
  }

  /** One step of the split from the front: a leading space-free string is its own
      last token; otherwise dropping the first character keeps the last token. */
  lemma LastTokenStep(s: string)
    requires |s| > 0
    ensures s[0] != ' ' && ' ' !in s[1..] ==> LastToken(s) == s
    ensures s[0] == ' ' || ' ' in s[1..] ==> LastToken(s) == LastToken(s[1..])
  {
    var rest := SplitOnSpace(s[1..]);
    if s[0] != ' ' && ' ' !in s[1..] {
      SplitWithoutSpace(s[1..]);
      assert s == [s[0]] + s[1..];
    } else if s[0] != ' ' {
      if |rest| == 1 {
        JoinSplit(s[1..]);
        assert false;
      }
    }
  }

  /** The last token is the longest space-free suffix: it ends the string, holds no
      space, and is either the whole string or preceded by a space. */
  lemma {:induction false} LastTokenShape(s: string)
    ensures ' ' !in LastToken(s)
    ensures EndsWith(s, LastToken(s))
    ensures LastToken(s) == s || s[|s| - |LastToken(s)| - 1] == ' '
    decreases |s|
  {
    if |s| > 0 {
      LastTokenStep(s);
      if s[0] == ' ' || ' ' in s[1..] {
        LastTokenShape(s[1..]);
        var t := LastToken(s[1..]);
        assert s[|s| - |t|..] == s[1..][|s[1..]| - |t|..];
        if t == s[1..] {
          assert ' ' !in s[1..];
          assert s[|s| - |t| - 1] == s[0];
        } else {
          assert s[|s| - |t| - 1] == s[1..][|s[1..]| - |t| - 1];
        }
      }
    }
  }

  /** A label that ends with another label's last token names the same slot-number
      or a longer one ending in it; in particular, equal last tokens imply the suffix test. */
  lemma SameLastTokenEndsWith(g: string, h: string)
    requires LastToken(g) == LastToken(h)
    ensures EndsWith(g, LastToken(h))
  {
    LastTokenShape(g);
  }
}

=== FILE: output.dfy ===
/** The filter of `make_output_csv_files` in main.py: which competitors get a row
    in each output table, and who is warned about having no judging duty. */
module Output {
  import opened Common
  import opened Assignments

  /** One written row: the competitor's entries with the name column added. */
  datatype OutputRow = OutputRow(name: Name, cells: Entries)

  function Names(rows: seq<OutputRow>): seq<Name> {
    if |rows| == 0 then [] else [rows[0].name] + Names(rows[1..])
  }

  /** The rows of one table, in the table's key order `keys`: a competitor is
      written exactly when some entry is non-empty, with their entries plus the
      name column as the row. */
  function TableRows(keys: seq<Name>, t: Table): (rows: seq<OutputRow>)
    requires forall i :: 0 <= i < |keys| ==> keys[i] in t
    ensures IsSubsequence(Names(rows), keys)
    ensures forall p :: p in Names(rows) <==> p in keys && !Idle(t[p])
    ensures forall i :: 0 <= i < |rows| ==> rows[i].name in t && rows[i].cells == t[rows[i].name]["name" := rows[i].name]
    decreases |keys|
  {
    if |keys| == 0 then []
    else
      var p := keys[0];
      var rest := TableRows(keys[1..], t);
      if !Idle(t[p]) then [OutputRow(p, t[p]["name" := p])] + rest else rest
  }

  /** The zero-assignment warnings: only for the judging table, only for
      non-delegates, in key order. */
  function ZeroJudgingWarnings(keys: seq<Name>, t: Table, delegates: set<Name>): (warned: seq<Name>)
    requires forall i :: 0 <= i < |keys| ==> keys[i] in t
    ensures IsSubsequence(warned, keys)
    ensures forall p :: p in warned <==> p in keys && Idle(t[p]) && p !in delegates
    decreases |keys|
  {
    if |keys| == 0 then []
    else
      var p := keys[0];
      var rest := ZeroJudgingWarnings(keys[1..], t, delegates);
      if Idle(t[p]) && p !in delegates then [p] + rest else rest
  }

  /** A competitor is written or, for a non-delegate, warned about, never both:
      every non-delegate key of the judging table is accounted for exactly once. */
  lemma WrittenOrWarned(keys: seq<Name>, t: Table, delegates: set<Name>, p: Name)
    requires forall i :: 0 <= i < |keys| ==> keys[i] in t
    requires p in keys && p !in delegates
    ensures (p in Names(TableRows(keys, t))) != (p in ZeroJudgingWarnings(keys, t, delegates))
  {
  }

  /** Does every column of the row appear among the writer's field names? */
  predicate FitsFields(row: OutputRow, fields: seq<string>) {
    forall k :: k in row.cells ==> k in fields
  }

  /** `csv.DictWriter.writerow` raises ValueError at the first row holding a key
      outside the field names: that row's position, if there is one. */
  function FirstMisfit(rows: seq<OutputRow>, fields: seq<string>): (r: Option<nat>)
    ensures r.None? <==> forall i :: 0 <= i < |rows| ==> FitsFields(rows[i], fields)
    ensures r.Some? ==> r.value < |rows| && !FitsFields(rows[r.value], fields)
    ensures r.Some? ==> forall i :: 0 <= i < r.value ==> FitsFields(rows[i], fields)
    decreases |rows|
  {
    if |rows| == 0 then None
    else if !FitsFields(rows[0], fields) then Some(0)
    else match FirstMisfit(rows[1..], fields)
      case None => None
      case Some(k) => Some(k + 1)
  }
}

=== FILE: pipeline.dfy ===
/** The `__main__` block of main.py end to end: argument checks, the scan with its
    pool shuffle, the experienced-competitor list and its shuffle, the assignment
    pass, and the two output tables with their field check. File contents, the
    configuration and the competition's person list arrive as parameters. */
module Pipeline {
  import opened Common
  import opened Assignments
  import opened ScheduleIndex
  import opened Driver
  import opened Output
  import opened Cli

  datatype OutputFile = JudgeFile | ScrambleFile

  /** The ways a run stops early: the two argument ValueErrors, the `int()`
      ValueError of a WCA ID, the IndexError of the judge fallback, and the
      ValueError `DictWriter.writerow` raises for a column outside the field names. */
  datatype RunError =
    | BadArguments(reason: ArgError)
    | BadWcaId(competitor: Name)
    | Unassignable(failure: Failure)
    | UnknownField(file: OutputFile, competitor: Name)

  /** What a complete run produces: the final tables, the CSV field names, the rows
      of the judge and scramble files, the zero-judging warnings and the
      shortfall warnings of the assignment pass. */
  datatype Report = Report(
    judging: Table,
    scrambling: Table,
    fieldnames: seq<string>,
    judgeRows: seq<OutputRow>,
    scrambleRows: seq<OutputRow>,
    zeroJudging: seq<Name>,
    shortfalls: seq<Shortfall>)

  /** Some row of this name has a recognised event column. */
  ghost predicate Listed(rows: seq<Row>, recognised: set<EventId>, p: Name) {
    exists i :: 0 <= i < |rows| && rows[i].name == p && HasRecognisedColumn(rows[i], recognised)
  }

  /** `g` is a group of event `e` in the schedule: a recognised column, a non-empty
      label, and at least one row holding that cell. */
  ghost predicate IsGroupOf(rows: seq<Row>, recognised: set<EventId>, e: EventId, g: Label) {
    e in recognised && g != "" && |Occurrences(rows, e, g)| > 0
  }

  /** Every pool member of a scanned index is a key of both tables. */
  lemma KnownPoolMembers(ix: Index)
    requires MembersKnown(ix)
    ensures PoolMembers(ix) <= ix.judging.Keys && PoolMembers(ix) <= ix.scrambling.Keys
  {
    forall p | p in PoolMembers(ix) ensures p in ix.judging && p in ix.scrambling {
      var e :| e in ix.byEvent && p in Members(ix.byEvent[e].pools);
      var g :| g in ix.byEvent[e].pools && p in ix.byEvent[e].pools[g];
      assert p in PoolAt(ix, e, g);
    }
  }

  /** Tables where nothing is assigned meet the pass's invariants for any
      non-negative cap. */
  lemma IdleTablesInv(judging: Table, scrambling: Table, experienced: seq<Name>, s: Settings)
    requires forall p :: p in judging ==> Idle(judging[p])
    requires forall p :: p in scrambling ==> Idle(scrambling[p])
    requires forall i :: 0 <= i < |experienced| ==> experienced[i] !in s.delegates
    requires s.maxScrambles >= 0
    ensures TablesInv(judging, scrambling, experienced, s)
  {
    forall p | p in scrambling ensures AssignedCount(scrambling[p]) <= s.maxScrambles {
      IdleIffNoneAssigned(scrambling[p]);
    }
  }

  /** A key bound whose extra parts are already keys is an equality. */
  lemma KeysSettle(k0: set<Name>, k1: set<Name>, m: set<Name>, x: set<Name>)
    requires m <= k0 && x <= k0
    requires k0 <= k1 <= k0 + m + x
    ensures k1 == k0
  {
  }

  /** Starting from idle tables, a table that changed only in slots of indexed
      events, and only to labels of that event's groups, holds schedule groups
      only. */
  lemma AssignedSlotsAreGroups(rows: seq<Row>, recognised: set<EventId>, ix: Index, t0: Table, t: Table)
    requires Scanned(ix)
    requires forall e, g :: multiset(PoolAt(ix, e, g)) == multiset(PoolAt(Build(rows, recognised), e, g))
    requires forall p :: p in t0 ==> Idle(t0[p])
    requires SameOutsideAll(t0, t, ix.events)
    requires forall e :: e in ix.events ==> ChangedTo(t0, t, e, Elems(ix.byEvent[e].order))
    ensures forall p, e :: Slot(t, p, e) != "" ==> IsGroupOf(rows, recognised, e, Slot(t, p, e))
  {
    forall p, e | Slot(t, p, e) != "" ensures IsGroupOf(rows, recognised, e, Slot(t, p, e)) {
      var g := Slot(t, p, e);
      assert Slot(t0, p, e) == "" by {
        if p in t0 && e in t0[p] {
          assert Idle(t0[p]);
        }
      }
      assert e in ix.events;
      OrderedGroupIsGroup(rows, recognised, ix, e, g);
    }
  }

  /** A group the index lists for an event is a group of the schedule. */
  lemma OrderedGroupIsGroup(rows: seq<Row>, recognised: set<EventId>, ix: Index, e: EventId, g: Label)
    requires Scanned(ix)
    requires forall e, g :: multiset(PoolAt(ix, e, g)) == multiset(PoolAt(Build(rows, recognised), e, g))
    requires e in ix.byEvent && g in ix.byEvent[e].order
    ensures IsGroupOf(rows, recognised, e, g)
  {
    assert GroupsWellFormed(ix.byEvent[e]);
    assert |PoolAt(ix, e, g)| > 0;
    assert |multiset(PoolAt(Build(rows, recognised), e, g))| > 0;
    BuildPools(rows, recognised, e, g);
  }

  /** `init_in_memory_group_representations`: the scan, then the pool shuffle. */
  method Scan(rows: seq<Row>, recognised: set<EventId>, shufflePool: (EventId, Label, seq<Name>) -> seq<Name>)
    returns (ix: Index)
    requires forall e, g, l :: multiset(shufflePool(e, g, l)) == multiset(l)
    ensures ix == ShufflePools(Build(rows, recognised), shufflePool)
    ensures Scanned(ix)
    ensures forall e, g :: multiset(PoolAt(ix, e, g)) == multiset(PoolAt(Build(rows, recognised), e, g))
    ensures forall p :: p in ix.judging <==> Listed(rows, recognised, p)
  {
    var built := Build(rows, recognised);
    BuildScanned(rows, recognised);
    ix := ShufflePools(built, shufflePool);
    ShuffleKeepsScanned(built, shufflePool);
    forall p ensures p in ix.judging <==> Listed(rows, recognised, p) {
      BuildCompetitors(rows, recognised, p);
    }
  }

  /** The experienced-competitor list in the judging table's key order, then
      shuffled. */
  method Experienced(ix: Index, s: Settings, ids: map<Name, Option<string>>, startingYear: int,
                     shuffleList: seq<Name> -> seq<Name>)
    returns (r: Result<seq<Name>, Name>)
    requires WellFormed(ix)
    requires forall l :: multiset(shuffleList(l)) == multiset(l)
    ensures r.Err? <==> exists i :: 0 <= i < |ix.competitors| && HasBadId(ix.competitors[i], s.delegates, ids)
    ensures r.Err? ==> r.error in ix.judging && HasBadId(r.error, s.delegates, ids)
    ensures r.Err? ==> exists i :: FirstBadId(ix.competitors, s.delegates, ids, i) && ix.competitors[i] == r.error
    ensures r.Ok? ==> forall p :: p in r.value <==> p in ix.judging && IsExperienced(p, s.delegates, ids, startingYear)
    ensures r.Ok? ==> Elems(r.value) <= ix.judging.Keys
    ensures r.Ok? ==> forall i :: 0 <= i < |r.value| ==> r.value[i] !in s.delegates
    ensures r.Err? <==> ExperiencedList(ix.competitors, s.delegates, ids, startingYear).Err?
    ensures r.Ok? ==> r.value == shuffleList(ExperiencedList(ix.competitors, s.delegates, ids, startingYear).value)
  {
    var listed := ExperiencedList(ix.competitors, s.delegates, ids, startingYear);
    if listed.Err? {
      return Err(listed.error);
    }
    var experienced := shuffleList(listed.value);
    forall p ensures p in experienced <==> p in listed.value {
      assert p in experienced <==> p in multiset(experienced);
    }
    forall i | 0 <= i < |experienced| ensures experienced[i] !in s.delegates {
      assert experienced[i] in listed.value;
    }
    return Ok(experienced);
  }

  /** Every event of a scanned index has its groups, each with a pool. */
  lemma ScannedAssignable(ix: Index)
    requires Scanned(ix)
    ensures Assignable(ix)
  {
    forall e | e in ix.events ensures e in ix.byEvent && HasPools(ix.byEvent[e].order, ix.byEvent[e].pools) {
      assert GroupsWellFormed(ix.byEvent[e]);
    }
  }

  /** Reference definition of a run's assignment pass: the scan of `rows` with its
      pools reordered by `shufflePool`, then `PassCalls` over its events from the
      experienced list reordered by `shuffleList`; None when a competitor's ID
      stops the run first. */
  ghost function RunPass(rows: seq<Row>, recognised: set<EventId>, s: Settings, ids: map<Name, Option<string>>,
                         startingYear: int, shufflePool: (EventId, Label, seq<Name>) -> seq<Name>,
                         shuffleList: seq<Name> -> seq<Name>): Option<Result<Pass, Failure>>
    requires forall e, g, l :: multiset(shufflePool(e, g, l)) == multiset(l)
  {
    var built := Build(rows, recognised);
    var ix := ShufflePools(built, shufflePool);
    BuildScanned(rows, recognised);
    ShuffleKeepsScanned(built, shufflePool);
    ScannedAssignable(ix);
    match ExperiencedList(ix.competitors, s.delegates, ids, startingYear)
    case Err(_) => None
    case Ok(listed) => Some(PassCalls(ix.events, Pass(ix, shuffleList(listed), []), s))
  }

  /** The assignment pass over a scanned index, stated about the schedule rows. */
  method Assign(rows: seq<Row>, recognised: set<EventId>, ix: Index, experienced: seq<Name>, s: Settings)
    returns (res: Result<RunOutcome, Failure>)
    requires Scanned(ix)
    requires forall e, g :: multiset(PoolAt(ix, e, g)) == multiset(PoolAt(Build(rows, recognised), e, g))
    requires Elems(experienced) <= ix.judging.Keys
    requires forall i :: 0 <= i < |experienced| ==> experienced[i] !in s.delegates
    ensures Assignable(ix)
    ensures res.Err? ==> PassCalls(ix.events, Pass(ix, experienced, []), s) == Err(res.error)
    ensures res.Ok? ==> PassCalls(ix.events, Pass(ix, experienced, []), s) == Ok(Pass(res.value.index, res.value.experienced, res.value.shortfalls))
    ensures res.Err? ==> IsGroupOf(rows, recognised, res.error.event, res.error.group) && s.judgesPerGroup > 0
    ensures res.Ok? ==> var o := res.value;
      && o.index.competitors == ix.competitors && o.index.events == ix.events
      && o.index.judging.Keys == ix.judging.Keys && o.index.scrambling.Keys == ix.scrambling.Keys
      && (forall p, e :: Slot(o.index.judging, p, e) != "" ==> IsGroupOf(rows, recognised, e, Slot(o.index.judging, p, e)))
      && (forall p, e :: Slot(o.index.scrambling, p, e) != "" ==> IsGroupOf(rows, recognised, e, Slot(o.index.scrambling, p, e)))
      && (s.maxScrambles >= 0 ==> TablesInv(o.index.judging, o.index.scrambling, o.experienced, s))
  {
    ScannedAssignable(ix);
    if s.maxScrambles >= 0 {
      IdleTablesInv(ix.judging, ix.scrambling, experienced, s);
    }
    res := AssignAll(ix, experienced, s);
    if res.Err? {
      OrderedGroupIsGroup(rows, recognised, ix, res.error.event, res.error.group);
    }
    if res.Ok? {
      var o := res.value;
      KnownPoolMembers(ix);
      KeysSettle(ix.judging.Keys, o.index.judging.Keys, PoolMembers(ix), Elems(experienced));
      KeysSettle(ix.scrambling.Keys, o.index.scrambling.Keys, PoolMembers(ix), {});
      AssignedSlotsAreGroups(rows, recognised, ix, ix.judging, o.index.judging);
      AssignedSlotsAreGroups(rows, recognised, ix, ix.scrambling, o.index.scrambling);
    }
  }

  /** The first row of `rows` that DictWriter rejects belongs to `name`. */
  predicate FirstMisfitOf(rows: seq<OutputRow>, fields: seq<string>, name: Name) {
    var m := FirstMisfit(rows, fields);
    m.Some? && rows[m.value].name == name
  }

  /** One `writer.writerow` loop of `make_output_csv_files`: the ValueError of the
      first row holding a key outside the field names, naming that row's competitor. */
  method WriteRows(file: OutputFile, rows: seq<OutputRow>, fields: seq<string>) returns (err: Option<RunError>)
    ensures err.None? <==> forall i :: 0 <= i < |rows| ==> FitsFields(rows[i], fields)
    ensures err.Some? ==> err.value.UnknownField? && err.value.file == file
    ensures err.Some? ==> FirstMisfitOf(rows, fields, err.value.competitor)
    ensures err.Some? ==> exists i :: 0 <= i < |rows| && !FitsFields(rows[i], fields)
  {
    var misfit := FirstMisfit(rows, fields);
    if misfit.Some? {
      err := Some(UnknownField(file, rows[misfit.value].name));
      assert !FitsFields(rows[misfit.value], fields);
    } else {
      err := None;
    }
  }

  /** `make_output_csv_files`: the judge file, with its warnings, then the scramble
      file, both in key order and against the same field names. */
  method WriteFiles(keys: seq<Name>, judging: Table, scrambling: Table, fieldnames: seq<string>, delegates: set<Name>)
    returns (res: Result<(seq<OutputRow>, seq<OutputRow>, seq<Name>), RunError>)
    requires forall i :: 0 <= i < |keys| ==> keys[i] in judging && keys[i] in scrambling
    ensures res.Err? ==> res.error.UnknownField?
    ensures res.Err? && res.error.file == JudgeFile ==>
      exists i :: 0 <= i < |TableRows(keys, judging)| && !FitsFields(TableRows(keys, judging)[i], fieldnames)
    ensures res.Err? && res.error.file == JudgeFile ==> FirstMisfitOf(TableRows(keys, judging), fieldnames, res.error.competitor)
    ensures res.Err? && res.error.file == ScrambleFile ==>
      && FirstMisfit(TableRows(keys, judging), fieldnames).None?
      && FirstMisfitOf(TableRows(keys, scrambling), fieldnames, res.error.competitor)
    ensures res.Ok? <==>
      && (forall i :: 0 <= i < |TableRows(keys, judging)| ==> FitsFields(TableRows(keys, judging)[i], fieldnames))
      && (forall i :: 0 <= i < |TableRows(keys, scrambling)| ==> FitsFields(TableRows(keys, scrambling)[i], fieldnames))
    ensures res.Ok? ==> res.value.0 == TableRows(keys, judging) && res.value.1 == TableRows(keys, scrambling)
    ensures res.Ok? ==> res.value.2 == ZeroJudgingWarnings(keys, judging, delegates)
  {
    var judgeRows := TableRows(keys, judging);
    var zeroJudging := ZeroJudgingWarnings(keys, judging, delegates);
    var err := WriteRows(JudgeFile, judgeRows, fieldnames);
    if err.Some? {
      return Err(err.value);
    }
    var scrambleRows := TableRows(keys, scrambling);
    err := WriteRows(ScrambleFile, scrambleRows, fieldnames);
    if err.Some? {
      return Err(err.value);
    }
    return Ok((judgeRows, scrambleRows, zeroJudging));
  }

  /** Both output files of tables `judging` and `scrambling`, rows in key order
      `keys`, are written: every row fits the field names. */
  ghost predicate WritesCleanly(keys: seq<Name>, judging: Table, scrambling: Table, fields: seq<string>) {
    && (forall i :: 0 <= i < |keys| ==> keys[i] in judging && keys[i] in scrambling)
    && (forall i :: 0 <= i < |TableRows(keys, judging)| ==> FitsFields(TableRows(keys, judging)[i], fields))
    && (forall i :: 0 <= i < |TableRows(keys, scrambling)| ==> FitsFields(TableRows(keys, scrambling)[i], fields))
  }

  /** `err` is the ValueError of writing those files: the first misfit row of the
      judge file, or, when the judge file fits, of the scramble file. */
  ghost predicate MisfitIn(keys: seq<Name>, judging: Table, scrambling: Table, fields: seq<string>, err: RunError) {
    && (forall i :: 0 <= i < |keys| ==> keys[i] in judging && keys[i] in scrambling)
    && err.UnknownField?
    && (err.file == JudgeFile ==> FirstMisfitOf(TableRows(keys, judging), fields, err.competitor))
    && (err.file == ScrambleFile ==>
          && FirstMisfit(TableRows(keys, judging), fields).None?
          && FirstMisfitOf(TableRows(keys, scrambling), fields, err.competitor))
  }

  /** How a run that passed the argument checks ends, against the reference pass
      `RunPass` and the scan's field names: a bad ID exactly when the reference
      stops at the ID check; an assignment failure exactly when the reference
      pass fails, and it is that failure; otherwise the files are written
      exactly when every row of the reference tables fits the field names, and
      the ValueError names the first misfit row; a finished run reports the
      reference tables and warnings. */
  ghost predicate RunTied(rows: seq<Row>, recognised: set<EventId>, s: Settings, ids: map<Name, Option<string>>,
                          startingYear: int, shufflePool: (EventId, Label, seq<Name>) -> seq<Name>,
                          shuffleList: seq<Name> -> seq<Name>, res: Result<Report, RunError>)
    requires forall e, g, l :: multiset(shufflePool(e, g, l)) == multiset(l)
  {
    var run := RunPass(rows, recognised, s, ids, startingYear, shufflePool, shuffleList);
    var built := Build(rows, recognised);
    var fields := ["name"] + built.events;
    && (run.None? <==> res.Err? && res.error.BadWcaId?)
    && (run.Some? && run.value.Err? <==> res.Err? && res.error.Unassignable?)
    && (res.Err? && res.error.Unassignable? ==> run == Some(Err(res.error.failure)))
    && (res.Err? && res.error.UnknownField? ==>
          && run.Some? && run.value.Ok?
          && MisfitIn(built.competitors, run.value.value.cur.judging, run.value.value.cur.scrambling, fields, res.error))
    && (res.Ok? <==>
          && run.Some? && run.value.Ok?
          && WritesCleanly(built.competitors, run.value.value.cur.judging, run.value.value.cur.scrambling, fields))
    && (res.Ok? ==>
          && res.value.fieldnames == fields
          && run.Some? && run.value.Ok?
          && run.value.value.cur.judging == res.value.judging && run.value.value.cur.scrambling == res.value.scrambling
          && run.value.value.shortfalls == res.value.shortfalls)
    && (res.Err? ==> !res.error.BadArguments?)
  }

  /** The reference pass of a run, given the scanned index and the
      experienced list before its shuffle. */
  lemma RunPassOf(rows: seq<Row>, recognised: set<EventId>, s: Settings, ids: map<Name, Option<string>>,
                  startingYear: int, shufflePool: (EventId, Label, seq<Name>) -> seq<Name>,
                  shuffleList: seq<Name> -> seq<Name>, ix: Index)
    requires forall e, g, l :: multiset(shufflePool(e, g, l)) == multiset(l)
    requires ix == ShufflePools(Build(rows, recognised), shufflePool)
    ensures Assignable(ix)
    ensures var listed := ExperiencedList(ix.competitors, s.delegates, ids, startingYear);
      && (listed.Err? ==> RunPass(rows, recognised, s, ids, startingYear, shufflePool, shuffleList).None?)
      && (listed.Ok? ==> RunPass(rows, recognised, s, ids, startingYear, shufflePool, shuffleList)
                         == Some(PassCalls(ix.events, Pass(ix, shuffleList(listed.value), []), s)))
  {
    BuildScanned(rows, recognised);
    ShuffleKeepsScanned(Build(rows, recognised), shufflePool);
    ScannedAssignable(ix);
  }

  /** A run stopped by a bad ID. */
  lemma TiedBadId(rows: seq<Row>, recognised: set<EventId>, s: Settings, ids: map<Name, Option<string>>,
                  startingYear: int, shufflePool: (EventId, Label, seq<Name>) -> seq<Name>,
                  shuffleList: seq<Name> -> seq<Name>, p: Name)
    requires forall e, g, l :: multiset(shufflePool(e, g, l)) == multiset(l)
    requires RunPass(rows, recognised, s, ids, startingYear, shufflePool, shuffleList).None?
    ensures RunTied(rows, recognised, s, ids, startingYear, shufflePool, shuffleList, Err(BadWcaId(p)))
  {
  }

  /** A run stopped by the assignment pass. */
  lemma TiedUnassignable(rows: seq<Row>, recognised: set<EventId>, s: Settings, ids: map<Name, Option<string>>,
                         startingYear: int, shufflePool: (EventId, Label, seq<Name>) -> seq<Name>,
                         shuffleList: seq<Name> -> seq<Name>, f: Failure)
    requires forall e, g, l :: multiset(shufflePool(e, g, l)) == multiset(l)
    requires RunPass(rows, recognised, s, ids, startingYear, shufflePool, shuffleList) == Some(Err(f))
    ensures RunTied(rows, recognised, s, ids, startingYear, shufflePool, shuffleList, Err(Unassignable(f)))
  {
  }

  /** A run stopped by a row outside the field names. */
  lemma TiedMisfit(rows: seq<Row>, recognised: set<EventId>, s: Settings, ids: map<Name, Option<string>>,
                   startingYear: int, shufflePool: (EventId, Label, seq<Name>) -> seq<Name>,
                   shuffleList: seq<Name> -> seq<Name>, pass: Pass, err: RunError)
    requires forall e, g, l :: multiset(shufflePool(e, g, l)) == multiset(l)
    requires RunPass(rows, recognised, s, ids, startingYear, shufflePool, shuffleList) == Some(Ok(pass))
    requires MisfitIn(Build(rows, recognised).competitors, pass.cur.judging, pass.cur.scrambling,
                      ["name"] + Build(rows, recognised).events, err)
    ensures RunTied(rows, recognised, s, ids, startingYear, shufflePool, shuffleList, Err(err))
  {
  }

  /** A finished run. */
  lemma TiedOk(rows: seq<Row>, recognised: set<EventId>, s: Settings, ids: map<Name, Option<string>>,
               startingYear: int, shufflePool: (EventId, Label, seq<Name>) -> seq<Name>,
               shuffleList: seq<Name> -> seq<Name>, pass: Pass, r: Report)
    requires forall e, g, l :: multiset(shufflePool(e, g, l)) == multiset(l)
    requires RunPass(rows, recognised, s, ids, startingYear, shufflePool, shuffleList) == Some(Ok(pass))
    requires WritesCleanly(Build(rows, recognised).competitors, pass.cur.judging, pass.cur.scrambling,
                           ["name"] + Build(rows, recognised).events)
    requires r.fieldnames == ["name"] + Build(rows, recognised).events
    requires r.judging == pass.cur.judging && r.scrambling == pass.cur.scrambling && r.shortfalls == pass.shortfalls
    ensures RunTied(rows, recognised, s, ids, startingYear, shufflePool, shuffleList, Ok(r))
  {
  }

  /** The main block. `shufflePool` stands for `random.shuffle` on each pool and
      `shuffleList` for `random.shuffle` on the experienced list; `ids` is the
      name-to-WCA-ID map of the competition's person list. */
  method Run(path: string, competitionId: string, rows: seq<Row>, recognised: set<EventId>, s: Settings,
             ids: map<Name, Option<string>>, startingYear: int,
             shufflePool: (EventId, Label, seq<Name>) -> seq<Name>, shuffleList: seq<Name> -> seq<Name>)
    returns (res: Result<Report, RunError>)
    requires forall e, g, l :: multiset(shufflePool(e, g, l)) == multiset(l)
    requires forall l :: multiset(shuffleList(l)) == multiset(l)
    ensures ValidateArgs(path, competitionId).Some? <==> res.Err? && res.error.BadArguments?
    ensures res.Err? && res.error.BadArguments? ==> res.error.reason == ValidateArgs(path, competitionId).value
    ensures res.Err? && res.error.BadWcaId? ==>
      Listed(rows, recognised, res.error.competitor) && HasBadId(res.error.competitor, s.delegates, ids)
    ensures res.Err? && res.error.Unassignable? ==>
      IsGroupOf(rows, recognised, res.error.failure.event, res.error.failure.group) && s.judgesPerGroup > 0
    ensures ValidateArgs(path, competitionId).None? ==>
      RunTied(rows, recognised, s, ids, startingYear, shufflePool, shuffleList, res)
    ensures res.Ok? ==> var r := res.value;
      && (forall p :: p in r.judging <==> Listed(rows, recognised, p))
      && r.scrambling.Keys == r.judging.Keys
      && (forall p, e :: Slot(r.judging, p, e) != "" ==> IsGroupOf(rows, recognised, e, Slot(r.judging, p, e)))
      && (forall p, e :: Slot(r.scrambling, p, e) != "" ==> IsGroupOf(rows, recognised, e, Slot(r.scrambling, p, e)))
      && (s.maxScrambles >= 0 ==>
            && WithinCap(r.scrambling, s.maxScrambles)
            && HeldOnlyBy(r.scrambling, s.approved)
            && NeverHeldBy(r.judging, s.delegates))
      && (forall p :: p in Names(r.judgeRows) <==> p in r.judging && !Idle(r.judging[p]))
      && (forall p :: p in Names(r.scrambleRows) <==> p in r.scrambling && !Idle(r.scrambling[p]))
      && (forall i :: 0 <= i < |r.judgeRows| ==>
            r.judgeRows[i].name in r.judging && r.judgeRows[i].cells == r.judging[r.judgeRows[i].name]["name" := r.judgeRows[i].name])
      && (forall i :: 0 <= i < |r.scrambleRows| ==>
            r.scrambleRows[i].name in r.scrambling && r.scrambleRows[i].cells == r.scrambling[r.scrambleRows[i].name]["name" := r.scrambleRows[i].name])
      && (forall i :: 0 <= i < |r.judgeRows| ==> FitsFields(r.judgeRows[i], r.fieldnames))
      && (forall i :: 0 <= i < |r.scrambleRows| ==> FitsFields(r.scrambleRows[i], r.fieldnames))
      && (forall p :: p in r.zeroJudging <==> p in r.judging && Idle(r.judging[p]) && p !in s.delegates)
  {
    var argError := ValidateArgs(path, competitionId);
    if argError.Some? {
      return Err(BadArguments(argError.value));
    }
    var ix := Scan(rows, recognised, shufflePool);
    var experienced := Experienced(ix, s, ids, startingYear, shuffleList);
    RunPassOf(rows, recognised, s, ids, startingYear, shufflePool, shuffleList, ix);
    if experienced.Err? {
      TiedBadId(rows, recognised, s, ids, startingYear, shufflePool, shuffleList, experienced.error);
      return Err(BadWcaId(experienced.error));
    }
    var run := Assign(rows, recognised, ix, experienced.value, s);
    if run.Err? {
      TiedUnassignable(rows, recognised, s, ids, startingYear, shufflePool, shuffleList, run.error);
      return Err(Unassignable(run.error));
    }
    ghost var pass := Pass(run.value.index, run.value.experienced, run.value.shortfalls);
    res := Write(ix, run.value, s);
    if res.Err? {
      TiedMisfit(rows, recognised, s, ids, startingYear, shufflePool, shuffleList, pass, res.error);
    } else {
      TiedOk(rows, recognised, s, ids, startingYear, shufflePool, shuffleList, pass, res.value);
    }
  }

  /** The tail of the main block: `make_output_csv_files` on the tables the pass
      left, with the index's events after `"name"` as the field names. */
  method Write(ix: Index, o: RunOutcome, s: Settings) returns (res: Result<Report, RunError>)
    requires forall i :: 0 <= i < |ix.competitors| ==> ix.competitors[i] in o.index.judging && ix.competitors[i] in o.index.scrambling
    ensures res.Err? ==> MisfitIn(ix.competitors, o.index.judging, o.index.scrambling, ["name"] + ix.events, res.error)
    ensures res.Ok? <==> WritesCleanly(ix.competitors, o.index.judging, o.index.scrambling, ["name"] + ix.events)
    ensures res.Ok? ==> var r := res.value;
      && r.judging == o.index.judging && r.scrambling == o.index.scrambling
      && r.fieldnames == ["name"] + ix.events && r.shortfalls == o.shortfalls
      && r.judgeRows == TableRows(ix.competitors, o.index.judging)
      && r.scrambleRows == TableRows(ix.competitors, o.index.scrambling)
      && r.zeroJudging == ZeroJudgingWarnings(ix.competitors, o.index.judging, s.delegates)
  {
    var fieldnames := ["name"] + ix.events;
    var written := WriteFiles(ix.competitors, o.index.judging, o.index.scrambling, fieldnames, s.delegates);
    if written.Err? {
      return Err(written.error);
    }
    var (judgeRows, scrambleRows, zeroJudging) := written.value;
    return Ok(Report(o.index.judging, o.index.scrambling, fieldnames, judgeRows, scrambleRows, zeroJudging, o.shortfalls));
  }
}

=== FILE: role_filler.dfy ===
/** `assign_role_to_group` of main.py: pop the last competitor of each listed pool in
    turn, destructively, until one eligible competitor is committed to the group. */
module RoleFiller {
  import opened Common
  import opened Assignments

  /** Judging is the call without `approved_scramblers`; scrambling passes the
      approved set (possibly empty). */
  datatype Mode = Judging | Scrambling(approved: set<Name>)

  /** The state after one call. `committed` is the competitor written into the
      table, None when the call returned False. */
  datatype Fill = Fill(committed: Option<Name>, pools: map<Label, seq<Name>>, table: Table)

  /** Judging needs a non-delegate; scrambling needs an approved scrambler holding
      fewer than `maxScrambles` non-empty entries, and never looks at delegates. */
  predicate Eligible(mode: Mode, p: Name, t: Table, delegates: set<Name>, maxScrambles: int) {
    match mode
    case Judging => p !in delegates
    case Scrambling(approved) => p in approved && AssignedCount(EntriesOf(t, p)) < maxScrambles
  }

  /** The eligibility check of one call, as a test on names. */
  function EligibilityTest(mode: Mode, t: Table, delegates: set<Name>, maxScrambles: int): Name -> bool {
    p => Eligible(mode, p, t, delegates, maxScrambles)
  }

  /** How many times `g` is listed, so how many times its pool may be popped. */
  function TimesListed(others: seq<Label>, g: Label): nat {
    multiset(others)[g]
  }

  function Min(a: int, b: int): int {
    if a <= b then a else b
  }

  /** The popping loop of one call: the first eligible competitor popped, if any,
      and the pools after popping. */
  datatype Pick = Pick(taken: Option<Name>, pools: map<Label, seq<Name>>)

  /** Pop the last competitor of pool `g`, when it has one, and take them if `ok`
      accepts them. */
  function PopOne(g: Label, pools: map<Label, seq<Name>>, ok: Name -> bool): (r: Pick)
    requires g in pools
    ensures r.pools.Keys == pools.Keys
    ensures forall h :: h in pools && h != g ==> r.pools[h] == pools[h]
    ensures |pools[g]| == 0 ==> r == Pick(None, pools)
    ensures |pools[g]| > 0 ==> r.pools[g] == pools[g][..|pools[g]| - 1]
    ensures |pools[g]| > 0 && ok(pools[g][|pools[g]| - 1]) ==>
      r.taken == Some(pools[g][|pools[g]| - 1])
    ensures |pools[g]| > 0 && !ok(pools[g][|pools[g]| - 1]) ==>
      r.taken.None?
  {
    if |pools[g]| == 0 then Pick(None, pools)
    else
      var n := |pools[g]| - 1;
      var p := pools[g][n];
      Pick(if ok(p) then Some(p) else None, pools[g := pools[g][..n]])
  }

  /** Visit the listed pools in order; from each non-empty one pop the last
      competitor, and stop at the first one `ok` accepts. */
  function PopEligible(others: seq<Label>, pools: map<Label, seq<Name>>, ok: Name -> bool): (r: Pick)
    requires forall i :: 0 <= i < |others| ==> others[i] in pools
    ensures r.pools.Keys == pools.Keys
    ensures r.taken.Some? ==> ok(r.taken.value)
    decreases |others|
  {
    if |others| == 0 then Pick(None, pools)
    else
      var step := PopOne(others[0], pools, ok);
      if step.taken.Some? then step
      else PopEligible(others[1..], step.pools, ok)
  }

  /** One call: returns the popped-from pools and the table, committing at most one
      competitor. A commit writes exactly the slot `[p][event] := group` of an
      eligible `p`; a failure leaves the table as it was. */
  function AssignRole(group: Label, others: seq<Label>, pools: map<Label, seq<Name>>, t: Table,
                      event: EventId, delegates: set<Name>, mode: Mode, maxScrambles: int): (r: Fill)
    requires forall i :: 0 <= i < |others| ==> others[i] in pools
    ensures r.pools.Keys == pools.Keys
    ensures r.committed.None? ==> r.table == t
    ensures r.committed.Some? ==> r.table == Put(t, r.committed.value, event, group)
    ensures r.committed.Some? ==> Eligible(mode, r.committed.value, t, delegates, maxScrambles)
  {
    var pick := PopEligible(others, pools, EligibilityTest(mode, t, delegates, maxScrambles));
    Fill(pick.taken, pick.pools, if pick.taken.Some? then Put(t, pick.taken.value, event, group) else t)
  }

  /** Pools only lose elements from their ends (rejected competitors are never put
      back), and only listed pools are touched. */
  lemma {:induction false} PopShrinksPools(others: seq<Label>, pools: map<Label, seq<Name>>, ok: Name -> bool)
    requires forall i :: 0 <= i < |others| ==> others[i] in pools
    ensures var r := PopEligible(others, pools, ok);
      && (forall g :: g in pools ==> IsPrefix(r.pools[g], pools[g]))
      && (forall g :: g in pools && g !in others ==> r.pools[g] == pools[g])
    decreases |others|
  {
    var r := PopEligible(others, pools, ok);
    if |others| > 0 {
      var g := others[0];
      var step := PopOne(g, pools, ok);
      if step.taken.None? {
        assert r == PopEligible(others[1..], step.pools, ok);
        PopShrinksPools(others[1..], step.pools, ok);
        forall h | h in pools ensures IsPrefix(r.pools[h], pools[h]) {
          assert IsPrefix(r.pools[h], step.pools[h]);
        }
        forall h | h in pools && h !in others ensures r.pools[h] == pools[h] {
          assert h !in others[1..];
        }
      }
    }
  }

  /** Each pool is popped at most once per listing. */
  lemma {:induction false} PopBoundedByListings(others: seq<Label>, pools: map<Label, seq<Name>>, ok: Name -> bool)
    requires forall i :: 0 <= i < |others| ==> others[i] in pools
    ensures var r := PopEligible(others, pools, ok);
      forall g :: g in pools ==> |pools[g]| - |r.pools[g]| <= TimesListed(others, g)
    decreases |others|
  {
    var r := PopEligible(others, pools, ok);
    if |others| > 0 {
      var g := others[0];
      var step := PopOne(g, pools, ok);
      assert others == [g] + others[1..];
      if step.taken.None? {
        assert r == PopEligible(others[1..], step.pools, ok);
        PopBoundedByListings(others[1..], step.pools, ok);
      }
    }
  }

  /** The committed competitor is the last one popped, from some listed pool. */
  lemma {:induction false} PopTakesFromListedPool(others: seq<Label>, pools: map<Label, seq<Name>>, ok: Name -> bool)
    requires forall i :: 0 <= i < |others| ==> others[i] in pools
    ensures var r := PopEligible(others, pools, ok);
      r.taken.Some? ==>
        exists g :: g in others && |r.pools[g]| < |pools[g]| && pools[g][|r.pools[g]|] == r.taken.value
    decreases |others|
  {
    var r := PopEligible(others, pools, ok);
    if |others| > 0 && r.taken.Some? {
      var g := others[0];
      var step := PopOne(g, pools, ok);
      if step.taken.Some? {
        assert g in others && pools[g][|r.pools[g]|] == r.taken.value;
      } else {
        assert r == PopEligible(others[1..], step.pools, ok);
        PopTakesFromListedPool(others[1..], step.pools, ok);
        PopShrinksPools(others[1..], step.pools, ok);
        var h :| h in others[1..] && |r.pools[h]| < |step.pools[h]| && step.pools[h][|r.pools[h]|] == r.taken.value;
        assert IsPrefix(step.pools[h], pools[h]);
        assert h in others && pools[h][|r.pools[h]|] == r.taken.value;
      }
    }
  }

  /** The commit came from listing `i`: the committed competitor is the last
      element removed from that pool, and every pool not listed among the first
      `i + 1` listings keeps all its competitors. */
  ghost predicate StoppedAt(others: seq<Label>, pools: map<Label, seq<Name>>, r: Pick, i: int)
    requires r.pools.Keys == pools.Keys
  {
    && 0 <= i < |others| && others[i] in pools && r.taken.Some?
    && |r.pools[others[i]]| < |pools[others[i]]|
    && pools[others[i]][|r.pools[others[i]]|] == r.taken.value
    && forall l :: l in pools && l !in others[..i + 1] ==> r.pools[l] == pools[l]
  }

  /** The visit stops at the first commit: no pool listed only later is popped. */
  lemma {:induction false} PopStopsAtCommit(others: seq<Label>, pools: map<Label, seq<Name>>, ok: Name -> bool)
    requires forall i :: 0 <= i < |others| ==> others[i] in pools
    ensures var r := PopEligible(others, pools, ok);
      r.taken.Some? ==> exists i :: StoppedAt(others, pools, r, i)
    decreases |others|
  {
    var r := PopEligible(others, pools, ok);
    if |others| > 0 && r.taken.Some? {
      var g := others[0];
      var step := PopOne(g, pools, ok);
      if step.taken.Some? {
        assert others[..1] == [g];
        assert StoppedAt(others, pools, r, 0);
      } else {
        var rest := others[1..];
        assert r == PopEligible(rest, step.pools, ok);
        PopStopsAtCommit(rest, step.pools, ok);
        PopShrinksPools(rest, step.pools, ok);
        var j :| StoppedAt(rest, step.pools, r, j);
        StoppedAtStep(others, pools, step, r, j);
      }
    }
  }

  /** A commit at listing `j` after a failed first pop is a commit at `j + 1`. */
  lemma StoppedAtStep(others: seq<Label>, pools: map<Label, seq<Name>>, step: Pick, r: Pick, j: int)
    requires |others| > 0 && others[0] in pools
    requires step.pools.Keys == pools.Keys && r.pools.Keys == pools.Keys
    requires IsPrefix(step.pools[others[0]], pools[others[0]])
    requires forall h :: h in pools && h != others[0] ==> step.pools[h] == pools[h]
    requires forall h :: h in pools ==> IsPrefix(r.pools[h], step.pools[h])
    requires StoppedAt(others[1..], step.pools, r, j)
    ensures StoppedAt(others, pools, r, j + 1)
  {
    var rest := others[1..];
    var h := rest[j];
    assert IsPrefix(step.pools[h], pools[h]);
    assert others[j + 1] == h;
    assert others[..j + 2] == [others[0]] + rest[..j + 1];
    forall l | l in pools && l !in others[..j + 2] ensures r.pools[l] == pools[l] {
      assert l != others[0] && l !in rest[..j + 1];
    }
  }

  /** Every competitor popped and not committed was ineligible: the "try once,
      discard" policy never discards a competitor who could have been taken. */
  lemma {:induction false} PopDiscardsOnlyIneligible(others: seq<Label>, pools: map<Label, seq<Name>>, ok: Name -> bool)
    requires forall i :: 0 <= i < |others| ==> others[i] in pools
    ensures var r := PopEligible(others, pools, ok);
      forall g, i :: g in pools && |r.pools[g]| <= i < |pools[g]| && r.taken != Some(pools[g][i]) ==>
        !ok(pools[g][i])
    decreases |others|
  {
    var r := PopEligible(others, pools, ok);
    if |others| > 0 {
      var g := others[0];
      var step := PopOne(g, pools, ok);
      if step.taken.None? {
        assert r == PopEligible(others[1..], step.pools, ok);
        PopDiscardsOnlyIneligible(others[1..], step.pools, ok);
        PopShrinksPools(others[1..], step.pools, ok);
        forall h, i | h in pools && |r.pools[h]| <= i < |pools[h]| && r.taken != Some(pools[h][i])
          ensures !ok(pools[h][i])
        {
          if i < |step.pools[h]| {
            assert IsPrefix(step.pools[h], pools[h]);
            assert step.pools[h][i] == pools[h][i];
            assert r.taken != Some(step.pools[h][i]);
          } else {
            assert h == g && i == |pools[g]| - 1;
          }
        }
      } else {
        assert r == step;
      }
    } else {
      assert r.pools == pools;
    }
  }

  /** A failed call popped every listed pool once per listing (or emptied it). */
  lemma {:induction false} PopFailureVisitsAll(others: seq<Label>, pools: map<Label, seq<Name>>, ok: Name -> bool)
    requires forall i :: 0 <= i < |others| ==> others[i] in pools
    ensures var r := PopEligible(others, pools, ok);
      r.taken.None? ==>
        forall g :: g in pools ==> |pools[g]| - |r.pools[g]| == Min(|pools[g]|, TimesListed(others, g))
    decreases |others|
  {
    var r := PopEligible(others, pools, ok);
    if |others| > 0 && r.taken.None? {
      var g := others[0];
      var step := PopOne(g, pools, ok);
      assert others == [g] + others[1..];
      assert r == PopEligible(others[1..], step.pools, ok);
      PopFailureVisitsAll(others[1..], step.pools, ok);
    }
  }

  /** A scrambling call keeps every competitor within the cap. */
  lemma AssignRoleKeepsCap(group: Label, others: seq<Label>, pools: map<Label, seq<Name>>, t: Table,
                           event: EventId, delegates: set<Name>, approved: set<Name>, maxScrambles: int)
    requires forall i :: 0 <= i < |others| ==> others[i] in pools
    requires WithinCap(t, maxScrambles)
    ensures WithinCap(AssignRole(group, others, pools, t, event, delegates, Scrambling(approved), maxScrambles).table, maxScrambles)
  {
    var r := AssignRole(group, others, pools, t, event, delegates, Scrambling(approved), maxScrambles);
    if r.committed.Some? {
      var p := r.committed.value;
      AssignedCountAfterWrite(EntriesOf(t, p), event, group);
    }
  }

  /** A judging call never hands a slot to a delegate; a scrambling call only to an
      approved scrambler. */
  lemma AssignRoleKeepsHolders(group: Label, others: seq<Label>, pools: map<Label, seq<Name>>, t: Table,
                               event: EventId, delegates: set<Name>, mode: Mode, maxScrambles: int)
    requires forall i :: 0 <= i < |others| ==> others[i] in pools
    ensures var r := AssignRole(group, others, pools, t, event, delegates, mode, maxScrambles);
      && (mode.Judging? && NeverHeldBy(t, delegates) ==> NeverHeldBy(r.table, delegates))
      && (mode.Scrambling? && HeldOnlyBy(t, mode.approved) ==> HeldOnlyBy(r.table, mode.approved))
  {
  }
}

=== FILE: schedule_index.dfy ===
/** The row scan of `init_in_memory_group_representations` in main.py: one pass over
    the schedule builds the two empty assignment tables and, per event and group
    label, the pool of competitors competing in that group. */
module ScheduleIndex {
  import opened Common
  import opened Assignments

  /** One schedule row: the value of its name column, and its other columns as
      (column, value) pairs in header order. */
  datatype Row = Row(name: Name, cells: seq<(string, string)>)

  /** One event's groups: labels in first-seen order, and each label's pool. */
  datatype Groups = Groups(order: seq<Label>, pools: map<Label, seq<Name>>)

  /** The three structures the scan returns. `competitors` is the key order of the
      two tables and `events` the key order of `byEvent` (Python dicts keep
      insertion order). */
  datatype Index = Index(
    competitors: seq<Name>,
    judging: Table,
    scrambling: Table,
    events: seq<EventId>,
    byEvent: map<EventId, Groups>)

  const Empty := Index([], map[], map[], [], map[])

  ghost predicate GroupsWellFormed(gs: Groups) {
    && NoDup(gs.order)
    && (forall g :: g in gs.pools <==> g in gs.order)
  }

  /** The key-order sequences list each key once, and both tables have the same keys. */
  ghost predicate WellFormed(ix: Index) {
    && NoDup(ix.competitors)
    && (forall p :: p in ix.judging <==> p in ix.competitors)
    && ix.scrambling.Keys == ix.judging.Keys
    && NoDup(ix.events)
    && (forall e :: e in ix.byEvent <==> e in ix.events)
    && (forall e :: e in ix.byEvent ==> GroupsWellFormed(ix.byEvent[e]))
  }

  /** `event_to_groups_to_competitors[e][g]`, empty when absent. */
  function PoolAt(ix: Index, e: EventId, g: Label): seq<Name> {
    if e in ix.byEvent && g in ix.byEvent[e].pools then ix.byEvent[e].pools[g] else []
  }

  /** Every pool member has an entry in both tables. */
  ghost predicate MembersKnown(ix: Index) {
    forall e, g, p :: p in PoolAt(ix, e, g) ==> p in ix.judging && p in ix.scrambling
  }

  /** No table entry is assigned yet. */
  predicate AllIdle(ix: Index) {
    && (forall p :: p in ix.judging ==> Idle(ix.judging[p]))
    && (forall p :: p in ix.scrambling ==> Idle(ix.scrambling[p]))
  }

  /** A group exists only once somebody is in it. */
  predicate PoolsNonEmpty(ix: Index) {
    forall e, g :: e in ix.byEvent && g in ix.byEvent[e].pools ==> |ix.byEvent[e].pools[g]| > 0
  }

  /** No pool is keyed by the empty label. */
  predicate NoEmptyLabel(ix: Index) {
    forall e :: e in ix.byEvent ==> "" !in ix.byEvent[e].pools
  }

  /** One (column, value) pair of row `name`: a recognised column resets both slots
      to the empty label and, when the value is non-empty, appends `name` to that
      group's pool; any other column changes nothing. */
  function AddCell(ix: Index, name: Name, col: string, val: string, recognised: set<EventId>): (r: Index)
    ensures col !in recognised ==> r == ix
    ensures col in recognised ==>
      && name in r.judging && name in r.scrambling
      && Slot(r.judging, name, col) == "" && Slot(r.scrambling, name, col) == ""
    ensures forall p, e :: p != name || e != col ==>
      Slot(r.judging, p, e) == Slot(ix.judging, p, e) && Slot(r.scrambling, p, e) == Slot(ix.scrambling, p, e)
    ensures col in recognised && |val| > 0 ==> PoolAt(r, col, val) == PoolAt(ix, col, val) + [name]
    ensures forall e, g :: !(col in recognised && |val| > 0 && e == col && g == val) ==> PoolAt(r, e, g) == PoolAt(ix, e, g)
  {
    if col !in recognised then ix
    else
      var competitors := if name in ix.judging then ix.competitors else ix.competitors + [name];
      var judging := Put(ix.judging, name, col, "");
      var scrambling := Put(ix.scrambling, name, col, "");
      if |val| == 0 then ix.(competitors := competitors, judging := judging, scrambling := scrambling)
      else
        var events := if col in ix.byEvent then ix.events else ix.events + [col];
        var gs := if col in ix.byEvent then ix.byEvent[col] else Groups([], map[]);
        var order := if val in gs.pools then gs.order else gs.order + [val];
        var pool := if val in gs.pools then gs.pools[val] else [];
        var gs' := Groups(order, gs.pools[val := pool + [name]]);
        Index(competitors, judging, scrambling, events, ix.byEvent[col := gs'])
  }

  /** The columns of one row, in header order. */
  function AddCells(ix: Index, name: Name, cells: seq<(string, string)>, recognised: set<EventId>): Index
    decreases |cells|
  {
    if |cells| == 0 then ix
    else
      var last := cells[|cells| - 1];
      AddCell(AddCells(ix, name, cells[..|cells| - 1], recognised), name, last.0, last.1, recognised)
  }

  /** The whole scan, rows in file order (the shuffle is applied afterwards). */
  function Build(rows: seq<Row>, recognised: set<EventId>): Index
    decreases |rows|
  {
    if |rows| == 0 then Empty
    else
      var last := rows[|rows| - 1];
      AddCells(Build(rows[..|rows| - 1], recognised), last.name, last.cells, recognised)
  }

  /** Reference definition of one pool: the names of the rows holding cell
      (e, g), in file order, once per such cell. */
  function Occurrences(rows: seq<Row>, e: EventId, g: Label): seq<Name>
    decreases |rows|
  {
    if |rows| == 0 then []
    else
      var last := rows[|rows| - 1];
      Occurrences(rows[..|rows| - 1], e, g) + CellOccurrences(last.name, last.cells, e, g)
  }

  function CellOccurrences(name: Name, cells: seq<(string, string)>, e: EventId, g: Label): seq<Name>
    decreases |cells|
  {
    if |cells| == 0 then []
    else
      CellOccurrences(name, cells[..|cells| - 1], e, g) + (if cells[|cells| - 1] == (e, g) then [name] else [])
  }

  /** Does the row have a recognised column? Only then is its name a table key. */
  predicate HasRecognisedColumn(row: Row, recognised: set<EventId>) {
    exists i :: 0 <= i < |row.cells| && row.cells[i].0 in recognised
  }

  /** The state the scan keeps after every cell. */
  ghost predicate Scanned(ix: Index) {
    WellFormed(ix) && MembersKnown(ix) && AllIdle(ix) && NoEmptyLabel(ix) && PoolsNonEmpty(ix)
  }

  lemma NoDupAppend<T>(s: seq<T>, x: T)
    requires NoDup(s) && x !in s
    ensures NoDup(s + [x])
  {
  }

  lemma AddCellKeepsWellFormed(ix: Index, name: Name, col: string, val: string, recognised: set<EventId>)
    requires WellFormed(ix)
    ensures WellFormed(AddCell(ix, name, col, val, recognised))
  {
    var r := AddCell(ix, name, col, val, recognised);
    if col in recognised {
      if name !in ix.judging {
        NoDupAppend(ix.competitors, name);
      }
      assert r.competitors == (if name in ix.judging then ix.competitors else ix.competitors + [name]);
      if |val| > 0 {
        if col !in ix.byEvent {
          NoDupAppend(ix.events, col);
        }
        var gs := if col in ix.byEvent then ix.byEvent[col] else Groups([], map[]);
        assert GroupsWellFormed(gs);
        if val !in gs.pools {
          NoDupAppend(gs.order, val);
        }
        assert GroupsWellFormed(r.byEvent[col]);
        assert forall e :: e in r.byEvent && e != col ==> r.byEvent[e] == ix.byEvent[e];
      }
    }
  }

  lemma AddCellKeepsIdle(ix: Index, name: Name, col: string, val: string, recognised: set<EventId>)
    requires AllIdle(ix)
    ensures AllIdle(AddCell(ix, name, col, val, recognised))
  {
    var r := AddCell(ix, name, col, val, recognised);
    if col in recognised {
      forall p | p in r.judging ensures Idle(r.judging[p]) {
        if p != name {
          assert r.judging[p] == ix.judging[p];
        } else {
          assert r.judging[p] == EntriesOf(ix.judging, p)[col := ""];
        }
      }
      forall p | p in r.scrambling ensures Idle(r.scrambling[p]) {
        if p != name {
          assert r.scrambling[p] == ix.scrambling[p];
        } else {
          assert r.scrambling[p] == EntriesOf(ix.scrambling, p)[col := ""];
        }
      }
    }
  }

  lemma AddCellKeepsMembersKnown(ix: Index, name: Name, col: string, val: string, recognised: set<EventId>)
    requires MembersKnown(ix)
    ensures MembersKnown(AddCell(ix, name, col, val, recognised))
  {
    var r := AddCell(ix, name, col, val, recognised);
    if col in recognised {
      forall e, g, p | p in PoolAt(r, e, g) ensures p in r.judging && p in r.scrambling {
        if |val| > 0 && e == col && g == val {
          assert p in PoolAt(ix, e, g) || p == name;
        } else {
          assert p in PoolAt(ix, e, g);
        }
      }
    }
  }

  lemma AddCellKeepsScanned(ix: Index, name: Name, col: string, val: string, recognised: set<EventId>)
    requires Scanned(ix)
    ensures Scanned(AddCell(ix, name, col, val, recognised))
  {
    AddCellKeepsWellFormed(ix, name, col, val, recognised);
    AddCellKeepsIdle(ix, name, col, val, recognised);
    AddCellKeepsMembersKnown(ix, name, col, val, recognised);
    AddCellKeepsPoolsNonEmpty(ix, name, col, val, recognised);
    AddCellKeepsNoEmptyLabel(ix, name, col, val, recognised);
  }

  lemma AddCellKeepsNoEmptyLabel(ix: Index, name: Name, col: string, val: string, recognised: set<EventId>)
    requires NoEmptyLabel(ix)
    ensures NoEmptyLabel(AddCell(ix, name, col, val, recognised))
  {
    var r := AddCell(ix, name, col, val, recognised);
    if col in recognised && |val| > 0 {
      forall e | e in r.byEvent ensures "" !in r.byEvent[e].pools {
        if e != col {
          assert r.byEvent[e] == ix.byEvent[e];
        }
      }
    }
  }

  lemma AddCellKeepsPoolsNonEmpty(ix: Index, name: Name, col: string, val: string, recognised: set<EventId>)
    requires PoolsNonEmpty(ix)
    ensures PoolsNonEmpty(AddCell(ix, name, col, val, recognised))
  {
    var r := AddCell(ix, name, col, val, recognised);
    forall e, g | e in r.byEvent && g in r.byEvent[e].pools ensures |r.byEvent[e].pools[g]| > 0 {
      assert PoolAt(r, e, g) == r.byEvent[e].pools[g];
      if !(col in recognised && |val| > 0 && e == col && g == val) {
        assert PoolAt(ix, e, g) == PoolAt(r, e, g);
      }
    }
  }

  lemma {:induction false} AddCellsKeepsScanned(ix: Index, name: Name, cells: seq<(string, string)>, recognised: set<EventId>)
    requires Scanned(ix)
    ensures Scanned(AddCells(ix, name, cells, recognised))
    decreases |cells|
  {
    if |cells| > 0 {
      AddCellsKeepsScanned(ix, name, cells[..|cells| - 1], recognised);
      var last := cells[|cells| - 1];
      AddCellKeepsScanned(AddCells(ix, name, cells[..|cells| - 1], recognised), name, last.0, last.1, recognised);
    }
  }

  /** After the scan the key orders are duplicate-free, every pool member has both
      table entries, nothing is assigned yet, and no pool has the empty label. */
  lemma {:induction false} BuildScanned(rows: seq<Row>, recognised: set<EventId>)
    ensures Scanned(Build(rows, recognised))
    decreases |rows|
  {
    if |rows| > 0 {
      BuildScanned(rows[..|rows| - 1], recognised);
      var last := rows[|rows| - 1];
      AddCellsKeepsScanned(Build(rows[..|rows| - 1], recognised), last.name, last.cells, recognised);
    }
  }

  lemma {:induction false} AddCellsPools(ix: Index, name: Name, cells: seq<(string, string)>, recognised: set<EventId>, e: EventId, g: Label)
    ensures PoolAt(AddCells(ix, name, cells, recognised), e, g)
      == PoolAt(ix, e, g) + (if e in recognised && g != "" then CellOccurrences(name, cells, e, g) else [])
    decreases |cells|
  {
    if |cells| > 0 {
      AddCellsPools(ix, name, cells[..|cells| - 1], recognised, e, g);
    }
  }

  /** Each pool the scan builds is exactly the reference pool: for a recognised
      event and a non-empty label, the rows' names holding that cell, in file
      order; every other (event, label) has no pool. */
  lemma {:induction false} BuildPools(rows: seq<Row>, recognised: set<EventId>, e: EventId, g: Label)
    ensures PoolAt(Build(rows, recognised), e, g) == (if e in recognised && g != "" then Occurrences(rows, e, g) else [])
    decreases |rows|
  {
    if |rows| > 0 {
      BuildPools(rows[..|rows| - 1], recognised, e, g);
      var last := rows[|rows| - 1];
      AddCellsPools(Build(rows[..|rows| - 1], recognised), last.name, last.cells, recognised, e, g);
    }
  }

  lemma {:induction false} AddCellsCompetitors(ix: Index, name: Name, cells: seq<(string, string)>, recognised: set<EventId>, p: Name)
    ensures p in AddCells(ix, name, cells, recognised).judging
      <==> p in ix.judging || (p == name && exists i :: 0 <= i < |cells| && cells[i].0 in recognised)
    decreases |cells|
  {
    if |cells| > 0 {
      var init := cells[..|cells| - 1];
      AddCellsCompetitors(ix, name, init, recognised, p);
      if exists i :: 0 <= i < |init| && init[i].0 in recognised {
        var i :| 0 <= i < |init| && init[i].0 in recognised;
        assert cells[i].0 in recognised;
      }
      if exists i :: 0 <= i < |cells| && cells[i].0 in recognised {
        var i :| 0 <= i < |cells| && cells[i].0 in recognised;
        if i < |init| {
          assert init[i].0 in recognised;
        }
      }
    }
  }

  /** A name becomes a key of the tables exactly when some row of that name has a
      recognised column, whether or not the competitor competes in it. */
  lemma {:induction false} BuildCompetitors(rows: seq<Row>, recognised: set<EventId>, p: Name)
    ensures p in Build(rows, recognised).judging
      <==> exists i :: 0 <= i < |rows| && rows[i].name == p && HasRecognisedColumn(rows[i], recognised)
    decreases |rows|
  {
    if |rows| > 0 {
      var init := rows[..|rows| - 1];
      var last := rows[|rows| - 1];
      BuildCompetitors(init, recognised, p);
      AddCellsCompetitors(Build(init, recognised), last.name, last.cells, recognised, p);
      if exists i :: 0 <= i < |init| && init[i].name == p && HasRecognisedColumn(init[i], recognised) {
        var i :| 0 <= i < |init| && init[i].name == p && HasRecognisedColumn(init[i], recognised);
        assert rows[i] == init[i];
      }
      if exists i :: 0 <= i < |rows| && rows[i].name == p && HasRecognisedColumn(rows[i], recognised) {
        var i :| 0 <= i < |rows| && rows[i].name == p && HasRecognisedColumn(rows[i], recognised);
        if i < |init| {
          assert init[i] == rows[i];
        }
      }
    }
  }

  /** Some schedule row of `p` holds the cell (e, g): `p` competes in group `g`. */
  ghost predicate CompetesIn(rows: seq<Row>, p: Name, e: EventId, g: Label) {
    exists k, i :: 0 <= k < |rows| && 0 <= i < |rows[k].cells| && rows[k].name == p && rows[k].cells[i] == (e, g)
  }

  lemma {:induction false} CellOccurrencesMember(name: Name, cells: seq<(string, string)>, e: EventId, g: Label, p: Name)
    requires p in CellOccurrences(name, cells, e, g)
    ensures p == name && exists i :: 0 <= i < |cells| && cells[i] == (e, g)
    decreases |cells|
  {
    var init := cells[..|cells| - 1];
    if p in CellOccurrences(name, init, e, g) {
      CellOccurrencesMember(name, init, e, g, p);
      var i :| 0 <= i < |init| && init[i] == (e, g);
      assert cells[i] == init[i];
    } else {
      assert cells[|cells| - 1] == (e, g);
    }
  }

  lemma {:induction false} OccurrencesMember(rows: seq<Row>, e: EventId, g: Label, p: Name)
    requires p in Occurrences(rows, e, g)
    ensures CompetesIn(rows, p, e, g)
    decreases |rows|
  {
    var init := rows[..|rows| - 1];
    var last := rows[|rows| - 1];
    if p in Occurrences(init, e, g) {
      OccurrencesMember(init, e, g, p);
      var k, i :| 0 <= k < |init| && 0 <= i < |init[k].cells| && init[k].name == p && init[k].cells[i] == (e, g);
      assert rows[k] == init[k];
    } else {
      CellOccurrencesMember(last.name, last.cells, e, g, p);
      var i :| 0 <= i < |last.cells| && last.cells[i] == (e, g);
      assert rows[|rows| - 1].cells[i] == (e, g);
    }
  }

  /** Everyone the scan lists in the pool of (e, g) has a schedule row holding
      that cell. */
  lemma PoolMemberCompetes(rows: seq<Row>, recognised: set<EventId>, e: EventId, g: Label, p: Name)
    requires p in PoolAt(Build(rows, recognised), e, g)
    ensures CompetesIn(rows, p, e, g)
  {
    BuildPools(rows, recognised, e, g);
    OccurrencesMember(rows, e, g, p);
  }

  /** `shuffle_competitors_in_group`: every pool is replaced by a caller-chosen
      reordering; keys, key orders and tables are untouched. */
  function ShufflePools(ix: Index, shuffle: (EventId, Label, seq<Name>) -> seq<Name>): (r: Index)
    requires forall e, g, s :: multiset(shuffle(e, g, s)) == multiset(s)
    ensures r.competitors == ix.competitors && r.judging == ix.judging && r.scrambling == ix.scrambling
    ensures r.events == ix.events
    ensures r.byEvent.Keys == ix.byEvent.Keys
    ensures forall e :: e in r.byEvent ==> r.byEvent[e].order == ix.byEvent[e].order
    ensures forall e, g :: multiset(PoolAt(r, e, g)) == multiset(PoolAt(ix, e, g))
  {
    var byEvent := map e | e in ix.byEvent ::
      Groups(ix.byEvent[e].order, map g | g in ix.byEvent[e].pools :: shuffle(e, g, ix.byEvent[e].pools[g]));
    ix.(byEvent := byEvent)
  }

  /** A reordering of the pools keeps the scan's state. */
  lemma ShuffleKeepsScanned(ix: Index, shuffle: (EventId, Label, seq<Name>) -> seq<Name>)
    requires forall e, g, s :: multiset(shuffle(e, g, s)) == multiset(s)
    requires Scanned(ix)
    ensures Scanned(ShufflePools(ix, shuffle))
  {
    var r := ShufflePools(ix, shuffle);
    forall e, g, p | p in PoolAt(r, e, g) ensures p in r.judging && p in r.scrambling {
      assert p in multiset(PoolAt(r, e, g));
      assert p in PoolAt(ix, e, g);
    }
  }
}
